=== FILE: README.md ===
# goload defaults engine and version cache, in Dafny

goload fills the zero-valued fields of a Go configuration struct from
`default:"…"` struct tags. It also keeps a small versioned cache of validated
configurations. This project models both. Go reflection is replaced by two
inductive datatypes:

- `Types.Ty` is a closed description of Go types: bool, string, sized ints and
  uints, floats, a `TextUnmarshaler` pointer (`TextU`), interfaces, structs
  with named, tagged, exported-or-not fields, slices, pointers, maps with a
  key kind, and inert kinds (chan, func, complex). `[]byte` is
  `Slice(Uint(W8))`, as in Go.
- `Types.Val` mirrors `Ty`. Nil pointers, nil slices and nil maps are
  explicit constructors. A map is an association list with distinct keys.

Each Go panic is an `Err(Panic(..))` result. These are all of them:

- `isZero` on a nil pointer, whose `Indirect` is the zero `Value` (`Support.NilDeref`);
- `Set` on a value reached through an unexported field (`Inspect.UnsettablePanic`, `Walk.UnexportedPanic`);
- `Set` through the `Elem` of a nil pointer (`Walk.NilElemPanic`);
- `Interface` on a value reached through an unexported field, in the debug prints of pkg/parse/load.go (`Walk.InterfacePanic`);
- a dereference of a nil option in `parseFromField` (`Walk.NilOptionPanic`);
- an index past the default tokens (`Walk.IndexPanic`);
- `Convert` of a token to an integer map key (`Types.ConvertPanic`);
- a `getDefault` CSV error;
- an error of the element walk in `setZeroType`'s map loop, re-raised by `panic(err)` (`Walk.Raise`);
- `zeroType` when the default pass of a struct it builds fails (`Defaults.SubStructPanic`, through `Defaults.AsPanic`);
- `parseSimpleValue` on a kind it does not handle (`Defaults.NotSimplePanic`).

reflect's addressable flag and its two read-only flags become `Types.Access`. One read-only flag comes from an unexported field and is inherited by everything below it. The other comes from an unexported embedded field and is dropped by its exported fields.

The modules follow the repository:

- `Numeric`, `Csv`, `Scalar`: `strconv`-style integer and boolean parsing; the first CSV record of a
  line, per section 2 of RFC 4180; `parseSimpleValue` on leaf types; `parseError`.
- `Support`: `isSupportedType`, the deep `isZero` (`DeepZero`), and Go's
  shallow `reflect.Value.IsZero` (`ShallowZero`).
- `Options`: `TagOption`, `TagValue`, `parseField`, `fullID`, `clone`,
  `parseFromField`, `getDefault` and `SetIdent` in pkg/parse/options.go.
- `Inspect`, `Defaults`, `DefaultsProps`: the engine of pkg/parse/inspect_struct.go
  and pkg/parse/utils.go. `inspectField` allocates nested pointers and maps
  and builds the descriptor tree. `setDefaults` applies tag defaults in post-order.
  `zeroType`, `parseSlice`, `parseMap`, `setValueByString` and `setValue` are also modelled.
- `Walk`, `PkgLoad`, `RootLoad`, `WalkProps`, `WalkSlices`: the recursive
  walker of pkg/parse/load.go (`PkgLoad`) and its older copy in load.go and
  utils.go (`RootLoad`). In pkg/parse/load.go, `parseSlice` writes token i
  into the `Default` of the option it shares with its caller, so `PkgLoad`
  threads that text through the walk. The root copy hands each element a
  fresh option.
- `ConfVersion`: `confLoader` in pkg/ConfVersion/versionLoader.go, as a pure
  state value with a window invariant.

Some behaviours of the code that are easy to miss:

- The element option clone at pkg/parse/load.go:117-121 is unused. The shared
  option's `Default` is overwritten with each token, and that overwrite
  outlives the slice.
- The eviction guard at pkg/ConfVersion/versionLoader.go:40 never fires when
  `mod <= 1`, so such a cache never evicts (`ConfVersion.NoEvictionSmallMod`).
- versionLoader.go takes no lock around the cache.
- The duplicate-identifier check of pkg/parse/inspect_struct.go:96-108 is
  commented out, so two sibling fields may share an identifier without error.
- The engine's `parseMap` converts the token string straight to the key type
  (pkg/parse/utils.go:255). That panics for any non-string key
  (`DefaultsProps.ParseMapIntKeyPanics`). Only the walkers' `setZeroType`
  parses integer keys with `Atoi`.
- `zeroType` panics when `setDefaultStruct` fails on the struct it builds
  (pkg/parse/utils.go:228-230). `Defaults.ZeroTypeD` returns a panic for that
  case.
- `parseValue` in pkg/parse/load.go prints every struct, pointer, map and
  slice through `Interface` before walking it (lines 68-77). That panics for a
  value reached through an unexported field, embedded or not
  (`PkgLoad.ParseKind`).
- Go's CSV reader turns each `"\r\n"` into `"\n"` and drops a `'\r'` that
  ends the text before it reads the record (`Csv.Normalize`).

## Model

| member | source | states |
|---|---|---|
| Numeric.ParseInt | pkg/parse/utils.go:34-56 | succeeds exactly when the text is an optionally signed decimal whose value lies in the signed range of the width (native int is 64 bits), and then yields that value |
| Numeric.ParseUint | pkg/parse/utils.go:59-81 | succeeds exactly when the text is unsigned decimal digits whose value is at most the width's maximum, and then yields that value |
| Numeric.ParseIntFormat | pkg/parse/utils.go:34-56 | the decimal text of any integer parses back to that integer at a width iff the width holds it |
| Numeric.ParseUintFormat | pkg/parse/utils.go:59-81 | the decimal text of any natural parses back to it at a width iff it is at most the width's maximum |
| Numeric.Atoi | pkg/parse/load.go:231-235 | accepts exactly the signed decimals in the native 64-bit range, with their value |
| Numeric.ParseBool | pkg/parse/utils.go:151-156 | true for exactly 1, t, T, TRUE, true, True; false for exactly 0, f, F, FALSE, false, False; every other text fails |
| Numeric.ParseBoolFormat | pkg/parse/utils.go:151-156 | the text form of either boolean reads back as itself |
| Numeric.WrapInt | pkg/parse/load.go:234 | Convert of a native int to a narrower signed key type lands in that type's range, agrees modulo 2^width, and leaves in-range values alone |
| Numeric.WrapUint | pkg/parse/load.go:234 | the same for unsigned key types: in range, congruent modulo 2^width, identity on in-range values |
| Csv.ReadAsCsv | pkg/parse/utils.go:379-386 | the empty text gives an empty list without error; any other text that reads gives at least one field |
| Csv.CrLfInQuotes | pkg/parse/utils.go:379-386 | a "\r\n" inside a quoted field reads as "\n" |
| Csv.CrLfAfterQuote | pkg/parse/utils.go:379-386 | a "\r\n" right after a closing quote ends the record like "\n" |
| Csv.TrailingCr | pkg/parse/utils.go:379-386 | a '\r' that ends the text is dropped, not kept in the last field |
| Csv.BlankCrLfLine | pkg/parse/utils.go:379-386 | a leading line that is only "\r\n" is blank and skipped |
| Csv.ThreeFields | pkg/parse/utils.go:379-386 | "a,b,c" reads as the three fields a, b, c in order |
| Csv.PlainRoundTrip | utils.go:73-80 | any non-empty list of fields without quotes, commas, line breaks or carriage returns, joined with commas into a non-empty text, reads back as the same list, whether the line ends with nothing, "\n", "\r\n" or '\r' |
| Csv.QuotedRoundTrip | pkg/parse/utils.go:379-386 | any non-empty list of fields without carriage returns, each quoted with inner quotes doubled (section 2 of RFC 4180), reads back as the same list, commas, quotes and line breaks included |
| Csv.RecordNonEmpty | pkg/parse/utils.go:384-385 | reading a record only ever adds at least one field to what was read before |
| Scalar.ParseLeaf | utils.go:84-158 | strings are stored verbatim and interfaces get the raw text; bools, ints and uints succeed exactly as their parsers accept and hold the parsed value; a TextUnmarshaler ends non-nil; failures are parse or unmarshal errors naming the text and the type |
| Scalar.IntDefaultRoundTrip | utils.go:161-183 | an int field defaulted with the decimal text of x holds x when the width holds x, and otherwise gets a parse error |
| Scalar.UintDefaultRoundTrip | utils.go:186-208 | a uint field defaulted with the decimal text of n holds n when the width holds n, and otherwise gets a parse error |
| Scalar.BoolDefaultRoundTrip | utils.go:131-136 | a bool field defaulted with the text of b holds b |
| Scalar.ParseErrorMessage | utils.go:229-235 | the message contains the input text and the type name, and the cause when there is one; with no cause it is exactly the fixed prefix sentence |
| Support.SupportedIffComponents | pkg/parse/utils.go:427-475 | a type is supported iff every type reachable from it through struct fields, slice and pointer elements and map elements is acceptable on its own (a leaf kind, TextUnmarshaler, []byte, or a map with a listed key kind) |
| Support.MapKeyKinds | pkg/parse/utils.go:461-468 | string, int32 and uint64 keys are accepted, while int64, plain uint and non-integer keys are refused even with a supported element |
| Support.DeepZeroMap | pkg/parse/utils.go:397-398 | a map is deep-zero iff it is nil or empty |
| Support.DeepZeroSlice | pkg/parse/utils.go:399-400 | a slice is deep-zero iff it is nil, however many zero elements it has |
| Support.DeepZeroPointer | pkg/parse/utils.go:413-414 | a pointer is deep-zero iff its pointee is, and a nil pointer panics |
| Support.DeepZeroStruct | pkg/parse/utils.go:407-412 | a struct whose fields all decide is deep-zero iff every field is |
| Support.DeepZeroStructStops | pkg/parse/utils.go:407-412 | once a field decides non-zero after zero fields, the struct is non-zero (later fields are not consulted) |
| Support.ShallowImpliesDeep | pkg/parse/utils.go:395-419 | a value that is zero in Go's shallow sense is also deep-zero wherever the deep test decides |
| Support.ZeroNotionsDiffer | pkg/parse/load.go:194 | a pointer to 0 is deep-zero but not shallow-zero, and a nil pointer is shallow-zero while the deep test panics on it |
| Support.ZeroOfShallowZero | pkg/parse/load.go:241-247 | the zero value of every type is shallow-zero |
| Types.ZeroOfHasType | pkg/parse/load.go:246 | the zero value of a type has that type |
| Walk.ShallowZeroIsZeroOf | pkg/parse/load.go:241-247 | a shallow-zero value is exactly the zero value of its type |
| Walk.ZeroTypeAccess | pkg/parse/load.go:265-276 | the value zeroType builds can always be interfaced, and can be set exactly when it is a struct (reflect.Indirect of reflect.New) |
| Options.SetIdent | pkg/parse/options.go:10-25 | the ident tag becomes the given name; json, yaml and toml select the matching encoder and decoder; any other name leaves both codecs as they were |
| Options.SetIdentLastWins | pkg/parse/options.go:10-25 | after a second SetIdent naming a known codec, the first one leaves no trace |
| Options.NewDefaultTagOpt | pkg/parse/options.go:66-73 | a field is named by its yaml tag and has a default exactly when it carries the `default` tag; the option carries no field part |
| Options.SetValidTag | pkg/parse/options.go:27-31 | validation rules are then read under the given key; the other tag keys and the codecs are kept |
| Options.SetDescTag | pkg/parse/options.go:33-37 | descriptions are then read under the given key; the other tag keys and the codecs are kept |
| Options.SetDefaultTag | pkg/parse/options.go:39-43 | a field then has a default exactly when it carries the given key, with that key's value; the other tag keys and the codecs are kept |
| Options.Ident | pkg/parse/options.go:105-109 | the identifier-tag value when it is non-empty, otherwise the field name lower-cased character by character |
| Options.ReadTagValue | pkg/parse/options.go:105-113 | DefaultSet holds iff the default key is on the field, even with an empty value; Default is that value, or empty |
| Options.Clone | pkg/parse/options.go:94-102 | the copy agrees with the original on every tag-key name and has no parse field |
| Options.FromField | pkg/parse/options.go:103-118 | the result keeps the receiver's tag-key names and carries a parse field whose ident and default come from the field's tags |
| Options.GetDefault | pkg/parse/options.go:120-129 | no option or no parse field gives no tokens; otherwise the CSV tokens of Default, and a CSV error is a panic |
| Options.FullIdSnoc | pkg/parse/options.go:91-93 | appending a part extends the full id by a dot and that part |
| Options.FullIdLength | pkg/parse/options.go:91-93 | the full id's length is the parts' total length plus one separator between each pair |
| Inspect.ParseFromField | pkg/parse/inspect_struct.go:114-134 | a descriptor's path is the parent's path plus its ident, so its full id is the parent's full id, a dot and the ident; DefaultSet follows the default key's presence |
| Inspect.Allocate | pkg/parse/inspect_struct.go:68-74 | a nil pointer, map or TextUnmarshaler becomes non-nil when settable and panics when not; a pointer gets a zero pointee; non-nil values are untouched |
| Inspect.DescribeField | pkg/parse/inspect_struct.go:77-95 | isParent holds exactly for struct and pointer-to-struct fields other than TextUnmarshalers, isMap for map fields, and a parent's children describe its struct |
| Inspect.DescribeFrom | pkg/parse/inspect_struct.go:46-111 | one descriptor per remaining field in declaration order, and the all-fields list is their post-order |
| Inspect.AllocField | pkg/parse/inspect_struct.go:76-93 | a leaf field is left as it is; a parent field comes back fully allocated unless an error stopped the walk |
| Inspect.AllocFrom | pkg/parse/inspect_struct.go:50-74 | an unsupported field anywhere ahead forces an error; without error every remaining field is allocated; earlier fields and non-nil leaf fields are untouched |
| Inspect.InspectField | pkg/parse/inspect_struct.go:46-111 | an unsupported field type is an error with no descriptors; otherwise every reachable nil pointer and map is allocated and the descriptors describe the struct in order |
| DefaultsProps.PostOrderBlocks | pkg/parse/inspect_struct.go:94-95 | in the all-fields list every parent comes right after the block of all its descendants |
| DefaultsProps.PostOrderKeepsOrder | pkg/parse/inspect_struct.go:94-95 | direct fields keep their order, each after its own descendants, and the last direct field closes the list |
| DefaultsProps.AllocIdle | pkg/parse/inspect_struct.go:68-93 | inspecting an already allocated, supported struct again changes nothing and reports nothing |
| Defaults.DefaultParentStep | pkg/parse/inspect_struct.go:142-146 | a default tag on a parent field is an error, and no other field changes |
| Defaults.DefaultPlainStep | pkg/parse/inspect_struct.go:138-179 | a field without a default tag, unexported, or not deep-zero is left as it is; otherwise without error it holds exactly the parsed default; no other field changes |
| Defaults.DefaultField | pkg/parse/inspect_struct.go:137-180 | one iteration of setDefaults changes only its own field, keeps the struct's type and keeps every pointer, map and parent field allocated |
| Defaults.DefaultFrom | pkg/parse/inspect_struct.go:136-183 | the whole setDefaults loop keeps the struct's type and keeps every pointer, map and parent field allocated, so later iterations find their fields ready |
| Defaults.ParseDefault | pkg/parse/inspect_struct.go:157-174 | a default value built for a field has the field's type, and one for a field that is not a parent has every pointer and map in it allocated |
| DefaultsProps.FrameBefore | pkg/parse/inspect_struct.go:137-180 | defaulting from field i onward never changes an earlier field |
| DefaultsProps.DefaultFromKeeps | pkg/parse/inspect_struct.go:147-155 | a later field that may not be defaulted keeps its value through the whole pass |
| DefaultsProps.DefaultFromFills | pkg/parse/inspect_struct.go:157-179 | when the pass succeeds, every field that may be defaulted holds exactly its parsed default |
| DefaultsProps.DefaultFromNested | pkg/parse/inspect_struct.go:142-146 | any parent field with a default tag makes the pass fail |
| DefaultsProps.KeepsUnselectedField | pkg/parse/inspect_struct.go:136-155 | setDefaultStruct leaves a field alone when it has no default tag, is unexported, or is not deep-zero |
| DefaultsProps.FillsSelectedField | pkg/parse/inspect_struct.go:157-179 | when setDefaultStruct succeeds, a tagged, exported, zero field holds exactly the value parsed from its tag at its path |
| DefaultsProps.DefaultFieldIdempotent | pkg/parse/inspect_struct.go:147-155 | defaulting one field a second time gives the same result as the first |
| DefaultsProps.DefaultFromIdempotent | pkg/parse/inspect_struct.go:147-155 | a second default pass over the result of a successful one changes nothing |
| DefaultsProps.SetDefaultStructIdempotent | pkg/parse/inspect_struct.go:35-44 | running setDefaultStruct on its own successful output returns the same output |
| Defaults.SetDefaultStruct | pkg/parse/inspect_struct.go:35-44 | the struct keeps its type, and an unsupported field type anywhere makes it fail |
| Defaults.InspectStruct | pkg/parse/inspect_struct.go:11-33 | a non-pointer, a nil pointer and a pointer to a non-struct are refused, each with its own error and an untouched target; a pointer to a struct gets setDefaultStruct on its pointee |
| Defaults.ZeroTypeD | pkg/parse/utils.go:198-242 | the result has the type with every pointer level set; its only failure is a panic; types other than pointers, structs and TextUnmarshalers give their zero value |
| DefaultsProps.ZeroTypeNestedPointer | pkg/parse/utils.go:198-218 | materialising a pointer to a pointer to int gives non-nil pointers at both levels over 0 |
| WalkProps.ZeroTypesAgree | pkg/parse/load.go:252-276 | for types with no struct at their base, the engine's zeroType and the walker's zeroType build the same value |
| Walk.ZeroTypeW | pkg/parse/load.go:265-276 | the walker's zeroType has the type, sets every pointer level and leaves zero values beneath |
| Defaults.ParseSimple | pkg/parse/utils.go:104-178 | leaf types parse as the scalar parsers do; a struct or pointer is materialised whatever the text; any other kind panics |
| DefaultsProps.ParseSimpleIgnoresText | pkg/parse/utils.go:130-145 | for struct and pointer types the default text makes no difference |
| Defaults.ParseElems | pkg/parse/utils.go:187-192 | one element per token, element j parsed from token j; it fails iff some token fails to parse |
| Defaults.ParseSliceD | pkg/parse/utils.go:181-196 | a CSV error is reported as such; on success the slice has one element per CSV token, element j parsed from token j |
| DefaultsProps.ParseSliceTokens | pkg/parse/utils.go:181-196 | when every token parses, the slice is exactly the parsed tokens in order |
| DefaultsProps.ParseSliceInts | pkg/parse/utils.go:181-196 | the comma-joined decimals of in-range int64s parse back to the same numbers |
| Defaults.ParseMapD | pkg/parse/utils.go:245-262 | the key set is exactly the set of CSV tokens, each value is an independent materialised element, and a non-empty default for a non-string key panics |
| Defaults.BuildMap | pkg/parse/utils.go:250-259 | keys stay distinct, a repeated token adds nothing, and the keys are the earlier keys plus one per token |
| DefaultsProps.ParseMapRepeatedKey | pkg/parse/utils.go:245-262 | "a,b,a" gives the two keys a and b |
| DefaultsProps.ParseMapIntKeyPanics | pkg/parse/utils.go:245-259 | `map[int]int` is a supported type, yet its default "1" panics when the token string is converted to the int key |
| Defaults.SetValueByString | pkg/parse/utils.go:478-490 | for slice types other than []byte: a CSV error is reported as such; otherwise the result is a slice with one element per CSV token, each the simple parse of its token, and it fails iff some token does not parse; every other type is the simple parse of the whole text |
| Defaults.SetValue | pkg/parse/utils.go:498-519 | same type is stored as is; otherwise a convertible value is converted; otherwise a string source is parsed; anything but slice-to-slice is a not-convertible error |
| DefaultsProps.SetValueSameType | pkg/parse/utils.go:500-503 | a value of the target's own type is stored unchanged |
| DefaultsProps.SetValueStringToInts | pkg/parse/utils.go:498-519 | a string holding the comma-joined decimals of any non-empty list of int64 values, stored into a `[]int64` that a string cannot be converted to, goes through setValueByString and yields exactly those values |
| Walk.MapKey | pkg/parse/load.go:231-237 | string keys are taken verbatim; an integer key is dropped exactly when Atoi rejects the token; other key kinds panic in the conversion |
| PkgLoad.LoadStruct | pkg/parse/load.go:47-60 | a non-pointer, a nil pointer and a pointer to a non-struct are refused with their own errors and an untouched target; otherwise the pointee is walked with the caller's option |
| PkgLoad.ParseValue | pkg/parse/load.go:63-85 | a leaf reaches parseSample unchanged; chans, funcs, interfaces and other unsupported kinds are left alone; a settable pointer always ends non-nil; a nil unaddressable pointer panics in Elem and a composite reached through an unexported field panics in the debug print |
| PkgLoad.ParseKind | pkg/parse/load.go:66-84 | a struct, pointer, TextUnmarshaler, map or slice reached through an unexported field panics in the debug print before it is walked |
| PkgLoad.SetZeroType | pkg/parse/load.go:187-250 | unsettable values and values that are not shallow-zero come back unchanged; a settable nil pointer gets a zero pointee and a nil TextUnmarshaler a fresh one; a settable nil slice succeeds iff the current default reads, and then gets one zero element per token; a failure is a panic that leaves the value alone |
| PkgLoad.ParseStruct | pkg/parse/load.go:87-110 | earlier fields are untouched, the shared default text is handed back unchanged, and an unsupported field type ahead makes the walk fail |
| PkgLoad.ParsePointer | pkg/parse/load.go:163-170 | a nil pointer and a read-only pointer panic; any other pointer ends non-nil |
| WalkProps.PkgNonNilPointer | pkg/parse/load.go:63-72 | a non-nil pointer is walked by parsePointer when it can be interfaced, and panics in the debug print when it was reached through an unexported field |
| WalkProps.PkgPointerWipes | pkg/parse/load.go:163-170 | the walk of a non-nil pointer does not depend on what it pointed to, because the pointee is reset to zero first |
| PkgLoad.ParseMap | pkg/parse/load.go:132-161 | re-walking the values keeps the key set exactly, and a nil map is left alone |
| PkgLoad.ParseSlice | pkg/parse/load.go:112-130 | a successful walk means the current default reads as CSV, and with a parse field there are at least as many tokens as elements |
| PkgLoad.SliceElems | pkg/parse/load.go:115-128 | the length is kept and earlier elements are untouched; with a parse field, success needs enough tokens, and the shared default ends as the last element's token |
| WalkSlices.PkgSliceTakesTokens | pkg/parse/load.go:112-130 | zero leaf elements each end holding the parse of their own token |
| WalkSlices.PkgSliceRunsOut | pkg/parse/load.go:120 | a slice longer than its token list panics on the missing index |
| WalkSlices.PkgLeafTakesDefault | pkg/parse/load.go:172-185 | a settable zero leaf with a parseable default other than "-" ends holding the parsed default |
| PkgLoad.ParseSample | pkg/parse/load.go:172-185 | only a settable, shallow-zero value with a parse field can change; "-" is a no-op; a change is the parse of the default and an error leaves the value |
| WalkProps.PkgBuildKeys | pkg/parse/load.go:226-239 | the keys built are the earlier keys plus those tokens MapKey accepts, and there are no more entries than tokens |
| PkgLoad.ZeroMap | pkg/parse/load.go:218-240 | a default that does not read as CSV panics and leaves the map nil; no tokens give an empty map; a failure while building is a panic with the map untouched |
| PkgLoad.BuildEntries | pkg/parse/load.go:226-239 | the entries built have distinct keys of the key type and values of the element type, and every failure is a panic |
| PkgLoad.MapElement | pkg/parse/load.go:227-230 | an element of leaf type is never written: zeroType's value cannot be set, so it stays zero whatever the default |
| WalkProps.PkgNilMapKeys | pkg/parse/load.go:218-240 | a nil map becomes a map keyed by exactly the accepted default tokens, with at most one entry per token |
| WalkProps.PkgSetZeroTypeIdempotent | pkg/parse/load.go:187-250 | running setZeroType again on its own successful output changes nothing |
| WalkProps.SetZeroTypeStructUnchanged | pkg/parse/load.go:200-205 | a struct is never replaced, because a fresh zero struct equals the zero struct it would replace |
| RootLoad.RootDefault | load.go:18-27 | no tag value gives no tokens; otherwise the CSV tokens of the tag value, and a CSV error is a panic |
| RootLoad.RootFromField | load.go:29-44 | the tag value is set iff the field carries the tag key, and then holds its text |
| RootLoad.LoadStruct | load.go:45-62 | the same three root refusals; otherwise the pointee is walked with the tag name and no tag value |
| RootLoad.ParseValue | load.go:154-171 | a leaf reaches parseSample unchanged; unsupported kinds are left alone; a settable pointer always ends non-nil; a nil pointer that cannot be set panics in Elem |
| RootLoad.ParseKind | load.go:156-170 | nothing is printed; unsupported kinds are left alone, a struct below a sticky read-only field is not written at all, and a nil or empty map is kept; a non-nil pointer or non-empty map reached through an unexported field panics in reflect's Set (LoadStruct never gets there, because parseStruct skips unsettable fields, load.go:73-75) |
| RootLoad.SetZeroType | load.go:173-232 | unsettable and non-zero values come back unchanged; a settable nil pointer gets a zero pointee and a nil TextUnmarshaler a fresh one; a settable nil slice succeeds iff the tag value reads, and then gets one zero element per token; a failure is a panic that leaves the value alone |
| RootLoad.ParseStruct | load.go:64-90 | every field is type-checked, fields that cannot be set are never changed, and earlier fields are untouched |
| RootLoad.ParsePointer | load.go:131-138 | a nil pointer and a read-only pointer panic; any other pointer ends non-nil |
| WalkProps.RootPointerWipes | load.go:131-138 | the walk of a non-nil pointer does not depend on its old pointee |
| RootLoad.ParseMap | load.go:115-129 | the key set is kept exactly, and a nil map is left alone |
| RootLoad.ParseSlice | load.go:92-113 | without a tag value the slice is untouched; a successful walk keeps the length |
| RootLoad.ElementOption | load.go:97-106 | element i gets token i as its tag value, or none past the last token |
| RootLoad.SliceElems | load.go:95-111 | the slice keeps its length and the elements before the current one are untouched |
| WalkSlices.RootSliceTakesTokens | load.go:92-113 | each zero leaf element with a token ends holding that token's parse, and each without one is left zero |
| RootLoad.ParseSample | load.go:140-151 | only a settable, shallow-zero value with a tag value can change; "-" is a no-op; a change is the parse of the tag value |
| WalkSlices.RootLeafTakesDefault | load.go:140-151 | a settable zero leaf with a parseable tag value other than "-" ends holding its parse |
| WalkSlices.RootLeafWithoutDefault | load.go:140-151 | a leaf without a tag value is never touched |
| WalkProps.RootBuildKeys | load.go:209-222 | the keys built are the earlier keys plus the accepted tokens, at most one entry per token |
| RootLoad.BuildEntries | load.go:209-222 | the entries built have distinct keys of the key type and values of the element type, and every failure is a panic |
| RootLoad.MapElement | load.go:210-213 | an element of leaf type is never written, whatever the tag value |
| WalkProps.RootNilMapKeys | load.go:202-224 | a nil map becomes a map keyed by exactly the accepted tokens of the tag value |
| WalkProps.RootSetZeroTypeIdempotent | load.go:173-232 | setZeroType on its own successful output changes nothing |
| ConfVersion.NewConfLoader | pkg/ConfVersion/versionLoader.go:20-26 | a new cache is at version 0, keeps the given size and holds nothing, which satisfies the window invariant |
| ConfVersion.Load | pkg/ConfVersion/versionLoader.go:28-44 | Valid's error or false refuses the config; otherwise the first load stays at version 0 and later ones add 1, the new config is stored at the current version, and other kept versions keep their configs |
| ConfVersion.Get | pkg/ConfVersion/versionLoader.go:46-48 | the config stored at the current version, or the zero config when there is none |
| ConfVersion.LoadThenGet | pkg/ConfVersion/versionLoader.go:39 | after a successful load, Get returns exactly the loaded config |
| ConfVersion.VersionMonotone | pkg/ConfVersion/versionLoader.go:36-38 | a successful load moves the version forward by 0 or 1, never back |
| ConfVersion.LoadKeepsWindow | pkg/ConfVersion/versionLoader.go:36-42 | the keys stay the contiguous run ending at the current version; the size becomes min(size+1, mod) for mod > 1 and size+1 otherwise |
| ConfVersion.NoEvictionSmallMod | pkg/ConfVersion/versionLoader.go:40 | with mod at most 1 a load never removes a kept version |
| ConfVersion.LoadAllWindow | pkg/ConfVersion/versionLoader.go:28-44 | after n more valid loads the version, the window and its size are what n single loads give |
| ConfVersion.LoadAllFresh | pkg/ConfVersion/versionLoader.go:20-44 | from a new cache, n valid loads reach version n-1 and keep exactly the last min(n, mod) versions (all n when mod is at most 1) |
| ConfVersion.FourLoadsKeepTwo | pkg/ConfVersion/versionLoader.go:40-42 | four loads into a cache of size 2 leave versions 2 and 3 |
| EmbeddedFields.EmbeddedFlagNotInherited | pkg/parse/inspect_struct.go:48-56 | an unexported embedded field can neither be set nor interfaced, yet its exported fields, directly or behind a pointer, can be set; below an unexported field that is not embedded nothing can be interfaced |
| EmbeddedFields.AllocSameAccess | pkg/parse/inspect_struct.go:50-74 | the allocation walk over a struct with the embedded read-only flag is the walk over the same struct without it |
| EmbeddedFields.DescribeSameAccess | pkg/parse/inspect_struct.go:76-95 | the description walk over a struct with the embedded read-only flag is the walk over the same struct without it |
| EmbeddedFields.EmbeddedInspectedAsExported | pkg/parse/inspect_struct.go:36-111 | inspectField and the whole default pass treat an addressable unexported embedded struct exactly as an exported one: same allocations, descriptors, writes and errors |
| EmbeddedFields.EmbeddedPanicsInPkgWalk | pkg/parse/load.go:63-110 | walking a zero struct with an unexported embedded struct field panics when the embedded field is printed through Interface |
| EmbeddedFields.EmbeddedSkippedInRootWalk | load.go:64-90 | the root walker skips an unexported embedded struct field, which cannot be set, and leaves a zero struct as it was without error |

## Left out

- File input and output (`Load`, `ImportFile`, `ExportFile` in pkg/parse/load.go:14-35) and the `LoadEnv`/`LoadCmd` stubs: they do I/O or panic unconditionally.
- The JSON, YAML and TOML codecs and the `Parser` wiring: `SetIdent` records only which codec is chosen, as an enum.
- The debug `Printf` calls of pkg/parse/load.go:68-77 are modelled only for the panic their `Interface` call raises on a read-only value; what they print is not modelled.
- The other debug prints (pkg/parse/load.go:102, 123, 182, 188, 198, 245, 248, pkg/parse/utils.go:139, load.go:82 and utils.go:119) and the `parser.fields`/`allFields` cache written by `setDefaultStruct` (pkg/parse/inspect_struct.go:41-42): they never call `Interface` on a value that cannot be interfaced. They print constants, types, flags and `IsZero`, or a `reflect.Value` through `fmt`, which calls `Interface` only when `CanInterface` holds. So they neither panic nor change the values computed.
- Float parsing, base64 decoding, `UnmarshalText` and Go's `Convert`/`ConvertibleTo`: these are parameters (`Types.Externals`) that either succeed with a value or fail. A TextUnmarshaler's pointee is an opaque state; the lines below name what Go does with that pointee and the model does not.
- `parseMapToStruct`, `convertSlice` and `cleanUpYAML` (pkg/parse/utils.go:265-376): they depend on decoder output shapes. `Defaults.SetValue` leaves its slice-to-slice branch to the `convertSlice` parameter.
- Defaults.SetValue: assignability is modelled as type identity. Go's other assignability cases (interfaces, unnamed types) fall to the convertibility parameter.
- pkg/ConfVersion/loader.go: a stub with a mutex and no logic. There is no concurrency in the model.
- ConfVersion.Load: the configuration's `Valid` method is a `Verdict` argument. It is not a call.
- ConfVersion.Get: Go's zero value of the configuration type is an argument.
- Go's random map iteration order: maps are lists in a fixed order. Map results are stated through their key sets, which do not depend on the order.
- The text of panic messages: a panic carries a kind, not Go's formatted message.
- DefaultsProps.DefaultFromIdempotent: proved under the hypothesis that the deep zero test decides on the defaulted fields. Where it would panic on a nil pointer inside a field, the model does not claim idempotence.
- DefaultsProps.DefaultFieldIdempotent: proved under the same decidability hypothesis for the one field.
- DefaultsProps.SetDefaultStructIdempotent: proved under the same decidability hypothesis over the descriptors `inspectField` builds.
- Defaults.ZeroTypeD: a TextUnmarshaler's pointee is never defaulted. Go's `zeroPointValue` runs `setDefaultStruct` on a struct pointee (pkg/parse/utils.go:212-216). For `*time.Time` that panics when `inspectField` sets the nil unexported `loc` pointer (pkg/parse/inspect_struct.go:69-70). The model returns a fresh TextUnmarshaler instead.
- PkgLoad.ParsePointer: a non-nil TextUnmarshaler pointer gets a zero pointee that is not walked. Go walks the pointee (pkg/parse/load.go:163-170). A struct pointee such as `time.Time` panics in the debug print of its unexported `loc` pointer (pkg/parse/load.go:71). A scalar pointee such as the `int8` of `zapcore.Level` takes the field's default through `parseSample`, and a text such as "info" then fails to parse. The model reports neither.
- RootLoad.ParsePointer: a non-nil TextUnmarshaler pointer gets a zero pointee that is not walked. Go walks the pointee (load.go:131-138). A scalar pointee takes the tag value through `parseSample` (load.go:140-151), which can fail to parse. The model reports no such error.
- WalkProps.ZeroTypesAgree: stated with TextUnmarshaler pointees opaque. There Go's two zeroTypes differ: the engine's runs `setDefaultStruct` on a struct pointee and the walker's does not.
- PkgLoad.LoadStruct: a TextUnmarshaler root is refused as not a pointer to a struct. Go accepts it when the pointee is a struct, as for `*time.Time`, and walks it (pkg/parse/load.go:47-60).
- RootLoad.LoadStruct: a TextUnmarshaler root is refused as not a pointer to a struct. Go accepts it when the pointee is a struct, and walks it (load.go:45-62).
- Defaults.InspectStruct: a TextUnmarshaler root is refused as not a pointer to a struct. Go accepts it when the pointee is a struct and runs `setDefaultStruct` on it (pkg/parse/inspect_struct.go:11-33), which panics for `*time.Time`.
- Native `int` and `uint` are 64 bits wide. 32-bit platforms are not modelled.
- Arrays: `isSupportedType` (pkg/parse/utils.go:436-471) has no array case, so an array field is refused before any walk. The model writes an array type as `Other("array")`, which `Support.IsSupportedType` refuses, and the walkers' array branches (pkg/parse/load.go:76, 206; load.go:163, 190) are unreachable.
- Self-referential types such as `type Item struct{ Items []Item }`: `Types.Ty` is an inductive datatype and cannot express them. In Go, `isSupportedType` recurses on them without end and overflows the stack.
- Options.Ident: lower-cases ASCII letters only. Go's `strings.ToLower` also maps non-ASCII upper-case letters, so a field name with such letters gets a different identifier in the model.
- Support.DeepZero: does not model the panic of the final `Interface` comparison of `isZero` (pkg/parse/utils.go:416-418) on a leaf reached through an unexported field. That happens when the value tested has an unexported field, for example inside the pointee of a TextUnmarshaler such as `time.Time`. The model returns the comparison's result there.
- Csv.PlainRoundTrip: fields containing `'\r'` are excluded, because the reader turns `"\r\n"` into `"\n"` and drops a final `'\r'` (`Csv.TrailingCr`).
- Csv.QuotedRoundTrip: stated for fields without `'\r'`, because a `"\r\n"` inside quotes reads as `"\n"` (`Csv.CrLfInQuotes`).

=== FILE: csv.dfy ===
/** The first record of a CSV text, as Go's encoding/csv Reader.Read returns it
    with its default settings (comma separator, strict quoting, no comment
    character), following section 2 of RFC 4180: fields are separated by
    commas, a field may be enclosed in double quotes, inside which a doubled
    quote stands for one quote and commas and line breaks are literal. Only
    the first record is read; blank lines before it are skipped. */
module Csv {
  import opened Wrappers

  /** Why the reader rejects a text: a quote inside an unquoted field
      (ErrBareQuote), a stray or missing quote in a quoted field (ErrQuote),
      or no record at all before the end of the text (io.EOF). */
  datatype CsvFault = BareQuote | StrayQuote | NoRecord

  type Record = seq<string>

  /** Reads one record from the start of a field. */
  function ReadRecord(s: string, acc: Record): Result<Record, CsvFault>
    decreases |s|, 1
  {
    if |s| > 0 && s[0] == '"' then ReadQuoted(s[1..], acc, "")
    else ReadUnquoted(s, acc, "")
  }

  /** Inside an unquoted field whose text so far is `cur`. */
  function ReadUnquoted(s: string, acc: Record, cur: string): Result<Record, CsvFault>
    decreases |s|, 0
  {
    if |s| == 0 || s[0] == '\n' then Ok(acc + [cur])
    else if s[0] == ',' then ReadRecord(s[1..], acc + [cur])
    else if s[0] == '"' then Err(BareQuote)
    else ReadUnquoted(s[1..], acc, cur + [s[0]])
  }

  /** Inside a quoted field, after the opening quote, whose text so far is `cur`. */
  function ReadQuoted(s: string, acc: Record, cur: string): Result<Record, CsvFault>
    decreases |s|, 0
  {
    if |s| == 0 then Err(StrayQuote)
    else if s[0] == '"' then
      if |s| == 1 || s[1] == '\n' then Ok(acc + [cur])
      else if s[1] == '"' then ReadQuoted(s[2..], acc, cur + ['"'])
      else if s[1] == ',' then ReadRecord(s[2..], acc + [cur])
      else Err(StrayQuote)
    else ReadQuoted(s[1..], acc, cur + [s[0]])
  }

  /** Drops the empty lines the reader skips before a record. */
  function SkipBlankLines(s: string): (r: string)
    ensures |r| <= |s| && (|r| == 0 || r[0] != '\n')
  {
    if |s| > 0 && s[0] == '\n' then SkipBlankLines(s[1..]) else s
  }

  /** The line-ending rule of the reader's readLine, applied to the whole
      text: every "\r\n" becomes "\n", and a '\r' that ends the text is
      dropped. Any other '\r' is an ordinary character. */
  function Normalize(s: string): (r: string)
    ensures |r| <= |s|
  {
    if |s| == 0 then ""
    else if s[0] == '\r' && |s| == 1 then ""
    else if s[0] == '\r' && s[1] == '\n' then "\n" + Normalize(s[2..])
    else [s[0]] + Normalize(s[1..])
  }

  /** readAsCSV (pkg/parse/utils.go and utils.go): the empty text is the empty
      list, anything else is the first CSV record of the text, read with
      the reader's line endings. */
  function ReadAsCsv(val: string): (r: Result<Record, CsvFault>)
    ensures val == "" ==> r == Ok([])
    ensures val != "" && r.Ok? ==> |r.value| >= 1
  {
    if val == "" then Ok([]) else
      var t := SkipBlankLines(Normalize(val));
      if t == "" then Err(NoRecord) else
        RecordNonEmpty(t, []);
        ReadRecord(t, [])
  }

  lemma {:induction false} RecordNonEmpty(s: string, acc: Record)
    ensures ReadRecord(s, acc).Ok? ==> |ReadRecord(s, acc).value| > |acc|
    decreases |s|, 1
  {
    if |s| > 0 && s[0] == '"' { QuotedNonEmpty(s[1..], acc, ""); }
    else { UnquotedNonEmpty(s, acc, ""); }
  }

  lemma {:induction false} UnquotedNonEmpty(s: string, acc: Record, cur: string)
    ensures ReadUnquoted(s, acc, cur).Ok? ==> |ReadUnquoted(s, acc, cur).value| > |acc|
    decreases |s|, 0
  {
    if |s| == 0 || s[0] == '\n' {
    } else if s[0] == ',' {
      RecordNonEmpty(s[1..], acc + [cur]);
    } else if s[0] != '"' {
      UnquotedNonEmpty(s[1..], acc, cur + [s[0]]);
    }
  }

  lemma {:induction false} QuotedNonEmpty(s: string, acc: Record, cur: string)
    ensures ReadQuoted(s, acc, cur).Ok? ==> |ReadQuoted(s, acc, cur).value| > |acc|
    decreases |s|, 0
  {
    if |s| == 0 {
    } else if s[0] == '"' {
      if |s| == 1 || s[1] == '\n' {
      } else if s[1] == '"' {
        QuotedNonEmpty(s[2..], acc, cur + ['"']);
      } else if s[1] == ',' {
        RecordNonEmpty(s[2..], acc + [cur]);
      }
    } else {
      QuotedNonEmpty(s[1..], acc, cur + [s[0]]);
    }
  }

  // ---------------------------------------------------------------------------
  // Writing records: the inverse direction

  /** The fields joined by commas. */
  function Join(fields: Record): string
    requires |fields| >= 1
  {
    if |fields| == 1 then fields[0] else fields[0] + "," + Join(fields[1..])
  }

  /** A text without carriage returns, which the reader's line-ending rule
      leaves alone. */
  predicate NoCr(s: string) {
    forall i :: 0 <= i < |s| ==> s[i] != '\r'
  }

  /** A field that needs no quoting: no comma, quote or line break. */
  predicate IsPlain(f: string) {
    NoCr(f) && forall i :: 0 <= i < |f| ==> f[i] != ',' && f[i] != '"' && f[i] != '\n'
  }

  /** Doubles every quote of a field. */
  function Escape(f: string): string {
    if |f| == 0 then ""
    else if f[0] == '"' then "\"\"" + Escape(f[1..])
    else [f[0]] + Escape(f[1..])
  }

  /** Every field enclosed in quotes, quotes inside doubled, joined by commas. */
  function EncodeQuoted(fields: Record): string
    requires |fields| >= 1
  {
    var q := "\"" + Escape(fields[0]) + "\"";
    if |fields| == 1 then q else q + "," + EncodeQuoted(fields[1..])
  }

  lemma {:induction false} UnquotedPlainRun(f: string, rest: string, acc: Record, cur: string)
    requires IsPlain(f)
    ensures ReadUnquoted(f + rest, acc, cur) == ReadUnquoted(rest, acc, cur + f)
    decreases |f|
  {
    if |f| > 0 {
      assert (f + rest)[1..] == f[1..] + rest;
      UnquotedPlainRun(f[1..], rest, acc, cur + [f[0]]);
      assert cur + [f[0]] + f[1..] == cur + f;
    } else {
      assert f + rest == rest;
      assert cur + f == cur;
    }
  }

  /** A plain field followed by a separator, a line break or the end of the
      text is read as one unquoted field. */
  lemma PlainFieldReads(f: string, rest: string, acc: Record)
    requires IsPlain(f)
    requires rest == "" || rest[0] == '\n' || rest[0] == ','
    ensures ReadRecord(f + rest, acc) == ReadUnquoted(rest, acc, f)
  {
    var s := f + rest;
    assert |s| == 0 || s[0] != '"' by {
      if |f| > 0 { assert s[0] == f[0]; } else { assert s == rest; }
    }
    UnquotedPlainRun(f, rest, acc, "");
    assert "" + f == f;
  }

  lemma {:induction false} PlainJoinReads(fields: Record, tail: string, acc: Record)
    requires |fields| >= 1 && forall i :: 0 <= i < |fields| ==> IsPlain(fields[i])
    requires tail == "" || tail[0] == '\n'
    ensures ReadRecord(Join(fields) + tail, acc) == Ok(acc + fields)
    decreases |fields|
  {
    var f := fields[0];
    assert IsPlain(f);
    if |fields| == 1 {
      assert fields == [f];
      assert Join(fields) == f;
      PlainFieldReads(f, tail, acc);
    } else {
      var rest := Join(fields[1..]);
      assert Join(fields) + tail == f + ("," + (rest + tail));
      PlainFieldReads(f, "," + (rest + tail), acc);
      assert ("," + (rest + tail))[1..] == rest + tail;
      assert ReadUnquoted("," + (rest + tail), acc, f) == ReadRecord(rest + tail, acc + [f]);
      PlainJoinReads(fields[1..], tail, acc + [f]);
      assert acc + [f] + fields[1..] == acc + fields;
    }
  }

  /** Fields free of commas, quotes and line breaks come back from readAsCSV
      exactly as they were joined, provided the joined text is not empty
      (the single empty field joins to "", which reads as no fields); ending
      the line with "\n", with "\r\n" or with a lone '\r' changes nothing. */
  lemma PlainRoundTrip(fields: Record)
    requires |fields| >= 1 && forall i :: 0 <= i < |fields| ==> IsPlain(fields[i])
    requires Join(fields) != ""
    ensures ReadAsCsv(Join(fields)) == Ok(fields)
    ensures ReadAsCsv(Join(fields) + "\n") == Ok(fields)
    ensures ReadAsCsv(Join(fields) + "\r\n") == Ok(fields)
    ensures ReadAsCsv(Join(fields) + "\r") == Ok(fields)
  {
    NormalizeEndings();
    assert ReadAsCsv(Join(fields) + "") == Ok(fields) by { PlainLineReads(fields, "", ""); }
    assert Join(fields) + "" == Join(fields);
    assert ReadAsCsv(Join(fields) + "\n") == Ok(fields) by { PlainLineReads(fields, "\n", "\n"); }
    assert ReadAsCsv(Join(fields) + "\r\n") == Ok(fields) by { PlainLineReads(fields, "\r\n", "\n"); }
    assert ReadAsCsv(Join(fields) + "\r") == Ok(fields) by { PlainLineReads(fields, "\r", ""); }
  }

  /** The joined fields followed by a line ending `tail` that the reader
      turns into `nt`. */
  lemma PlainLineReads(fields: Record, tail: string, nt: string)
    requires |fields| >= 1 && forall i :: 0 <= i < |fields| ==> IsPlain(fields[i])
    requires Join(fields) != ""
    requires Normalize(tail) == nt && (nt == "" || nt == "\n")
    ensures ReadAsCsv(Join(fields) + tail) == Ok(fields)
  {
    var j := Join(fields);
    JoinFirst(fields);
    assert IsPlain(fields[0]);
    JoinNoCr(fields);
    NormalizeNoCrPrefix(j, tail);
    assert (j + nt)[0] == j[0];
    ReadsDirectly(j + tail);
    PlainJoinReads(fields, nt, []);
    assert [] + fields == fields;
  }

  /** The line endings a record may have, after the line-ending rule. */
  lemma NormalizeEndings()
    ensures Normalize("") == "" && Normalize("\n") == "\n"
    ensures Normalize("\r\n") == "\n" && Normalize("\r") == ""
  {
    assert "\n"[1..] == "";
    assert "\r\n"[2..] == "";
  }

  /** Joining fields without carriage returns gives a text without any. */
  lemma {:induction false} JoinNoCr(fields: Record)
    requires |fields| >= 1 && forall i :: 0 <= i < |fields| ==> NoCr(fields[i])
    ensures NoCr(Join(fields))
    decreases |fields|
  {
    if |fields| > 1 {
      JoinNoCr(fields[1..]);
      var s := Join(fields);
      var f := fields[0];
      var rest := Join(fields[1..]);
      assert s == f + "," + rest;
      forall i | 0 <= i < |s| ensures s[i] != '\r' {
        if i < |f| { assert s[i] == f[i]; }
        else if i > |f| { assert s[i] == rest[i - |f| - 1]; }
      }
    } else {
      assert NoCr(fields[0]);
    }
  }

  /** A prefix without carriage returns passes the line-ending rule
      unchanged. */
  lemma {:induction false} NormalizeNoCrPrefix(a: string, b: string)
    requires NoCr(a)
    ensures Normalize(a + b) == a + Normalize(b)
    decreases |a|
  {
    if |a| > 0 {
      assert a[0] != '\r';
      assert (a + b)[0] == a[0];
      assert (a + b)[1..] == a[1..] + b;
      assert NoCr(a[1..]) by {
        forall i | 0 <= i < |a[1..]| ensures a[1..][i] != '\r' {
          assert a[1..][i] == a[i + 1];
        }
      }
      NormalizeNoCrPrefix(a[1..], b);
      assert a == [a[0]] + a[1..];
    } else {
      assert a + b == b;
    }
  }

  lemma JoinFirst(fields: Record)
    requires |fields| >= 1 && Join(fields) != ""
    ensures Join(fields)[0] == ',' || (|fields[0]| > 0 && Join(fields)[0] == fields[0][0])
  {
    if |fields| > 1 {
      assert Join(fields) == fields[0] + ("," + Join(fields[1..]));
    }
  }

  /** A text whose normal form neither is empty nor starts with a line break
      is read from the first character of that form. */
  lemma ReadsDirectly(s: string)
    requires s != "" && Normalize(s) != "" && Normalize(s)[0] != '\n'
    ensures ReadAsCsv(s) == ReadRecord(Normalize(s), [])
  {
    assert SkipBlankLines(Normalize(s)) == Normalize(s);
  }

  lemma {:induction false} QuotedRun(f: string, rest: string, acc: Record, cur: string)
    requires rest == "" || rest[0] == ',' || rest[0] == '\n'
    ensures ReadQuoted(Escape(f) + "\"" + rest, acc, cur) ==
      if rest == "" || rest[0] == '\n' then Ok(acc + [cur + f])
      else ReadRecord(rest[1..], acc + [cur + f])
    decreases |f|
  {
    var s := Escape(f) + "\"" + rest;
    if |f| == 0 {
      assert s == "\"" + rest;
      assert cur + f == cur;
      if rest != "" {
        assert s[1] == rest[0];
        assert s[2..] == rest[1..];
      }
    } else if f[0] == '"' {
      assert s == "\"\"" + (Escape(f[1..]) + "\"" + rest);
      assert s[2..] == Escape(f[1..]) + "\"" + rest;
      QuotedRun(f[1..], rest, acc, cur + ['"']);
      assert cur + ['"'] + f[1..] == cur + f;
    } else {
      assert s == [f[0]] + (Escape(f[1..]) + "\"" + rest);
      assert s[1..] == Escape(f[1..]) + "\"" + rest;
      QuotedRun(f[1..], rest, acc, cur + [f[0]]);
      assert cur + [f[0]] + f[1..] == cur + f;
    }
  }

  lemma {:induction false} QuotedJoinReads(fields: Record, acc: Record)
    requires |fields| >= 1
    ensures ReadRecord(EncodeQuoted(fields), acc) == Ok(acc + fields)
    decreases |fields|
  {
    var f := fields[0];
    var e := Escape(f);
    if |fields| == 1 {
      var s := EncodeQuoted(fields);
      assert s == "\"" + e + "\"";
      assert s[1..] == e + "\"" + "";
      QuotedRun(f, "", acc, "");
      assert "" + f == f;
      assert fields == [f];
      assert ReadRecord(s, acc) == ReadQuoted(s[1..], acc, "");
    } else {
      var rest := EncodeQuoted(fields[1..]);
      var s := EncodeQuoted(fields);
      assert s == "\"" + (e + "\"" + ("," + rest));
      assert s[1..] == e + "\"" + ("," + rest);
      QuotedRun(f, "," + rest, acc, "");
      assert ("," + rest)[1..] == rest;
      assert "" + f == f;
      QuotedJoinReads(fields[1..], acc + [f]);
      assert acc + [f] + fields[1..] == acc + fields;
      assert ReadRecord(s, acc) == ReadQuoted(s[1..], acc, "");
    }
  }

  /** Any non-empty list of fields without carriage returns, written with
      every field quoted, reads back unchanged: commas, quotes and line
      breaks inside fields survive. */
  lemma QuotedRoundTrip(fields: Record)
    requires |fields| >= 1 && forall i :: 0 <= i < |fields| ==> NoCr(fields[i])
    ensures ReadAsCsv(EncodeQuoted(fields)) == Ok(fields)
  {
    var s := EncodeQuoted(fields);
    EncodeQuotedNoCr(fields);
    NormalizeNoCrPrefix(s, "");
    assert s + "" == s;
    assert s[0] == '"';
    ReadsDirectly(s);
    QuotedJoinReads(fields, []);
    assert [] + fields == fields;
  }

  /** Quoting fields without carriage returns adds none. */
  lemma {:induction false} EncodeQuotedNoCr(fields: Record)
    requires |fields| >= 1 && forall i :: 0 <= i < |fields| ==> NoCr(fields[i])
    ensures NoCr(EncodeQuoted(fields))
    decreases |fields|
  {
    var e := Escape(fields[0]);
    EscapeNoCr(fields[0]);
    var q := "\"" + e + "\"";
    assert NoCr(q) by {
      forall i | 0 <= i < |q| ensures q[i] != '\r' {
        if 0 < i < |q| - 1 { assert q[i] == e[i - 1]; }
      }
    }
    if |fields| > 1 {
      EncodeQuotedNoCr(fields[1..]);
      var rest := EncodeQuoted(fields[1..]);
      var s := EncodeQuoted(fields);
      assert s == q + "," + rest;
      forall i | 0 <= i < |s| ensures s[i] != '\r' {
        if i < |q| { assert s[i] == q[i]; }
        else if i > |q| { assert s[i] == rest[i - |q| - 1]; }
      }
    }
  }

  lemma {:induction false} EscapeNoCr(f: string)
    requires NoCr(f)
    ensures NoCr(Escape(f))
    decreases |f|
  {
    if |f| > 0 {
      assert NoCr(f[1..]) by {
        forall i | 0 <= i < |f[1..]| ensures f[1..][i] != '\r' {
          assert f[1..][i] == f[i + 1];
        }
      }
      EscapeNoCr(f[1..]);
      var rest := Escape(f[1..]);
      var h: string := if f[0] == '"' then "\"\"" else [f[0]];
      assert f[0] != '\r';
      assert Escape(f) == h + rest;
      forall i | 0 <= i < |h + rest| ensures (h + rest)[i] != '\r' {
        if i >= |h| { assert (h + rest)[i] == rest[i - |h|]; }
      }
    }
  }

  /** Inside quotes a "\r\n" line ending reads as "\n". */
  lemma CrLfInQuotes()
    ensures ReadAsCsv("\"a\r\nb\"") == Ok(["a\nb"])
  {
    NormalizesCrLfInQuotes();
    ReadsDirectly("\"a\r\nb\"");
    QuotedNewlineReads();
  }

  /** The line-ending rule turns the "\r\n" inside the quotes into "\n". */
  lemma NormalizesCrLfInQuotes()
    ensures Normalize("\"a\r\nb\"") == "\"a\nb\""
  {
    var s := "\"a\r\nb\"";
    assert s == "\"a" + ("\r\n" + "b\"");
    NormalizeNoCrPrefix("\"a", "\r\n" + "b\"");
    assert ("\r\n" + "b\"")[2..] == "b\"";
    assert Normalize("\r\n" + "b\"") == "\n" + Normalize("b\"");
    NormalizeNoCrPrefix("b\"", "");
    assert "b\"" + "" == "b\"";
  }

  /** A quoted field holding a line break is one field. */
  lemma QuotedNewlineReads()
    ensures ReadRecord("\"a\nb\"", []) == Ok(["a\nb"])
  {
    var n := "\"a\nb\"";
    assert n[1..] == "a\nb\"";
    assert n[1..][1..] == "\nb\"";
    assert n[1..][1..][1..] == "b\"";
    assert n[1..][1..][1..][1..] == "\"";
    assert "" + ['a'] == "a" && "a" + ['\n'] == "a\n" && "a\n" + ['b'] == "a\nb";
    assert [] + ["a\nb"] == ["a\nb"];
    assert ReadQuoted("\"", [], "a\nb") == Ok(["a\nb"]);
  }

  /** A quoted field closed before a "\r\n" line ending is read without error. */
  lemma CrLfAfterQuote()
    ensures ReadAsCsv("\"a\"\r\n") == Ok(["a"])
  {
    var s := "\"a\"\r\n";
    assert s == "\"a\"" + "\r\n";
    NormalizeNoCrPrefix("\"a\"", "\r\n");
    var n := "\"a\"\n";
    assert Normalize(s) == n;
    ReadsDirectly(s);
    assert n[0] == '"';
    assert ReadAsCsv(s) == ReadQuoted(n[1..], [], "");
    assert n[1..] == "a\"\n";
    assert n[1..][1..] == "\"\n";
    assert "" + ['a'] == "a";
    assert ReadQuoted("a\"\n", [], "") == ReadQuoted("\"\n", [], "a");
    assert [] + ["a"] == ["a"];
    assert ReadQuoted("\"\n", [], "a") == Ok(["a"]);
  }

  /** A '\r' that ends the text is dropped from the last field. */
  lemma TrailingCr()
    ensures ReadAsCsv("a,b\r") == Ok(["a", "b"])
  {
    var s := "a,b\r";
    assert s == "a,b" + "\r";
    NormalizeNoCrPrefix("a,b", "\r");
    assert "a,b" + "" == "a,b";
    ReadsDirectly(s);
    assert Normalize(s) == "a,b";
    assert Join(["a", "b"]) == "a,b" by {
      assert ["a", "b"][1..] == ["b"];
    }
    assert IsPlain("a") && IsPlain("b");
    PlainJoinReads(["a", "b"], "", []);
    assert [] + ["a", "b"] == ["a", "b"];
  }

  /** A line holding only "\r\n" is skipped as blank. */
  lemma BlankCrLfLine()
    ensures ReadAsCsv("\r\na") == Ok(["a"])
  {
    var s := "\r\na";
    assert s[2..] == "a";
    NormalizeNoCrPrefix("a", "");
    assert "a" + "" == "a";
    assert Normalize(s) == "\na";
    assert "\na"[1..] == "a";
    assert SkipBlankLines("\na") == "a";
    assert "a"[1..] == "";
    assert "" + ['a'] == "a" && [] + ["a"] == ["a"];
    assert ReadRecord("a", []) == ReadUnquoted("", [], "a");
  }

  /** "a,b,c" reads as the three fields in order. */
  lemma ThreeFields()
    ensures ReadAsCsv("a,b,c") == Ok(["a", "b", "c"])
  {
    PlainRoundTrip(["a", "b", "c"]);
    assert Join(["a", "b", "c"]) == "a,b,c";
  }
}

=== FILE: defaults.dfy ===
/** The default filler of pkg/parse: InspectStruct, setDefaultStruct and
    setDefaults (pkg/parse/inspect_struct.go) with the value builders of
    pkg/parse/utils.go they use (parseSimpleValue, parseSlice, parseMap,
    zeroType, zeroPointValue, setValue).

    Every struct walked is first inspected (Inspect.InspectField), then its
    fields are visited in post-order: the fields below a parent field come
    before it. A field with a default tag that can be set and is still zero
    (Support.DeepZero) receives a value built from the tag text on a fresh
    zero value. Panics of the source are errors whose constructor is Panic,
    and they are never wrapped. */
module Defaults {
  import opened Wrappers
  import opened Types
  import opened Support
  import opened Options
  import opened Scalar
  import opened Inspect
  import Csv

  /** The parser a walk runs with: its tag option (only the key names are
      read) and the capabilities outside the model. */
  datatype Parser = Parser(tagOpt: TagOption, ext: Externals)

  /** The panic zeroType raises when the default pass of a struct it builds fails. */
  const SubStructPanic := Panic("set sub struct defualt value error")

  /** The panic parseSimpleValue raises on a kind it does not handle. */
  const NotSimplePanic := Panic("not simple value")

  /** What an error becomes when it is raised inside zeroType: a panic. */
  function AsPanic(e: Error): (r: Error)
    ensures r.Panic?
    ensures e.Panic? ==> r == e
  {
    if e.Panic? then e else SubStructPanic
  }

  /** setDefaults' wrapping of a parse error with the field's path; panics
      pass through. */
  function ForField(path: string, e: Error): (r: Error)
    ensures e.Panic? ==> r == e
    ensures !e.Panic? ==> r == DefaultFailed(path, e)
  {
    if e.Panic? then e else DefaultFailed(path, e)
  }

  /** Slices other than []byte (isSlice). */
  predicate IsListType(t: Ty) {
    t.Slice? && t != ByteSlice
  }

  /** A field setDefaults would write: not a parent, with a default tag, settable
      and (deep-)zero. setDefaults asks CanInterface where this asks canSet;
      every value inspectField reaches is addressable, where the two agree
      (Inspect.AddressableAccess). */
  predicate MayDefault(d: ParseField, cur: Val) {
    !d.isParent && d.tag.defaultSet && d.canSet && DeepZero(cur) == Ok(true)
  }

  /** Each field from `i` on that a parent field leads to is allocated. */
  predicate ReadyFrom(v: Val, t: Ty, i: nat)
    requires t.Struct? && HasType(v, t)
  {
    forall j :: i <= j < |t.fields| ==> FieldAllocated(v.fields[j], t.fields[j].ty)
  }

  // ---------------------------------------------------------------------------
  // setDefaults

  /** setDefaults over the fields of struct value `v` of type `t` described by
      `ds`, from field `i` on, in post-order; the first failure stops it. */
  function DefaultFrom(p: Parser, v: Val, t: Ty, ds: seq<ParseField>, i: nat): (r: Applied)
    requires t.Struct? && HasType(v, t) && Describes(ds, t) && i <= |t.fields| && ReadyFrom(v, t, 0)
    decreases t, 2, |t.fields| - i, 2
    ensures HasType(r.value, t) && ReadyFrom(r.value, t, 0)
  {
    if i == |t.fields| then Applied(v, None)
    else
      var s := DefaultField(p, v, t, ds, i);
      if s.err.Some? then s else DefaultFrom(p, s.value, t, ds, i + 1)
  }

  /** The iterations of setDefaults for field `i`: a parent field first has
      the fields below it processed (DefaultParentStep); any other field may
      receive its default (DefaultPlainStep). Only field `i` changes. */
  function DefaultField(p: Parser, v: Val, t: Ty, ds: seq<ParseField>, i: nat): (r: Applied)
    requires t.Struct? && HasType(v, t) && Describes(ds, t) && i < |t.fields| && ReadyFrom(v, t, 0)
    decreases t, 2, |t.fields| - i, 1
    ensures HasType(r.value, t) && ReadyFrom(r.value, t, 0)
    ensures forall j :: 0 <= j < |t.fields| && j != i ==> r.value.fields[j] == v.fields[j]
  {
    if ds[i].isParent then DefaultParentStep(p, v, t, ds, i) else DefaultPlainStep(p, v, t, ds, i)
  }

  /** A parent field: setDefaults over the struct it holds or points to, then
      the parent itself, for which a default tag is an error. */
  function DefaultParentStep(p: Parser, v: Val, t: Ty, ds: seq<ParseField>, i: nat): (r: Applied)
    requires t.Struct? && HasType(v, t) && Describes(ds, t) && i < |t.fields| && ReadyFrom(v, t, 0)
    requires ds[i].isParent
    decreases t, 2, |t.fields| - i, 0
    ensures HasType(r.value, t) && ReadyFrom(r.value, t, 0)
    ensures forall j :: 0 <= j < |t.fields| && j != i ==> r.value.fields[j] == v.fields[j]
    ensures ds[i].tag.defaultSet ==> r.err.Some?
  {
    var d := ds[i];
    var ft := t.fields[i].ty;
    var cur := v.fields[i];
    assert Entry(d, t, i) && FieldAllocated(cur, ft) && HasType(cur, ft);
    var sub :=
      if ft.Struct? then
        assert Allocated(cur, ft) && Describes(d.subFields, ft);
        var a := DefaultFrom(p, cur, ft, d.subFields, 0);
        Applied(a.value, a.err)
      else
        assert ft.Ptr? && ft.elem.Struct? && cur.VPtr?;
        assert HasType(cur.target, ft.elem) && Allocated(cur.target, ft.elem) && Describes(d.subFields, ft.elem);
        var a := DefaultFrom(p, cur.target, ft.elem, d.subFields, 0);
        Applied(VPtr(a.value), a.err);
    var v1 := v.(fields := v.fields[i := sub.value]);
    if sub.err.Some? then Applied(v1, sub.err)
    else if d.tag.defaultSet then Applied(v1, Some(NestedDefault(FullId(d.parts))))
    else Applied(v1, None)
  }

  /** Any other field: skipped without a default tag, when it cannot be set
      or when it is not zero; otherwise its default is parsed and stored. */
  function DefaultPlainStep(p: Parser, v: Val, t: Ty, ds: seq<ParseField>, i: nat): (r: Applied)
    requires t.Struct? && HasType(v, t) && Describes(ds, t) && i < |t.fields| && ReadyFrom(v, t, 0)
    requires !ds[i].isParent
    decreases t, 2, |t.fields| - i, 0
    ensures HasType(r.value, t) && ReadyFrom(r.value, t, 0)
    ensures forall j :: 0 <= j < |t.fields| && j != i ==> r.value.fields[j] == v.fields[j]
    ensures !MayDefault(ds[i], v.fields[i]) ==> r.value == v
    ensures MayDefault(ds[i], v.fields[i]) && r.err.None? ==>
      ParseDefault(p, t.fields[i].ty, ds[i].tag.default, ds[i].parts) == Ok(r.value.fields[i])
  {
    var d := ds[i];
    var ft := t.fields[i].ty;
    var cur := v.fields[i];
    assert Entry(d, t, i) && FieldAllocated(cur, ft) && HasType(cur, ft);
    if !d.tag.defaultSet || !d.canSet then Applied(v, None)
    else
      match DeepZero(cur)
      case Err(e) => Applied(v, Some(e))
      case Ok(zero) =>
        if !zero then Applied(v, None)
        else
          match ParseDefault(p, ft, d.tag.default, d.parts)
          case Err(e) => Applied(v, Some(ForField(FullId(d.parts), e)))
          case Ok(x) => Applied(v.(fields := v.fields[i := x]), None)
  }

  /** setDefaultStruct: inspect the struct, then run setDefaults over it. */
  function SetDefaultStruct(p: Parser, v: Val, t: Ty, parts: seq<string>, acc: Access): (r: Applied)
    requires t.Struct? && HasType(v, t)
    decreases t, 3, 0, 0
    ensures HasType(r.value, t)
    ensures (exists j :: 0 <= j < |t.fields| && !IsSupportedType(t.fields[j].ty)) ==> r.err.Some?
  {
    var ins := InspectField(v, t, parts, acc, p.tagOpt);
    if ins.err.Some? then Applied(ins.value, ins.err)
    else DefaultFrom(p, ins.value, t, ins.fields, 0)
  }

  // ---------------------------------------------------------------------------
  // Value builders

  /** zeroType (with zeroPointValue): a fresh value of type `t`. A pointer is
      allocated at every level down to a non-pointer, and a struct, direct or
      behind the pointers, has had its own defaults filled in; their failure
      is a panic. Any other type gives its zero value. */
  function ZeroTypeD(p: Parser, t: Ty, parts: seq<string>): (r: Outcome<Val>)
    decreases t, 4, 0, 0
    ensures r.Ok? ==> HasType(r.value, t) && PointersSet(r.value, t)
    ensures r.Err? ==> r.error.Panic?
    ensures !t.Ptr? && !t.Struct? && t != TextU ==> r == Ok(ZeroOf(t))
  {
    if t == TextU then Ok(VText(Some("")))
    else if t.Ptr? then
      ZeroOfHasType(t.elem);
      var inner :- if t.elem.Ptr? || t.elem == TextU then ZeroTypeD(p, t.elem, parts) else Ok(ZeroOf(t.elem));
      if t.elem.Struct? then
        var a := SetDefaultStruct(p, inner, t.elem, parts, Settable);
        if a.err.Some? then Err(AsPanic(a.err.value)) else Ok(VPtr(a.value))
      else Ok(VPtr(inner))
    else if t.Struct? then
      ZeroOfHasType(t);
      var a := SetDefaultStruct(p, ZeroOf(t), t, parts, Settable);
      if a.err.Some? then Err(AsPanic(a.err.value)) else Ok(a.value)
    else
      ZeroOfHasType(t);
      Ok(ZeroOf(t))
  }

  /** parseSimpleValue into a fresh zero of type `t`. A struct or pointer
      destination gets zeroType's value (with no parent path) and the text is
      not read; slices other than []byte, maps and unhandled kinds panic. */
  function ParseSimple(p: Parser, t: Ty, s: string): (r: Outcome<Val>)
    decreases t, 5, 0, 0
    ensures r.Ok? ==> HasType(r.value, t)
    ensures IsLeaf(t) ==> r == ParseLeaf(t, s, p.ext)
    ensures !IsLeaf(t) && (t.Struct? || t.Ptr?) ==> r == ZeroTypeD(p, t, [])
    ensures !IsLeaf(t) && !t.Struct? && !t.Ptr? ==> r == Err(NotSimplePanic)
  {
    if IsLeaf(t) then ParseLeaf(t, s, p.ext)
    else if t.Struct? || t.Ptr? then ZeroTypeD(p, t, [])
    else Err(NotSimplePanic)
  }

  /** The element loop of parseSlice from token `i` on: element j is token j
      parsed by parseSimpleValue, and the first failure stops the loop. */
  function ParseElems(p: Parser, t: Ty, vals: seq<string>, i: nat): (r: Outcome<seq<Val>>)
    requires t.Slice? && i <= |vals|
    decreases t, 6, |vals| - i, 0
    ensures r.Ok? ==> |r.value| == |vals| - i
    ensures r.Ok? ==> forall j :: 0 <= j < |r.value| ==> ParseSimple(p, t.elem, vals[i + j]) == Ok(r.value[j])
    ensures r.Err? <==> exists j :: i <= j < |vals| && ParseSimple(p, t.elem, vals[j]).Err?
  {
    if i == |vals| then Ok([])
    else
      var x :- ParseSimple(p, t.elem, vals[i]);
      var rest :- ParseElems(p, t, vals, i + 1);
      Ok([x] + rest)
  }

  /** parseSlice: the default text is read as one CSV record; element i of the
      new slice is parsed from token i. Nothing is stored on failure. */
  function ParseSliceD(p: Parser, t: Ty, s: string): (r: Outcome<Val>)
    requires t.Slice?
    decreases t, 7, 0, 0
    ensures r.Ok? ==> HasType(r.value, t) && r.value.VSlice?
    ensures Csv.ReadAsCsv(s).Err? ==> r == Err(CsvFailed(s, Csv.ReadAsCsv(s).error))
    ensures r.Ok? ==> Csv.ReadAsCsv(s).Ok? && |r.value.elems| == |Csv.ReadAsCsv(s).value|
    ensures r.Ok? ==> forall j :: 0 <= j < |r.value.elems| ==>
      ParseSimple(p, t.elem, Csv.ReadAsCsv(s).value[j]) == Ok(r.value.elems[j])
    ensures Csv.ReadAsCsv(s).Ok? ==> (r.Err? <==>
      exists j :: 0 <= j < |Csv.ReadAsCsv(s).value| && ParseSimple(p, t.elem, Csv.ReadAsCsv(s).value[j]).Err?)
  {
    match Csv.ReadAsCsv(s)
    case Err(f) => Err(CsvFailed(s, f))
    case Ok(vals) =>
      var es :- ParseElems(p, t, vals, 0);
      Ok(VSlice(es))
  }

  /** parseMap: one entry per CSV token, keyed by the token converted to the
      key type, each holding a zeroType value of the element type (the token
      is not parsed into it). Converting a string to a non-string key type
      panics. zeroType is deterministic, so it is computed once; its failure
      on the first token is the loop's first failure. */
  function ParseMapD(p: Parser, t: Ty, s: string, parts: seq<string>): (r: Outcome<Val>)
    requires t.Map?
    decreases t, 7, 0, 0
    ensures r.Ok? ==> HasType(r.value, t) && r.value.VMap?
    ensures Csv.ReadAsCsv(s).Err? ==> r == Err(CsvFailed(s, Csv.ReadAsCsv(s).error))
    ensures r.Ok? ==> Csv.ReadAsCsv(s).Ok? && forall k ::
      k in KeysOf(r.value.entries) <==> exists j :: 0 <= j < |Csv.ReadAsCsv(s).value| && k == KStr(Csv.ReadAsCsv(s).value[j])
    ensures r.Ok? ==> forall j :: 0 <= j < |r.value.entries| ==> ZeroTypeD(p, t.elem, parts) == Ok(r.value.entries[j].1)
    ensures Csv.ReadAsCsv(s).Ok? && |Csv.ReadAsCsv(s).value| > 0 && t.key != KString ==> r.Err? && r.error.Panic?
  {
    match Csv.ReadAsCsv(s)
    case Err(f) => Err(CsvFailed(s, f))
    case Ok(vals) =>
      if |vals| == 0 then Ok(VMap([]))
      else
        var z :- ZeroTypeD(p, t.elem, parts);
        if t.key != KString then Err(ConvertPanic(t.key))
        else
          var es := BuildMap(vals, z, []);
          Ok(VMap(es))
  }

  /** The defaultValue setDefaults builds for a field of type `t`: parseSlice
      for a slice other than []byte, parseMap for a map (with the field as
      parent), parseSimpleValue otherwise. */
  function ParseDefault(p: Parser, t: Ty, s: string, parts: seq<string>): (r: Outcome<Val>)
    decreases t, 8, 0, 0
    ensures r.Ok? ==> HasType(r.value, t)
    ensures r.Ok? && !IsParentType(t) ==> FieldAllocated(r.value, t)
  {
    if IsListType(t) then ParseSliceD(p, t, s)
    else if t.Map? then ParseMapD(p, t, s, parts)
    else ParseSimple(p, t, s)
  }

  /** Entries for string keys `keys[i..]` added to `acc`, each holding `z`; an
      existing key keeps its place and is overwritten. */
  function BuildMap(keys: seq<string>, z: Val, acc: seq<(Key, Val)>): (r: seq<(Key, Val)>)
    requires DistinctKeys(acc)
    decreases |keys|
    ensures DistinctKeys(r)
    ensures forall j :: 0 <= j < |r| ==> r[j].1 == z || r[j] in acc
    ensures forall j :: 0 <= j < |r| ==> r[j].0.KStr? || r[j] in acc
    ensures forall k :: k in KeysOf(r) <==> k in KeysOf(acc) || exists j :: 0 <= j < |keys| && k == KStr(keys[j])
    ensures |r| <= |acc| + |keys|
  {
    if |keys| == 0 then acc
    else BuildMap(keys[1..], z, Insert(acc, KStr(keys[0]), z))
  }

  // ---------------------------------------------------------------------------
  // Entry point and setValue

  /** InspectStruct: the target must be a non-nil pointer to a struct; the
      struct it points to gets its defaults. The three root checks fail
      without touching the target. */
  function InspectStruct(p: Parser, rootTy: Ty, root: Val): (r: Applied)
    requires HasType(root, rootTy)
    ensures HasType(r.value, rootTy)
    ensures !rootTy.Ptr? && rootTy != TextU ==> r == Applied(root, Some(NotPointer))
    ensures (rootTy.Ptr? || rootTy == TextU) && IsNil(root) ==> r == Applied(root, Some(NilPointer))
    ensures !IsNil(root) && (rootTy == TextU || (rootTy.Ptr? && !rootTy.elem.Struct?)) ==>
      r == Applied(root, Some(NotStruct))
    ensures rootTy.Ptr? && rootTy.elem.Struct? && !IsNil(root) ==>
      r.value.VPtr? && Applied(r.value.target, r.err) == SetDefaultStruct(p, root.target, rootTy.elem, [], Settable)
  {
    if !rootTy.Ptr? && rootTy != TextU then Applied(root, Some(NotPointer))
    else if IsNil(root) then Applied(root, Some(NilPointer))
    else if rootTy == TextU || !rootTy.elem.Struct? then Applied(root, Some(NotStruct))
    else
      var a := SetDefaultStruct(p, root.target, rootTy.elem, [], Settable);
      Applied(VPtr(a.value), a.err)
  }

  /** setValueByString: a slice other than []byte goes through parseSlice,
      anything else through parseSimpleValue. */
  function SetValueByString(p: Parser, t: Ty, s: string): (r: Outcome<Val>)
    ensures r.Ok? ==> HasType(r.value, t)
    ensures IsListType(t) && Csv.ReadAsCsv(s).Err? ==> r == Err(CsvFailed(s, Csv.ReadAsCsv(s).error))
    ensures IsListType(t) && Csv.ReadAsCsv(s).Ok? ==>
      (r.Ok? <==> forall j :: 0 <= j < |Csv.ReadAsCsv(s).value| ==> ParseSimple(p, t.elem, Csv.ReadAsCsv(s).value[j]).Ok?)
    ensures IsListType(t) && r.Ok? ==>
      r.value.VSlice? && |r.value.elems| == |Csv.ReadAsCsv(s).value|
      && forall j :: 0 <= j < |r.value.elems| ==> ParseSimple(p, t.elem, Csv.ReadAsCsv(s).value[j]) == Ok(r.value.elems[j])
    ensures !IsListType(t) ==> r == ParseSimple(p, t, s)
  {
    if IsListType(t) then ParseSliceD(p, t, s) else ParseSimple(p, t, s)
  }

  /** The conversion branch of setValue: Go converts the value, unless the
      destination is []byte. */
  predicate Converts(p: Parser, fromTy: Ty, toTy: Ty) {
    p.ext.convertible(fromTy, toTy) && toTy != ByteSlice
  }

  /** setValue: the value to store into a destination of type `toTy` from a
      value `x` of type `fromTy`. Identical types are assigned; otherwise a
      conversion Go allows is applied (never into []byte); a string is parsed;
      a slice is converted element by element; anything else is refused. */
  function SetValue(p: Parser, toTy: Ty, fromTy: Ty, x: Val): (r: Outcome<Val>)
    requires HasType(x, fromTy)
    ensures fromTy == toTy ==> r == Ok(x)
    ensures fromTy != toTy && Converts(p, fromTy, toTy) ==> r == Ok(p.ext.convert(x, toTy))
    ensures fromTy != toTy && !Converts(p, fromTy, toTy) && fromTy.Str? ==> r == SetValueByString(p, toTy, x.s)
    ensures fromTy != toTy && !Converts(p, fromTy, toTy) && !fromTy.Str? && !(IsListType(toTy) && fromTy.Slice?) ==>
      r == Err(NotConvertible(fromTy, toTy))
  {
    if fromTy == toTy then Ok(x)
    else if Converts(p, fromTy, toTy) then Ok(p.ext.convert(x, toTy))
    else if fromTy.Str? then SetValueByString(p, toTy, x.s)
    else if IsListType(toTy) && fromTy.Slice? then p.ext.convertSlice(x, toTy)
    else Err(NotConvertible(fromTy, toTy))
  }
}

=== FILE: defaults_props.dfy ===
/** Properties of the default filler: the order of allFields, which fields a
    default pass may write, idempotence, and the value builders' behaviour on
    concrete defaults. */
module DefaultsProps {
  import opened Wrappers
  import opened Numeric
  import opened Types
  import opened Support
  import opened Options
  import opened Scalar
  import opened Inspect
  import opened Defaults
  import Csv

  // ---------------------------------------------------------------------------
  // allFields order

  /** Position `k` of `P` is preceded immediately by the post-order of the
      fields below it. */
  predicate BlockAt(P: seq<ParseField>, k: nat)
    requires k < |P|
  {
    var sub := PostOrder(P[k].subFields);
    |sub| <= k && P[k - |sub|..k] == sub
  }

  /** In allFields every field comes right after the whole block of fields
      below it, so setDefaults has visited all of a parent's fields when it
      reaches the parent. */
  lemma {:induction false} PostOrderBlocks(ds: seq<ParseField>)
    ensures forall k :: 0 <= k < |PostOrder(ds)| ==> BlockAt(PostOrder(ds), k)
    decreases ds
  {
    if |ds| > 0 {
      var d := ds[0];
      var A := PostOrder(d.subFields);
      var B := PostOrder(ds[1..]);
      var P := PostOrder(ds);
      assert P == A + [d] + B;
      PostOrderBlocks(d.subFields);
      PostOrderBlocks(ds[1..]);
      forall k | 0 <= k < |P| ensures BlockAt(P, k) {
        if k < |A| {
          assert P[k] == A[k] && BlockAt(A, k);
          var m := |PostOrder(A[k].subFields)|;
          assert P[k - m..k] == A[k - m..k];
        } else if k == |A| {
          assert P[k] == d && P[0..k] == A;
        } else {
          var k2 := k - |A| - 1;
          assert P[k] == B[k2] && BlockAt(B, k2);
          var m := |PostOrder(B[k2].subFields)|;
          assert P[k - m..k] == B[k2 - m..k2];
        }
      }
    }
  }

  /** The direct fields of a struct appear in allFields in declaration order,
      each after everything below it. */
  lemma {:induction false} PostOrderKeepsOrder(ds: seq<ParseField>)
    ensures |PostOrder(ds)| >= |ds|
    ensures |ds| > 0 ==> PostOrder(ds)[|PostOrder(ds[0].subFields)|] == ds[0]
    ensures |ds| > 0 ==> PostOrder(ds)[|PostOrder(ds)| - 1] == ds[|ds| - 1]
    decreases ds
  {
    if |ds| > 0 {
      PostOrderKeepsOrder(ds[1..]);
      var P := PostOrder(ds);
      var B := PostOrder(ds[1..]);
      assert P == PostOrder(ds[0].subFields) + [ds[0]] + B;
      if |ds| > 1 {
        assert ds[1..][|ds[1..]| - 1] == ds[|ds| - 1];
      }
    }
  }

  // ---------------------------------------------------------------------------
  // Inspection of an already inspected struct changes nothing

  /** The allocation walk is idle on a struct whose fields are all allocated. */
  lemma {:induction false} AllocIdle(v: Val, t: Ty, acc: Access, i: nat)
    requires t.Struct? && HasType(v, t) && i <= |t.fields| && ReadyFrom(v, t, i)
    requires forall j :: i <= j < |t.fields| ==> IsSupportedType(t.fields[j].ty)
    ensures AllocFrom(v, t, acc, i) == Applied(v, None)
    decreases t, 0, |t.fields| - i
  {
    if i < |t.fields| {
      var f := t.fields[i];
      var cur := v.fields[i];
      assert HasType(cur, f.ty) && FieldAllocated(cur, f.ty);
      assert Allocate(cur, f.ty, acc.FieldAccess(f)) == Ok(cur);
      AllocFieldIdle(cur, f.ty, acc.FieldAccess(f));
      assert v.(fields := v.fields[i := cur]) == v;
      AllocIdle(v, t, acc, i + 1);
    }
  }

  lemma {:induction false} AllocFieldIdle(fv: Val, ft: Ty, fa: Access)
    requires HasType(fv, ft) && FieldAllocated(fv, ft) && IsSupportedType(ft)
    ensures AllocField(fv, ft, fa) == Applied(fv, None)
    decreases ft, 1
  {
    if ft.Struct? {
      AllocIdle(fv, ft, fa, 0);
    } else if ft.Ptr? && ft.elem.Struct? {
      AllocIdle(fv.target, ft.elem, fa.Deref(), 0);
    }
  }

  // ---------------------------------------------------------------------------
  // What a default pass writes

  /** Fields before `i` are not touched by the pass from `i` on. */
  lemma {:induction false} FrameBefore(p: Parser, v: Val, t: Ty, ds: seq<ParseField>, i: nat, j: nat)
    requires t.Struct? && HasType(v, t) && Describes(ds, t) && i <= |t.fields| && ReadyFrom(v, t, 0)
    requires j < i
    ensures DefaultFrom(p, v, t, ds, i).value.fields[j] == v.fields[j]
    decreases |t.fields| - i
  {
    if i < |t.fields| {
      var s := DefaultField(p, v, t, ds, i);
      if s.err.None? {
        FrameBefore(p, s.value, t, ds, i + 1, j);
      }
    }
  }

  /** A field the pass does not select (a parent, or one without a default
      tag, that cannot be set, or that is not zero) keeps its value. */
  lemma {:induction false} DefaultFromKeeps(p: Parser, v: Val, t: Ty, ds: seq<ParseField>, i: nat, j: nat)
    requires t.Struct? && HasType(v, t) && Describes(ds, t) && i <= |t.fields| && ReadyFrom(v, t, 0)
    requires i <= j < |t.fields| && !ds[j].isParent && !MayDefault(ds[j], v.fields[j])
    ensures DefaultFrom(p, v, t, ds, i).value.fields[j] == v.fields[j]
    decreases |t.fields| - i
  {
    var s := DefaultField(p, v, t, ds, i);
    if i == j {
      assert s.value == v;
      if s.err.None? {
        FrameBefore(p, s.value, t, ds, i + 1, j);
      }
    } else {
      assert s.value.fields[j] == v.fields[j];
      if s.err.None? {
        DefaultFromKeeps(p, s.value, t, ds, i + 1, j);
      }
    }
  }

  /** A selected field of a successful pass holds the value its default text
      parses to. */
  lemma {:induction false} DefaultFromFills(p: Parser, v: Val, t: Ty, ds: seq<ParseField>, i: nat, j: nat)
    requires t.Struct? && HasType(v, t) && Describes(ds, t) && i <= |t.fields| && ReadyFrom(v, t, 0)
    requires i <= j < |t.fields| && MayDefault(ds[j], v.fields[j])
    requires DefaultFrom(p, v, t, ds, i).err.None?
    ensures ParseDefault(p, t.fields[j].ty, ds[j].tag.default, ds[j].parts) == Ok(DefaultFrom(p, v, t, ds, i).value.fields[j])
    decreases |t.fields| - i
  {
    var s := DefaultField(p, v, t, ds, i);
    if i == j {
      FrameBefore(p, s.value, t, ds, i + 1, j);
    } else {
      DefaultFromFills(p, s.value, t, ds, i + 1, j);
    }
  }

  /** A default tag on a parent field makes the pass fail (here or earlier). */
  lemma {:induction false} DefaultFromNested(p: Parser, v: Val, t: Ty, ds: seq<ParseField>, i: nat, j: nat)
    requires t.Struct? && HasType(v, t) && Describes(ds, t) && i <= |t.fields| && ReadyFrom(v, t, 0)
    requires i <= j < |t.fields| && ds[j].isParent && ds[j].tag.defaultSet
    ensures DefaultFrom(p, v, t, ds, i).err.Some?
    decreases |t.fields| - i
  {
    var s := DefaultField(p, v, t, ds, i);
    if s.err.None? {
      assert i != j;
      DefaultFromNested(p, s.value, t, ds, i + 1, j);
    }
  }

  /** At the level of setDefaultStruct: a field that is not a parent, not nil,
      and has no default tag, is unexported, or is not zero keeps its value. */
  lemma KeepsUnselectedField(p: Parser, v: Val, t: Ty, parts: seq<string>, j: nat)
    requires t.Struct? && HasType(v, t) && j < |t.fields|
    requires !IsParentType(t.fields[j].ty) && !IsNil(v.fields[j])
    requires p.tagOpt.defaultTag !in t.fields[j].tags || !t.fields[j].exported || DeepZero(v.fields[j]) == Ok(false)
    ensures SetDefaultStruct(p, v, t, parts, Settable).value.fields[j] == v.fields[j]
  {
    var ins := InspectField(v, t, parts, Settable, p.tagOpt);
    if ins.err.None? {
      assert Entry(ins.fields[j], t, j) && Labels(ins.fields[j], t.fields[j], parts, Settable, p.tagOpt);
      assert ins.value.fields[j] == v.fields[j];
      DefaultFromKeeps(p, ins.value, t, ins.fields, 0, j);
    }
  }

  /** At the level of setDefaultStruct: an exported, non-nil, zero field with a
      default tag receives the value its default text parses to (below its
      own path), when the pass succeeds. */
  lemma FillsSelectedField(p: Parser, v: Val, t: Ty, parts: seq<string>, j: nat)
    requires t.Struct? && HasType(v, t) && j < |t.fields|
    requires !IsParentType(t.fields[j].ty) && !IsNil(v.fields[j])
    requires p.tagOpt.defaultTag in t.fields[j].tags && t.fields[j].exported && DeepZero(v.fields[j]) == Ok(true)
    requires SetDefaultStruct(p, v, t, parts, Settable).err.None?
    ensures ParseDefault(p, t.fields[j].ty, t.fields[j].tags[p.tagOpt.defaultTag],
                         parts + [Ident(t.fields[j], p.tagOpt.identTag)])
            == Ok(SetDefaultStruct(p, v, t, parts, Settable).value.fields[j])
  {
    var ins := InspectField(v, t, parts, Settable, p.tagOpt);
    assert Entry(ins.fields[j], t, j) && Labels(ins.fields[j], t.fields[j], parts, Settable, p.tagOpt);
    assert ins.value.fields[j] == v.fields[j];
    DefaultFromFills(p, ins.value, t, ins.fields, 0, j);
  }

  // ---------------------------------------------------------------------------
  // Idempotence

  /** isZero is defined on every field a second default pass would examine:
      each non-parent field with a default tag that can be set, at every
      level below the struct. */
  predicate ZeroDecidable(v: Val, t: Ty, ds: seq<ParseField>)
    decreases t, 1
  {
    t.Struct? && v.VStruct? && |ds| == |t.fields| && |v.fields| == |t.fields|
    && forall j :: 0 <= j < |ds| ==> FieldDecidable(v.fields[j], t.fields[j].ty, ds[j])
  }

  predicate FieldDecidable(fv: Val, ft: Ty, d: ParseField)
    decreases ft, 2
  {
    (!d.isParent && d.tag.defaultSet && d.canSet ==> DeepZero(fv).Ok?)
    && (d.isParent && ft.Struct? ==> ZeroDecidable(fv, ft, d.subFields))
    && (d.isParent && ft.Ptr? && fv.VPtr? ==> ZeroDecidable(fv.target, ft.elem, d.subFields))
  }

  /** The step for field `i` reads field `i` only. */
  lemma DefaultFieldLocal(p: Parser, v: Val, w: Val, t: Ty, ds: seq<ParseField>, i: nat)
    requires t.Struct? && HasType(v, t) && Describes(ds, t) && i < |t.fields| && ReadyFrom(v, t, 0)
    requires HasType(w, t) && ReadyFrom(w, t, 0) && w.fields[i] == v.fields[i]
    ensures DefaultField(p, w, t, ds, i) ==
      Applied(w.(fields := w.fields[i := DefaultField(p, v, t, ds, i).value.fields[i]]), DefaultField(p, v, t, ds, i).err)
  {
    if ds[i].isParent {
      ParentStepLocal(p, v, w, t, ds, i);
    } else {
      PlainStepLocal(p, v, w, t, ds, i);
    }
  }

  lemma ParentStepLocal(p: Parser, v: Val, w: Val, t: Ty, ds: seq<ParseField>, i: nat)
    requires t.Struct? && HasType(v, t) && Describes(ds, t) && i < |t.fields| && ReadyFrom(v, t, 0)
    requires HasType(w, t) && ReadyFrom(w, t, 0) && w.fields[i] == v.fields[i] && ds[i].isParent
    ensures DefaultParentStep(p, w, t, ds, i) ==
      Applied(w.(fields := w.fields[i := DefaultParentStep(p, v, t, ds, i).value.fields[i]]), DefaultParentStep(p, v, t, ds, i).err)
  {
    assert Entry(ds[i], t, i);
  }

  lemma PlainStepLocal(p: Parser, v: Val, w: Val, t: Ty, ds: seq<ParseField>, i: nat)
    requires t.Struct? && HasType(v, t) && Describes(ds, t) && i < |t.fields| && ReadyFrom(v, t, 0)
    requires HasType(w, t) && ReadyFrom(w, t, 0) && w.fields[i] == v.fields[i] && !ds[i].isParent
    ensures DefaultPlainStep(p, w, t, ds, i) ==
      Applied(w.(fields := w.fields[i := DefaultPlainStep(p, v, t, ds, i).value.fields[i]]), DefaultPlainStep(p, v, t, ds, i).err)
  {
    if !MayDefault(ds[i], v.fields[i]) {
      assert w.(fields := w.fields[i := v.fields[i]]) == w;
    }
  }

  /** Repeating the step for field `i` on its own successful result changes
      nothing. */
  lemma {:induction false} DefaultFieldIdempotent(p: Parser, v: Val, t: Ty, ds: seq<ParseField>, i: nat)
    requires t.Struct? && HasType(v, t) && Describes(ds, t) && i < |t.fields| && ReadyFrom(v, t, 0)
    requires DefaultField(p, v, t, ds, i).err.None?
    requires FieldDecidable(DefaultField(p, v, t, ds, i).value.fields[i], t.fields[i].ty, ds[i])
    ensures DefaultField(p, DefaultField(p, v, t, ds, i).value, t, ds, i) == DefaultField(p, v, t, ds, i)
    decreases t, 0
  {
    var s := DefaultField(p, v, t, ds, i);
    var d := ds[i];
    var ft := t.fields[i].ty;
    var cur := v.fields[i];
    assert Entry(d, t, i) && FieldAllocated(cur, ft) && HasType(cur, ft);
    if d.isParent {
      if ft.Struct? {
        assert Allocated(cur, ft) && Describes(d.subFields, ft);
        DefaultFromIdempotent(p, cur, ft, d.subFields, 0);
      } else {
        assert ft.Ptr? && ft.elem.Struct? && cur.VPtr?;
        assert HasType(cur.target, ft.elem) && Allocated(cur.target, ft.elem) && Describes(d.subFields, ft.elem);
        DefaultFromIdempotent(p, cur.target, ft.elem, d.subFields, 0);
      }
      assert s.value.(fields := s.value.fields[i := s.value.fields[i]]) == s.value;
    } else if MayDefault(d, cur) {
      assert s.value.(fields := s.value.fields[i := s.value.fields[i]]) == s.value;
    }
  }

  /** A second setDefaults pass over the result of a successful one changes
      nothing, provided isZero is defined wherever it looks. */
  lemma {:induction false} DefaultFromIdempotent(p: Parser, v: Val, t: Ty, ds: seq<ParseField>, i: nat)
    requires t.Struct? && HasType(v, t) && Describes(ds, t) && i <= |t.fields| && ReadyFrom(v, t, 0)
    requires DefaultFrom(p, v, t, ds, i).err.None?
    requires ZeroDecidable(DefaultFrom(p, v, t, ds, i).value, t, ds)
    ensures DefaultFrom(p, DefaultFrom(p, v, t, ds, i).value, t, ds, i) == DefaultFrom(p, v, t, ds, i)
    decreases t, |t.fields| - i
  {
    if i < |t.fields| {
      var s := DefaultField(p, v, t, ds, i);
      var r1 := DefaultFrom(p, s.value, t, ds, i + 1);
      assert s.err.None? && DefaultFrom(p, v, t, ds, i) == r1;
      var w := r1.value;
      assert w.fields[i] == s.value.fields[i] by {
        FrameBefore(p, s.value, t, ds, i + 1, i);
      }
      assert DefaultField(p, s.value, t, ds, i) == s by {
        assert FieldDecidable(w.fields[i], t.fields[i].ty, ds[i]);
        DefaultFieldIdempotent(p, v, t, ds, i);
      }
      assert DefaultField(p, w, t, ds, i) == Applied(w, None) by {
        DefaultFieldLocal(p, s.value, w, t, ds, i);
        assert w.(fields := w.fields[i := s.value.fields[i]]) == w;
      }
      assert DefaultFrom(p, w, t, ds, i + 1) == r1 by {
        DefaultFromIdempotent(p, s.value, t, ds, i + 1);
      }
      assert DefaultFrom(p, w, t, ds, i) == r1;
    } else {
      assert DefaultFrom(p, v, t, ds, i) == Applied(v, None);
    }
  }

  /** setDefaultStruct is idempotent: run again on its own successful result
      it returns that result, provided isZero is defined wherever the second
      pass looks. */
  lemma SetDefaultStructIdempotent(p: Parser, v: Val, t: Ty, parts: seq<string>)
    requires t.Struct? && HasType(v, t)
    requires SetDefaultStruct(p, v, t, parts, Settable).err.None?
    requires ZeroDecidable(SetDefaultStruct(p, v, t, parts, Settable).value, t,
                           InspectField(v, t, parts, Settable, p.tagOpt).fields)
    ensures SetDefaultStruct(p, SetDefaultStruct(p, v, t, parts, Settable).value, t, parts, Settable)
            == SetDefaultStruct(p, v, t, parts, Settable)
  {
    var ins := InspectField(v, t, parts, Settable, p.tagOpt);
    var r1 := SetDefaultStruct(p, v, t, parts, Settable);
    assert ins.err.None? && r1 == DefaultFrom(p, ins.value, t, ins.fields, 0);
    var w := r1.value;
    AllocIdle(w, t, Settable, 0);
    assert InspectField(w, t, parts, Settable, p.tagOpt).fields == ins.fields;
    DefaultFromIdempotent(p, ins.value, t, ins.fields, 0);
  }

  // ---------------------------------------------------------------------------
  // Value builders

  /** parseSimpleValue never reads the text for a struct or pointer
      destination: any two texts give the same value. */
  lemma ParseSimpleIgnoresText(p: Parser, t: Ty, s1: string, s2: string)
    requires (t.Struct? || t.Ptr?) && t != TextU
    ensures ParseSimple(p, t, s1) == ParseSimple(p, t, s2) == ZeroTypeD(p, t, [])
  {
  }

  /** zeroType allocates every pointer level down to the non-pointer type,
      which holds its zero value. */
  lemma ZeroTypeNestedPointer(p: Parser, parts: seq<string>)
    ensures ZeroTypeD(p, Ptr(Ptr(Int(W64))), parts) == Ok(VPtr(VPtr(VInt(0))))
  {
  }

  /** parseMap: a repeated token makes one key, every entry holds the zero
      value of the element type, and the text of a token is not parsed into
      its entry. */
  lemma ParseMapRepeatedKey(p: Parser, parts: seq<string>)
    ensures ParseMapD(p, Map(KString, Int(W64)), "a,b,a", parts)
            == Ok(VMap([(KStr("a"), VInt(0)), (KStr("b"), VInt(0))]))
  {
    ReadsRepeated();
    ZeroIntD(p, W64, parts);
    BuildsRepeated();
  }

  /** The entries parseMap builds from the tokens a, b, a. */
  lemma BuildsRepeated()
    ensures BuildMap(["a", "b", "a"], VInt(0), []) == [(KStr("a"), VInt(0)), (KStr("b"), VInt(0))]
  {
    var z := VInt(0);
    var e1 := Insert([], KStr("a"), z);
    assert e1 == [(KStr("a"), z)];
    var e2 := Insert(e1, KStr("b"), z);
    assert e2 == [(KStr("a"), z), (KStr("b"), z)];
    var e3 := Insert(e2, KStr("a"), z);
    assert e2[0].0 == KStr("a");
    assert e3 == e2;
    assert BuildMap(["a", "b", "a"], z, []) == BuildMap(["b", "a"], z, e1);
    assert BuildMap(["b", "a"], z, e1) == BuildMap(["a"], z, e2);
    assert BuildMap(["a"], z, e2) == BuildMap([], z, e3);
  }

  lemma ReadsRepeated()
    ensures Csv.ReadAsCsv("a,b,a") == Ok(["a", "b", "a"])
  {
    Csv.PlainRoundTrip(["a", "b", "a"]);
    assert Csv.Join(["a", "b", "a"]) == "a,b,a";
  }

  /** map[int]int passes isSupportedType. */
  lemma IntMapSupported()
    ensures IsSupportedType(Map(KInt(WNative), Int(WNative)))
  {
    var t := Map(KInt(WNative), Int(WNative));
    assert SupportedKeyKind(t.key) && IsSupportedType(t.elem);
  }

  /** zeroType of an int of any width is its zero. */
  lemma ZeroIntD(p: Parser, w: IntWidth, parts: seq<string>)
    ensures ZeroTypeD(p, Int(w), parts) == Ok(VInt(0))
  {
  }

  /** The CSV text "1" holds the one token "1". */
  lemma ReadsOne()
    ensures Csv.ReadAsCsv("1") == Ok(["1"])
  {
    Csv.PlainRoundTrip(["1"]);
    assert Csv.Join(["1"]) == "1";
  }

  /** parseMap into a map[int]int, a type isSupportedType accepts, panics
      as soon as there is a token: the token is a string, not an int. */
  lemma ParseMapIntKeyPanics(p: Parser, parts: seq<string>)
    ensures IsSupportedType(Map(KInt(WNative), Int(WNative)))
    ensures ParseMapD(p, Map(KInt(WNative), Int(WNative)), "1", parts) == Err(ConvertPanic(KInt(WNative)))
  {
    var t := Map(KInt(WNative), Int(WNative));
    IntMapSupported();
    ReadsOne();
    ZeroIntD(p, WNative, parts);
  }

  /** parseSlice: when every CSV token parses, the slice holds the parsed
      tokens in order. */
  lemma ParseSliceTokens(p: Parser, t: Ty, s: string, vals: seq<string>, xs: seq<Val>)
    requires t.Slice? && Csv.ReadAsCsv(s) == Ok(vals) && |xs| == |vals|
    requires forall j :: 0 <= j < |vals| ==> ParseSimple(p, t.elem, vals[j]) == Ok(xs[j])
    ensures ParseSliceD(p, t, s) == Ok(VSlice(xs))
  {
    var r := ParseElems(p, t, vals, 0);
    assert r.Ok?;
    assert r.value == xs;
  }

  /** The decimal forms of `xs`. */
  function Decimals(xs: seq<int>): (ds: seq<string>)
    ensures |ds| == |xs|
    ensures forall j :: 0 <= j < |xs| ==> ds[j] == FormatInt(xs[j])
  {
    seq(|xs|, j requires 0 <= j < |xs| => FormatInt(xs[j]))
  }

  /** A decimal form holds no comma, quote or line break. */
  lemma DecimalIsPlain(x: int)
    ensures Csv.IsPlain(FormatInt(x)) && FormatInt(x) != ""
  {
    var d := FormatNat(if x < 0 then -x else x);
    assert IsDecimal(d);
    assert FormatInt(x) == if x < 0 then "-" + d else d;
    assert forall i :: 0 <= i < |d| ==> IsDigit(d[i]);
  }

  /** parseSlice round trip: the comma-joined decimal forms of some int64
      values give back a slice of exactly those values. */
  lemma ParseSliceInts(p: Parser, xs: seq<int>)
    requires |xs| >= 1 && forall j :: 0 <= j < |xs| ==> InIntRange(xs[j], W64)
    ensures ParseSliceD(p, Slice(Int(W64)), Csv.Join(Decimals(xs)))
      == Ok(VSlice(seq(|xs|, j requires 0 <= j < |xs| => VInt(xs[j]))))
  {
    var vals := Decimals(xs);
    var ys := seq(|xs|, j requires 0 <= j < |xs| => VInt(xs[j]));
    assert Csv.ReadAsCsv(Csv.Join(vals)) == Ok(vals) by {
      forall j | 0 <= j < |vals| ensures Csv.IsPlain(vals[j]) {
        DecimalIsPlain(xs[j]);
      }
      DecimalIsPlain(xs[0]);
      JoinNotEmpty(vals);
      Csv.PlainRoundTrip(vals);
    }
    forall j | 0 <= j < |vals| ensures ParseSimple(p, Int(W64), vals[j]) == Ok(ys[j]) {
      IntToken(p, xs[j], vals[j]);
    }
    ParseSliceTokens(p, Slice(Int(W64)), Csv.Join(vals), vals, ys);
  }

  /** A join whose first field is not empty is not empty. */
  lemma JoinNotEmpty(fs: seq<string>)
    requires |fs| >= 1 && fs[0] != ""
    ensures Csv.Join(fs) != ""
  {
    if |fs| > 1 {
      assert Csv.Join(fs) == fs[0] + "," + Csv.Join(fs[1..]);
    }
  }

  lemma IntToken(p: Parser, x: int, s: string)
    requires FormatInt(x) == s && InIntRange(x, W64)
    ensures ParseSimple(p, Int(W64), s) == Ok(VInt(x))
  {
    IntDefaultRoundTrip(x, W64, p.ext);
  }

  /** setValue between identical types stores the value itself, whatever the
      conversion capabilities are. */
  lemma SetValueSameType(p: Parser, t: Ty, x: Val)
    requires HasType(x, t)
    ensures SetValue(p, t, t, x) == Ok(x)
  {
  }

  /** setValue's string branch: Go cannot convert a string to []int64, so a
      string holding the comma-joined decimals of some int64 values is
      parsed, and the slice stored holds exactly those values. */
  lemma SetValueStringToInts(p: Parser, xs: seq<int>)
    requires !p.ext.convertible(Str, Slice(Int(W64)))
    requires |xs| >= 1 && forall j :: 0 <= j < |xs| ==> InIntRange(xs[j], W64)
    ensures SetValue(p, Slice(Int(W64)), Str, VStr(Csv.Join(Decimals(xs))))
      == Ok(VSlice(seq(|xs|, j requires 0 <= j < |xs| => VInt(xs[j]))))
  {
    ParseSliceInts(p, xs);
  }
}

=== FILE: embedded.dfy ===
/** Unexported embedded structs, as in

      type base struct { A int `default:"1"`; R *Redis }
      type Conf struct { base }

    reflect gives the embedded field `base` its own read-only flag, which
    its exported fields do not inherit: the defaults engine walks `base` as
    if it were exported, so it allocates `R` and writes `A`. The walker of
    pkg/parse/load.go prints `base` through Interface first and panics; the
    root walker skips it. */
module EmbeddedFields {
  import opened Wrappers
  import opened Numeric
  import opened Types
  import opened Options
  import opened Scalar
  import opened Support
  import opened Inspect
  import opened Walk
  import Defaults
  import Pkg = PkgLoad
  import Root = RootLoad

  const RedisTy: Ty := Struct([Field("Addr", true, false, map[], Str)])
  const BaseTy: Ty := Struct([
    Field("A", true, false, map[DefaultTag := "1"], Int(WNative)),
    Field("R", true, false, map[], Ptr(RedisTy))])
  const ConfTy: Ty := Struct([Field("base", false, true, map[], BaseTy)])

  /** The zero Conf. */
  const ZeroConf: Val := VStruct([VStruct([VInt(0), VNilPtr])])

  /** The types are supported and the zero Conf is what Go's zero value is. */
  lemma ConfFacts()
    ensures IsSupportedType(RedisTy) && IsSupportedType(BaseTy) && IsSupportedType(ConfTy)
    ensures ZeroOf(RedisTy) == VStruct([VStr("")])
    ensures ZeroOf(BaseTy) == ZeroConf.fields[0] && ZeroOf(ConfTy) == ZeroConf
    ensures HasType(ZeroConf, ConfTy)
  {
    assert IsSupportedType(RedisTy.fields[0].ty);
    assert IsSupportedType(BaseTy.fields[0].ty);
    assert IsSupportedType(BaseTy.fields[1].ty);
    assert IsSupportedType(ConfTy.fields[0].ty);
    assert ZeroOf(RedisTy).fields == [VStr("")];
    assert ZeroOf(BaseTy).fields == [VInt(0), VNilPtr];
    assert ZeroOf(ConfTy).fields == [ZeroOf(BaseTy)];
    assert HasType(ZeroConf.fields[0], BaseTy);
  }

  /** The read-only flag of an unexported embedded field stops at the field:
      its exported fields can be set, directly or behind a pointer, while
      below an unexported field that is not embedded nothing can. */
  lemma EmbeddedFlagNotInherited(acc: Access, e: Field, f: Field)
    requires acc.Settable? && !e.exported && f.exported
    ensures !acc.FieldAccess(e).CanSet() && !acc.FieldAccess(e).CanInterface()
    ensures e.embedded ==> acc.FieldAccess(e).FieldAccess(f).CanSet()
    ensures e.embedded ==> acc.FieldAccess(e).Deref().FieldAccess(f).CanSet()
    ensures !e.embedded ==> !acc.FieldAccess(e).FieldAccess(f).CanInterface()
    ensures !e.embedded ==> !acc.FieldAccess(e).Deref().FieldAccess(f).CanInterface()
  {
  }

  /** inspectField treats the fields of an unexported embedded struct (an
      addressable value with the embedded read-only flag) exactly as those of
      an exported one: the same allocations, descriptors and errors. So does
      the whole default pass over it. */
  lemma EmbeddedInspectedAsExported(p: Defaults.Parser, v: Val, t: Ty, parts: seq<string>)
    requires t.Struct? && HasType(v, t)
    ensures InspectField(v, t, parts, EmbedReadOnly(true), p.tagOpt) == InspectField(v, t, parts, Settable, p.tagOpt)
    ensures Defaults.SetDefaultStruct(p, v, t, parts, EmbedReadOnly(true)) == Defaults.SetDefaultStruct(p, v, t, parts, Settable)
  {
    AllocSameAccess(v, t, EmbedReadOnly(true), Settable, 0);
    DescribeSameAccess(t, parts, EmbedReadOnly(true), Settable, p.tagOpt, 0);
  }

  /** The allocation walk reads its access only through FieldAccess, where
      the embedded read-only flag is dropped: it walks an embedded struct as
      it walks one without the flag. */
  lemma {:induction false} AllocSameAccess(v: Val, t: Ty, a1: Access, a2: Access, i: nat)
    requires t.Struct? && HasType(v, t) && i <= |t.fields|
    requires a1.EmbedReadOnly? && a2 == (if a1.addressable then Settable else Unaddressable)
    ensures AllocFrom(v, t, a1, i) == AllocFrom(v, t, a2, i)
    decreases |t.fields| - i
  {
    if i < |t.fields| {
      var f := t.fields[i];
      var fa := a1.FieldAccess(f);
      assert fa == a2.FieldAccess(f);
      if IsSupportedType(f.ty) && Allocate(v.fields[i], f.ty, fa).Ok? {
        var fv := Allocate(v.fields[i], f.ty, fa).value;
        var sub := AllocField(fv, f.ty, fa);
        var v1 := v.(fields := v.fields[i := sub.value]);
        if sub.err.None? {
          assert AllocFrom(v1, t, a1, i + 1) == AllocFrom(v1, t, a2, i + 1) by {
            AllocSameAccess(v1, t, a1, a2, i + 1);
          }
        }
      }
    }
  }

  /** The same for the description walk. */
  lemma {:induction false} DescribeSameAccess(t: Ty, parts: seq<string>, a1: Access, a2: Access, o: TagOption, i: nat)
    requires t.Struct? && i <= |t.fields|
    requires a1.EmbedReadOnly? && a2 == (if a1.addressable then Settable else Unaddressable)
    ensures DescribeFrom(t, parts, a1, o, i) == DescribeFrom(t, parts, a2, o, i)
    decreases |t.fields| - i
  {
    if i < |t.fields| {
      var f := t.fields[i];
      assert DescribeField(f, i, parts, a1, o) == DescribeField(f, i, parts, a2, o) by {
        assert a1.FieldAccess(f) == a2.FieldAccess(f);
      }
      assert DescribeFrom(t, parts, a1, o, i + 1) == DescribeFrom(t, parts, a2, o, i + 1) by {
        DescribeSameAccess(t, parts, a1, a2, o, i + 1);
      }
    }
  }

  /** The walker of pkg/parse/load.go panics on the embedded field: printing
      it calls Interface on a value with a read-only flag. */
  lemma EmbeddedPanicsInPkgWalk(ext: Externals, o: TagOption, d: string)
    ensures Pkg.ParseValue(ext, ZeroConf, ConfTy, Settable, Some(o), d) == Pkg.Walked(ZeroConf, d, Some(InterfacePanic))
  {
    ConfFacts();
    var f := ConfTy.fields[0];
    var fo := Some(FromField(o, f));
    assert Pkg.SetZeroType(ext, ZeroConf, ConfTy, Settable, Some(o), d) == Pkg.Walked(ZeroConf, d, None);
    assert Pkg.ParseValue(ext, ZeroConf.fields[0], f.ty, EmbedReadOnly(true), fo, Pkg.InitialDefault(fo))
      == Pkg.Walked(ZeroConf.fields[0], Pkg.InitialDefault(fo), Some(InterfacePanic));
    assert ZeroConf.(fields := ZeroConf.fields[0 := ZeroConf.fields[0]]) == ZeroConf;
    assert Pkg.ParseStruct(ext, ZeroConf, ConfTy, Settable, Some(o), d, 0) == Pkg.Walked(ZeroConf, d, Some(InterfacePanic));
  }

  /** The root walker skips the embedded field, which cannot be set, and
      with it the default of A. */
  lemma EmbeddedSkippedInRootWalk(ext: Externals, o: Root.RootOption)
    ensures Root.ParseValue(ext, ZeroConf, ConfTy, Settable, o) == Applied(ZeroConf, None)
  {
    ConfFacts();
    assert Root.SetZeroType(ext, ZeroConf, ConfTy, Settable, o) == Applied(ZeroConf, None);
    assert !Settable.FieldAccess(ConfTy.fields[0]).CanSet();
    assert Root.ParseStruct(ext, ZeroConf, ConfTy, Settable, o, 1) == Applied(ZeroConf, None);
    assert Root.ParseStruct(ext, ZeroConf, ConfTy, Settable, o, 0) == Applied(ZeroConf, None);
  }
}

=== FILE: inspect.dfy ===
/** The field inspector of pkg/parse/inspect_struct.go: every field of a
    struct is described (identifier, dotted path, tag values), nil pointer and
    nil map fields are allocated on the way, and nested structs (directly or
    behind a pointer) are descended into. The result lists the direct fields
    in declaration order and every field of the tree in post-order. */
module Inspect {
  import opened Wrappers
  import opened Types
  import opened Support
  import opened Options

  /** parseField: what the inspector records about one struct field. The
      reflect.Value it also holds is the field of the value being walked. */
  datatype ParseField = ParseField(
    index: nat,
    ty: Ty,
    parts: seq<string>,
    tag: TagValue,
    canSet: bool,
    isMap: bool,
    isParent: bool,
    subFields: seq<ParseField>)

  /** parseFromField: the field's identifier, its path below the parent's path
      (a root field's path is its identifier alone), and its tag values. */
  function ParseFromField(index: nat, f: Field, parentParts: seq<string>, o: TagOption): (d: ParseField)
    ensures d.index == index && d.ty == f.ty
    ensures d.tag.ident == Ident(f, o.identTag)
    ensures d.parts == parentParts + [d.tag.ident]
    ensures parentParts == [] ==> FullId(d.parts) == d.tag.ident
    ensures parentParts != [] ==> FullId(d.parts) == FullId(parentParts) + "." + d.tag.ident
    ensures d.tag.defaultSet <==> o.defaultTag in f.tags
    ensures d.tag.defaultSet ==> d.tag.default == f.tags[o.defaultTag]
    ensures !d.canSet && !d.isMap && !d.isParent && d.subFields == []
  {
    var tv := ReadTagValue(f, o);
    if parentParts == [] then
      assert [] + [tv.ident] == [tv.ident];
      ParseField(index, f.ty, [tv.ident], tv, false, false, false, [])
    else
      FullIdSnoc(parentParts, tv.ident);
      ParseField(index, f.ty, parentParts + [tv.ident], tv, false, false, false, [])
  }

  /** Fields the inspector descends into: a struct, or a pointer to a struct,
      unless the type decodes itself from text. */
  predicate IsParentType(t: Ty) {
    t != TextU && (t.Struct? || (t.Ptr? && t.elem.Struct?))
  }

  /** The panic reflect raises when Set is called on a field reached through an
      unexported field. */
  const UnsettablePanic := Panic("reflect: reflect.Value.Set using value obtained using unexported field")

  /** The allocation step of inspectField: a nil pointer field (a TextU field
      included) gets a fresh pointer to a zero value, a nil map field an empty
      map; anything else is left alone. Setting a field that cannot be set
      panics. */
  function Allocate(cur: Val, t: Ty, acc: Access): (r: Outcome<Val>)
    requires HasType(cur, t)
    ensures r.Ok? ==> HasType(r.value, t)
    ensures r.Err? <==> (t.Ptr? || t == TextU || t.Map?) && IsNil(cur) && !acc.CanSet()
    ensures r.Err? ==> r.error == UnsettablePanic
    ensures r.Ok? && (t.Ptr? || t == TextU || t.Map?) ==> !IsNil(r.value)
    ensures r.Ok? && !IsNil(cur) ==> r.value == cur
    ensures r.Ok? && t.Ptr? && cur.VNilPtr? ==> r.value == VPtr(ZeroOf(t.elem))
  {
    if (t.Ptr? || t == TextU || t.Map?) && IsNil(cur) && !acc.CanSet() then Err(UnsettablePanic)
    else if t.Ptr? && cur.VNilPtr? then
      ZeroOfHasType(t.elem);
      Ok(VPtr(ZeroOf(t.elem)))
    else if t == TextU && cur == VText(None) then Ok(VText(Some("")))
    else if t.Map? && cur.VNilMap? then Ok(VMap([]))
    else Ok(cur)
  }

  // ---------------------------------------------------------------------------
  // What inspection leaves behind

  /** Field value `fv` of field type `ft` after inspection: pointers and maps
      are non-nil, and nested structs (direct or behind a pointer) are in the
      same state all the way down. */
  predicate FieldAllocated(fv: Val, ft: Ty)
    decreases ft, 1
  {
    (ft.Ptr? ==> fv.VPtr?)
    && (ft == TextU ==> fv != VText(None))
    && (ft.Map? ==> fv.VMap?)
    && (ft.Struct? ==> Allocated(fv, ft))
    && (ft.Ptr? && ft.elem.Struct? ==> fv.VPtr? && Allocated(fv.target, ft.elem))
  }

  /** Every field of struct value `v` of type `t` is allocated. */
  predicate Allocated(v: Val, t: Ty)
    decreases t, 0
  {
    t.Struct? && v.VStruct? && |v.fields| == |t.fields|
    && forall j :: 0 <= j < |t.fields| ==> FieldAllocated(v.fields[j], t.fields[j].ty)
  }

  /** Descriptor `d` describes field `k` of struct type `t`, and so do its
      sub-descriptors for the struct it leads to. */
  predicate Entry(d: ParseField, t: Ty, k: nat)
    requires t.Struct? && k < |t.fields|
    decreases t, 0
  {
    var ft := t.fields[k].ty;
    d.index == k && d.ty == ft
    && (d.isParent <==> IsParentType(ft))
    && (d.isMap <==> ft.Map?)
    && (!d.isParent ==> d.subFields == [])
    && (d.isParent && ft.Struct? ==> Describes(d.subFields, ft))
    && (d.isParent && ft.Ptr? ==> Describes(d.subFields, ft.elem))
  }

  /** `ds` describes the fields of struct type `t`, in declaration order. */
  predicate Describes(ds: seq<ParseField>, t: Ty)
    decreases t, 1
  {
    t.Struct? && |ds| == |t.fields|
    && forall j :: 0 <= j < |ds| ==> Entry(ds[j], t, j)
  }

  /** allFields: each field preceded by the fields below it. */
  function PostOrder(ds: seq<ParseField>): seq<ParseField>
    decreases ds
  {
    if |ds| == 0 then [] else PostOrder(ds[0].subFields) + [ds[0]] + PostOrder(ds[1..])
  }

  // ---------------------------------------------------------------------------
  // inspectField
  //
  // inspectField builds the descriptors and allocates fields in one loop. The
  // descriptors depend only on the types, the tags, the parent path and the
  // access, so they are computed by DescribeFrom; the allocation walk, which
  // also decides the error, is AllocFrom. InspectField puts the two together.

  /** Starting from the addressable struct behind the root pointer, every
      value inspectField reaches is addressable, and for an addressable value
      CanSet and CanInterface agree. */
  lemma AddressableAccess(acc: Access, f: Field)
    requires acc.Settable? || acc == EmbedReadOnly(true) || acc.ReadOnly?
    ensures acc.CanSet() <==> acc.CanInterface()
    ensures var fa := acc.FieldAccess(f);
      fa.Settable? || fa == EmbedReadOnly(true) || fa.ReadOnly?
    ensures var da := acc.Deref();
      da.Settable? || da == EmbedReadOnly(true) || da.ReadOnly?
  {
  }

  /** The labels parseFromField and inspectField give descriptor `d` of field
      `f`: tag values, path below `parts`, and whether the field can be set. */
  predicate Labels(d: ParseField, f: Field, parts: seq<string>, acc: Access, o: TagOption) {
    d.tag == ReadTagValue(f, o)
    && d.parts == parts + [d.tag.ident]
    && d.canSet == acc.FieldAccess(f).CanSet()
  }

  /** Direct fields and all fields of a struct, as inspectField returns them. */
  datatype Described = Described(fields: seq<ParseField>, all: seq<ParseField>)

  /** The descriptors of the fields of struct type `t` from field `i` on. */
  function DescribeFrom(t: Ty, parts: seq<string>, acc: Access, o: TagOption, i: nat): (r: Described)
    requires t.Struct? && i <= |t.fields|
    decreases t, 0, |t.fields| - i
    ensures |r.fields| == |t.fields| - i
    ensures forall j :: 0 <= j < |r.fields| ==>
      Entry(r.fields[j], t, i + j) && Labels(r.fields[j], t.fields[i + j], parts, acc, o)
    ensures r.all == PostOrder(r.fields)
  {
    if i == |t.fields| then Described([], [])
    else
      var here := DescribeField(t.fields[i], i, parts, acc, o);
      var rest := DescribeFrom(t, parts, acc, o, i + 1);
      var fields := [here.fields[0]] + rest.fields;
      DescribedCons(t, parts, acc, o, i, here.fields[0], rest.fields);
      assert PostOrder(fields) == here.all + rest.all by {
        assert fields[1..] == rest.fields;
        assert here.all == PostOrder(fields[0].subFields) + [fields[0]];
      }
      Described(fields, here.all + rest.all)
  }

  /** The descriptor of field `i` in front of those of the fields after it
      gives the descriptors of the fields from `i` on. */
  lemma DescribedCons(t: Ty, parts: seq<string>, acc: Access, o: TagOption, i: nat, d: ParseField, rest: seq<ParseField>)
    requires t.Struct? && i < |t.fields| && |rest| == |t.fields| - i - 1
    requires Entry(d, t, i) && Labels(d, t.fields[i], parts, acc, o)
    requires forall j :: 0 <= j < |rest| ==>
      Entry(rest[j], t, i + 1 + j) && Labels(rest[j], t.fields[i + 1 + j], parts, acc, o)
    ensures forall j :: 0 <= j < |rest| + 1 ==>
      Entry(([d] + rest)[j], t, i + j) && Labels(([d] + rest)[j], t.fields[i + j], parts, acc, o)
  {
    forall j | 0 <= j < |rest| + 1
      ensures Entry(([d] + rest)[j], t, i + j) && Labels(([d] + rest)[j], t.fields[i + j], parts, acc, o)
    {
      if j > 0 {
        assert ([d] + rest)[j] == rest[j - 1];
        assert i + j == i + 1 + (j - 1);
      }
    }
  }

  /** The descriptor of field `f` (number `index`), alone in `fields`, and in
      `all` the fields below it followed by itself. A parent field's
      sub-fields are the fields of its struct, with its own path as parent. */
  function DescribeField(f: Field, index: nat, parts: seq<string>, acc: Access, o: TagOption): (r: Described)
    decreases f.ty, 1
    ensures |r.fields| == 1 && Labels(r.fields[0], f, parts, acc, o)
    ensures r.fields[0].index == index && r.fields[0].ty == f.ty
    ensures r.fields[0].isParent <==> IsParentType(f.ty)
    ensures r.fields[0].isMap <==> f.ty.Map?
    ensures !r.fields[0].isParent ==> r.fields[0].subFields == []
    ensures r.fields[0].isParent && f.ty.Struct? ==> Describes(r.fields[0].subFields, f.ty)
    ensures r.fields[0].isParent && f.ty.Ptr? ==> Describes(r.fields[0].subFields, f.ty.elem)
    ensures r.all == PostOrder(r.fields)
  {
    var fa := acc.FieldAccess(f);
    var d0 := ParseFromField(index, f, parts, o).(canSet := fa.CanSet(), isMap := f.ty.Map?);
    var below :=
      if !IsParentType(f.ty) then Described([], [])
      else if f.ty.Struct? then DescribeFrom(f.ty, d0.parts, fa, o, 0)
      else DescribeFrom(f.ty.elem, d0.parts, fa.Deref(), o, 0);
    var d := d0.(isParent := IsParentType(f.ty), subFields := below.fields);
    assert [d][1..] == [];
    Described([d], below.all + [d])
  }

  /** The result of a walk that mutates a value and may stop with an error:
      the value as it stands (also when it failed part way) and the error. */
  datatype Applied = Applied(value: Val, err: Option<Error>)

  /** The allocation walk of inspectField over the fields of struct value `v`
      of type `t` from field `i` on: the support check, the allocation of the
      field, then the descent into it; the first failure stops the walk. */
  function AllocFrom(v: Val, t: Ty, acc: Access, i: nat): (r: Applied)
    requires t.Struct? && HasType(v, t) && i <= |t.fields|
    decreases t, 0, |t.fields| - i
    ensures HasType(r.value, t)
    ensures forall j :: 0 <= j < i ==> r.value.fields[j] == v.fields[j]
    ensures (exists j :: i <= j < |t.fields| && !IsSupportedType(t.fields[j].ty)) ==> r.err.Some?
    ensures r.err.None? ==> forall j :: i <= j < |t.fields| ==> FieldAllocated(r.value.fields[j], t.fields[j].ty)
    ensures forall j :: i <= j < |t.fields| && !IsParentType(t.fields[j].ty) && !IsNil(v.fields[j]) ==>
      r.value.fields[j] == v.fields[j]
  {
    if i == |t.fields| then Applied(v, None)
    else
      var f := t.fields[i];
      if !IsSupportedType(f.ty) then Applied(v, Some(UnsupportedField(f.name, f.ty)))
      else
        var fa := acc.FieldAccess(f);
        match Allocate(v.fields[i], f.ty, fa)
        case Err(e) => Applied(v, Some(e))
        case Ok(fv) =>
          var sub := AllocField(fv, f.ty, fa);
          var v1 := v.(fields := v.fields[i := sub.value]);
          if sub.err.Some? then Applied(v1, sub.err)
          else AllocFrom(v1, t, acc, i + 1)
  }

  /** The descent of inspectField into an allocated field value `fv` of type
      `ft`: a parent field's struct is walked in turn; other fields stay. */
  function AllocField(fv: Val, ft: Ty, fa: Access): (r: Applied)
    requires HasType(fv, ft)
    requires ft.Ptr? ==> fv.VPtr?
    decreases ft, 1
    ensures HasType(r.value, ft)
    ensures !IsParentType(ft) ==> r == Applied(fv, None)
    ensures ft.Ptr? ==> r.value.VPtr?
    ensures r.err.None? && ft.Struct? ==> Allocated(r.value, ft)
    ensures r.err.None? && ft.Ptr? && ft.elem.Struct? ==> Allocated(r.value.target, ft.elem)
  {
    if ft.Struct? then AllocFrom(fv, ft, fa, 0)
    else if ft.Ptr? && ft.elem.Struct? then
      var sub := AllocFrom(fv.target, ft.elem, fa.Deref(), 0);
      Applied(VPtr(sub.value), sub.err)
    else Applied(fv, None)
  }

  /** The result of inspectField: the value after allocation, the direct
      fields, all fields, and the error. On an error the lists are empty and
      the value keeps the allocations made before it. */
  datatype Inspected = Inspected(value: Val, fields: seq<ParseField>, all: seq<ParseField>, err: Option<Error>)

  /** inspectField on struct value `v` of type `t`, below the path `parts`. */
  function InspectField(v: Val, t: Ty, parts: seq<string>, acc: Access, o: TagOption): (r: Inspected)
    requires t.Struct? && HasType(v, t)
    ensures HasType(r.value, t)
    ensures (exists j :: 0 <= j < |t.fields| && !IsSupportedType(t.fields[j].ty)) ==> r.err.Some?
    ensures r.err.Some? ==> r.fields == [] && r.all == []
    ensures r.err.None? ==> Allocated(r.value, t) && Describes(r.fields, t)
    ensures r.err.None? ==> forall j :: 0 <= j < |r.fields| ==> Labels(r.fields[j], t.fields[j], parts, acc, o)
    ensures r.err.None? ==> r.all == PostOrder(r.fields)
  {
    var a := AllocFrom(v, t, acc, 0);
    if a.err.Some? then Inspected(a.value, [], [], a.err)
    else
      var d := DescribeFrom(t, parts, acc, o, 0);
      Inspected(a.value, d.fields, d.all, None)
  }
}

=== FILE: numeric.dfy ===
/** Base-10 integer text as Go's strconv package reads it (ParseInt, ParseUint,
    Atoi, ParseBool), the fixed integer widths of Go, and the two's-complement
    truncation that a Go integer conversion performs. Native `int` and `uint`
    are taken to be 64 bits wide. */
module Numeric {
  import opened Wrappers

  /** The declared width of a Go integer type; WNative is plain `int`/`uint`. */
  datatype IntWidth = WNative | W8 | W16 | W32 | W64

  function Bits(w: IntWidth): nat {
    match w
    case W8 => 8
    case W16 => 16
    case W32 => 32
    case W64 => 64
    case WNative => 64
  }

  /** Largest value of the unsigned type of width `w`, 2^Bits(w) - 1. */
  function MaxUint(w: IntWidth): nat {
    match w
    case W8 => 0xFF
    case W16 => 0xFFFF
    case W32 => 0xFFFF_FFFF
    case _ => 0xFFFF_FFFF_FFFF_FFFF
  }

  /** Largest value of the signed type of width `w`, 2^(Bits(w)-1) - 1. */
  function MaxInt(w: IntWidth): nat {
    match w
    case W8 => 0x7F
    case W16 => 0x7FFF
    case W32 => 0x7FFF_FFFF
    case _ => 0x7FFF_FFFF_FFFF_FFFF
  }

  /** Smallest value of the signed type of width `w`, -2^(Bits(w)-1). */
  function MinInt(w: IntWidth): int {
    -(MaxInt(w) + 1)
  }

  predicate InIntRange(x: int, w: IntWidth) {
    MinInt(w) <= x <= MaxInt(w)
  }

  predicate InUintRange(x: int, w: IntWidth) {
    0 <= x <= MaxUint(w)
  }

  // ---------------------------------------------------------------------------
  // Decimal text

  predicate IsDigit(c: char) {
    '0' <= c <= '9'
  }

  function DigitValue(c: char): nat
    requires IsDigit(c)
  {
    c as int - '0' as int
  }

  function DigitChar(d: nat): (c: char)
    requires d < 10
    ensures IsDigit(c) && DigitValue(c) == d
  {
    ('0' as int + d) as char
  }

  predicate AllDigits(s: string) {
    forall i :: 0 <= i < |s| ==> IsDigit(s[i])
  }

  /** A non-empty run of decimal digits, the only text ParseUint accepts. */
  predicate IsDecimal(s: string) {
    |s| > 0 && AllDigits(s)
  }

  /** The number a run of digits denotes, read left to right. */
  function DecimalValue(s: string): nat
    requires AllDigits(s)
  {
    if |s| == 0 then 0 else DecimalValue(s[..|s| - 1]) * 10 + DigitValue(s[|s| - 1])
  }

  predicate HasSign(s: string) {
    |s| > 0 && (s[0] == '+' || s[0] == '-')
  }

  /** The text after an optional leading sign. */
  function Magnitude(s: string): string {
    if HasSign(s) then s[1..] else s
  }

  /** An optional `+` or `-` followed by a non-empty run of digits. */
  predicate IsSignedDecimal(s: string) {
    IsDecimal(Magnitude(s))
  }

  function SignedValue(s: string): int
    requires IsSignedDecimal(s)
  {
    if s[0] == '-' then -(DecimalValue(Magnitude(s)) as int) else DecimalValue(Magnitude(s))
  }

  // ---------------------------------------------------------------------------
  // strconv.ParseUint / ParseInt / Atoi with base 10

  /** The digit loop of strconv.ParseUint: accumulates s[i..] onto `n`, failing
      on the first non-digit or as soon as the value passes `maxVal`. Go also
      stops when `n*10` would overflow 64 bits; as `maxVal` never exceeds
      2^64 - 1 that case is subsumed by the `n1 > maxVal` test. */
  function ScanDigits(s: string, i: nat, n: nat, maxVal: nat): (r: Option<nat>)
    requires i <= |s| && AllDigits(s[..i]) && n == DecimalValue(s[..i]) && n <= maxVal
    ensures r.Some? <==> AllDigits(s) && DecimalValue(s) <= maxVal
    ensures r.Some? ==> r.value == DecimalValue(s)
    decreases |s| - i
  {
    if i == |s| then
      assert s[..i] == s;
      Some(n)
    else if !IsDigit(s[i]) then
      None
    else
      var n1 := n * 10 + DigitValue(s[i]);
      assert s[..i + 1][..i] == s[..i];
      assert AllDigits(s[..i + 1]) && DecimalValue(s[..i + 1]) == n1;
      if n1 > maxVal then
        assert AllDigits(s) ==> DecimalValue(s) > maxVal by {
          if AllDigits(s) {
            PrefixValueBound(s, i + 1);
          }
        }
        None
      else
        ScanDigits(s, i + 1, n1, maxVal)
  }

  /** A prefix of a run of digits never denotes more than the whole run. */
  lemma {:induction false} PrefixValueBound(s: string, k: nat)
    requires k <= |s| && AllDigits(s)
    ensures AllDigits(s[..k]) && DecimalValue(s[..k]) <= DecimalValue(s)
    decreases |s| - k
  {
    if k < |s| {
      PrefixValueBound(s, k + 1);
      assert s[..k + 1][..k] == s[..k];
    } else {
      assert s[..k] == s;
    }
  }

  /** strconv.ParseUint(s, 10, Bits(w)): digits only (no sign, no underscore). */
  function ParseUint(s: string, w: IntWidth): (r: Option<nat>)
    ensures r.Some? <==> IsDecimal(s) && DecimalValue(s) <= MaxUint(w)
    ensures r.Some? ==> r.value == DecimalValue(s) && InUintRange(r.value, w)
  {
    if s == "" then None else ScanDigits(s, 0, 0, MaxUint(w))
  }

  /** strconv.ParseInt(s, 10, Bits(w)): an optional sign, then the unsigned
      parse, then the signed range check against the cutoff 2^(Bits(w)-1). */
  function ParseInt(s: string, w: IntWidth): (r: Option<int>)
    ensures r.Some? <==> IsSignedDecimal(s) && InIntRange(SignedValue(s), w)
    ensures r.Some? ==> r.value == SignedValue(s)
  {
    if s == "" then None
    else
      var neg := s[0] == '-';
      var mag := Magnitude(s);
      match ParseUint(mag, w)
      case None => None
      case Some(un) =>
        var cutoff := MaxInt(w) + 1;
        if !neg && un >= cutoff then None
        else if neg && un > cutoff then None
        else Some(if neg then -(un as int) else un)
  }

  /** strconv.Atoi: ParseInt with base 10 and the native width. */
  function Atoi(s: string): (r: Option<int>)
    ensures r.Some? <==> IsSignedDecimal(s) && InIntRange(SignedValue(s), WNative)
    ensures r.Some? ==> r.value == SignedValue(s)
  {
    ParseInt(s, WNative)
  }

  /** strconv.ParseBool. */
  function ParseBool(s: string): (r: Option<bool>)
    ensures r == Some(true) <==> s in {"1", "t", "T", "TRUE", "true", "True"}
    ensures r == Some(false) <==> s in {"0", "f", "F", "FALSE", "false", "False"}
  {
    match s
    case "1" => Some(true)
    case "t" => Some(true)
    case "T" => Some(true)
    case "TRUE" => Some(true)
    case "true" => Some(true)
    case "True" => Some(true)
    case "0" => Some(false)
    case "f" => Some(false)
    case "F" => Some(false)
    case "FALSE" => Some(false)
    case "false" => Some(false)
    case "False" => Some(false)
    case _ => None
  }

  // ---------------------------------------------------------------------------
  // Decimal formatting, the inverse of the parsers

  function FormatNat(n: nat): (s: string)
    ensures IsDecimal(s)
  {
    if n < 10 then [DigitChar(n)] else FormatNat(n / 10) + [DigitChar(n % 10)]
  }

  function FormatInt(x: int): string {
    if x < 0 then "-" + FormatNat(-x) else FormatNat(x)
  }

  function FormatBool(b: bool): string {
    if b then "true" else "false"
  }

  lemma {:induction false} FormatNatValue(n: nat)
    ensures DecimalValue(FormatNat(n)) == n
  {
    var s := FormatNat(n);
    if n >= 10 {
      FormatNatValue(n / 10);
      assert s[..|s| - 1] == FormatNat(n / 10);
    }
  }

  /** ParseUint reads back exactly the numbers its width can hold. */
  lemma ParseUintFormat(n: nat, w: IntWidth)
    ensures ParseUint(FormatNat(n), w) == (if n <= MaxUint(w) then Some(n) else None)
  {
    FormatNatValue(n);
  }

  /** ParseInt reads back exactly the numbers its width can hold. */
  lemma ParseIntFormat(x: int, w: IntWidth)
    ensures ParseInt(FormatInt(x), w) == (if InIntRange(x, w) then Some(x) else None)
  {
    var s := FormatInt(x);
    if x < 0 {
      FormatNatValue(-x);
      assert Magnitude(s) == FormatNat(-x);
    } else {
      FormatNatValue(x);
      assert Magnitude(s) == FormatNat(x);
    }
  }

  lemma ParseBoolFormat(b: bool)
    ensures ParseBool(FormatBool(b)) == Some(b)
  {
  }

  // ---------------------------------------------------------------------------
  // Go integer conversions (two's-complement truncation)

  /** Number of distinct values of a width, 2^Bits(w). */
  function Modulus(w: IntWidth): nat {
    MaxUint(w) + 1
  }

  /** The value `int(x)` becomes when converted to the signed type of width `w`. */
  function WrapInt(x: int, w: IntWidth): (r: int)
    ensures InIntRange(r, w)
    ensures (r - x) % Modulus(w) == 0
    ensures InIntRange(x, w) ==> r == x
  {
    (x - MinInt(w)) % Modulus(w) + MinInt(w)
  }

  /** The value `int(x)` becomes when converted to the unsigned type of width `w`. */
  function WrapUint(x: int, w: IntWidth): (r: nat)
    ensures InUintRange(r, w)
    ensures (r - x) % Modulus(w) == 0
    ensures InUintRange(x, w) ==> r == x
  {
    x % Modulus(w)
  }
}

=== FILE: options.dfy ===
/** Tag schema, tag values and codec selection (pkg/parse/options.go). The
    field descriptor (`parseField`) itself lives with the walker that builds it. */
module Options {
  import opened Wrappers
  import opened Types
  import Csv

  /** Identifier tag names that select a wire format. Their values are declared
      in a file that is not part of this model; the usual Go tag names are
      assumed. */
  const JSON := "json"
  const YAML := "yaml"
  const TOML := "toml"
  const DefaultTag := "default"
  const DescTag := "desc"
  const ValidTag := "valid"

  /** An encoder/decoder pair bound to one wire format; the codecs themselves
      are foreign libraries and appear only as this choice. */
  datatype Codec = JsonCodec | YamlCodec | TomlCodec

  /** The parsed tag of one struct field (TagValue). */
  datatype TagValue = TagValue(
    ident: string,
    default: string,
    defaultSet: bool,
    option: string,
    describe: string,
    valid: string)

  /** TagOption: the five tag key names, plus the tag value of the field the
      option was derived for (the only part of `parseField` the walkers read). */
  datatype TagOption = TagOption(
    identTag: string,
    defaultTag: string,
    optionTag: string,
    descTag: string,
    validTag: string,
    parseField: Option<TagValue>)

  /** The parser's configuration: its tag option and its codecs. */
  datatype ParserConfig = ParserConfig(tagOpt: TagOption, encoder: Option<Codec>, decoder: Option<Codec>)

  /** NewDefaultTagOpt: YAML identifiers, the default/desc/valid tag keys, no
      option key. A field is then named by its yaml tag, and its default is
      read from its `default` tag. */
  function NewDefaultTagOpt(): (r: TagOption)
    ensures r.parseField.None?
    ensures forall f :: ReadTagValue(f, r).ident == Ident(f, YAML)
    ensures forall f :: ReadTagValue(f, r).defaultSet <==> DefaultTag in f.tags
  {
    TagOption(YAML, DefaultTag, "", DescTag, ValidTag, None)
  }

  /** newDefaultParse: the default tag option, the JSON encoder, no decoder. */
  function NewDefaultParser(): ParserConfig {
    ParserConfig(NewDefaultTagOpt(), Some(JsonCodec), None)
  }

  /** SetIdent: sets the identifier tag; JSON, YAML and TOML also select the
      matching encoder/decoder pair, any other identifier keeps the codecs. */
  function SetIdent(p: ParserConfig, ident: string): (r: ParserConfig)
    ensures r.tagOpt == p.tagOpt.(identTag := ident)
    ensures ident == JSON ==> r.encoder == r.decoder == Some(JsonCodec)
    ensures ident == YAML ==> r.encoder == r.decoder == Some(YamlCodec)
    ensures ident == TOML ==> r.encoder == r.decoder == Some(TomlCodec)
    ensures ident !in {JSON, YAML, TOML} ==> r.encoder == p.encoder && r.decoder == p.decoder
  {
    var q := p.(tagOpt := p.tagOpt.(identTag := ident));
    if ident == JSON then q.(encoder := Some(JsonCodec), decoder := Some(JsonCodec))
    else if ident == YAML then q.(encoder := Some(YamlCodec), decoder := Some(YamlCodec))
    else if ident == TOML then q.(encoder := Some(TomlCodec), decoder := Some(TomlCodec))
    else q
  }

  /** SetValidTag: fields' validation rules are then read under `tag`; the
      other tag keys and the codecs are kept. */
  function SetValidTag(p: ParserConfig, tag: string): (r: ParserConfig)
    ensures forall f :: ReadTagValue(f, r.tagOpt).valid == TagGet(f.tags, tag)
    ensures r.tagOpt.(validTag := p.tagOpt.validTag) == p.tagOpt
    ensures r.encoder == p.encoder && r.decoder == p.decoder
  {
    p.(tagOpt := p.tagOpt.(validTag := tag))
  }

  /** SetDescTag: fields' descriptions are then read under `tag`; the other
      tag keys and the codecs are kept. */
  function SetDescTag(p: ParserConfig, tag: string): (r: ParserConfig)
    ensures forall f :: ReadTagValue(f, r.tagOpt).describe == TagGet(f.tags, tag)
    ensures r.tagOpt.(descTag := p.tagOpt.descTag) == p.tagOpt
    ensures r.encoder == p.encoder && r.decoder == p.decoder
  {
    p.(tagOpt := p.tagOpt.(descTag := tag))
  }

  /** SetDefaultTag: a field then has a default exactly when it carries `tag`,
      and the default is that tag's value; the other tag keys and the codecs
      are kept. */
  function SetDefaultTag(p: ParserConfig, tag: string): (r: ParserConfig)
    ensures forall f :: ReadTagValue(f, r.tagOpt).defaultSet <==> tag in f.tags
    ensures forall f :: ReadTagValue(f, r.tagOpt).default == TagGet(f.tags, tag)
    ensures r.tagOpt.(defaultTag := p.tagOpt.defaultTag) == p.tagOpt
    ensures r.encoder == p.encoder && r.decoder == p.decoder
  {
    p.(tagOpt := p.tagOpt.(defaultTag := tag))
  }

  /** The codecs in force are decided by the last SetIdent alone when it names
      a format, whatever came before. */
  lemma SetIdentLastWins(p: ParserConfig, a: string, b: string)
    requires b in {JSON, YAML, TOML}
    ensures SetIdent(SetIdent(p, a), b) == SetIdent(p, b)
  {
  }

  // ---------------------------------------------------------------------------
  // Struct tags

  /** reflect.StructTag.Lookup: the value and whether the key is present. */
  function TagLookup(tags: map<string, string>, key: string): Option<string> {
    if key in tags then Some(tags[key]) else None
  }

  /** reflect.StructTag.Get: the value, or "" when the key is absent. */
  function TagGet(tags: map<string, string>, key: string): string {
    TagLookup(tags, key).GetOr("")
  }

  function LowerChar(c: char): char {
    if 'A' <= c <= 'Z' then (c as int - 'A' as int + 'a' as int) as char else c
  }

  /** strings.ToLower, on ASCII letters. */
  function ToLower(s: string): (r: string)
    ensures |r| == |s|
    ensures forall i :: 0 <= i < |s| ==> r[i] == LowerChar(s[i])
  {
    if |s| == 0 then "" else [LowerChar(s[0])] + ToLower(s[1..])
  }

  /** The identifier of a field: its identifier tag, or its lower-cased name
      when that tag is absent or empty. */
  function Ident(f: Field, identTag: string): (r: string)
    ensures TagGet(f.tags, identTag) != "" ==> r == f.tags[identTag]
    ensures TagGet(f.tags, identTag) == "" ==> r == ToLower(f.name)
  {
    var ident := TagGet(f.tags, identTag);
    if |ident| == 0 then ToLower(f.name) else ident
  }

  /** The tag values of a field under the given key names. */
  function ReadTagValue(f: Field, o: TagOption): (tv: TagValue)
    ensures tv.defaultSet <==> o.defaultTag in f.tags
    ensures tv.defaultSet ==> tv.default == f.tags[o.defaultTag]
    ensures !tv.defaultSet ==> tv.default == ""
    ensures tv.ident == Ident(f, o.identTag)
  {
    var d := TagLookup(f.tags, o.defaultTag);
    TagValue(
      Ident(f, o.identTag), d.GetOr(""), d.Some?,
      TagGet(f.tags, o.optionTag), TagGet(f.tags, o.descTag), TagGet(f.tags, o.validTag))
  }

  /** TagOption.clone: the five key names, without the field part. */
  function Clone(o: TagOption): (c: TagOption)
    ensures c.parseField.None?
    ensures c.(parseField := o.parseField) == o
  {
    TagOption(o.identTag, o.defaultTag, o.optionTag, o.descTag, o.validTag, None)
  }

  /** TagOption.parseFromField: a clone carrying the field's tag values. */
  function FromField(o: TagOption, f: Field): (r: TagOption)
    ensures r.(parseField := None) == Clone(o)
    ensures r.parseField.Some?
    ensures r.parseField.value.ident == Ident(f, o.identTag)
    ensures r.parseField.value.defaultSet <==> o.defaultTag in f.tags
    ensures r.parseField.value.default == TagGet(f.tags, o.defaultTag)
  {
    Clone(o).(parseField := Some(ReadTagValue(f, o)))
  }

  /** TagOption.getDefault: no tokens for a nil option or one without field
      part, otherwise the CSV tokens of the default (a CSV error panics). */
  function GetDefault(o: Option<TagOption>): (r: Outcome<seq<string>>)
    ensures o.None? || o.value.parseField.None? ==> r == Ok([])
    ensures o.Some? && o.value.parseField.Some? ==>
      (r.Ok? <==> Csv.ReadAsCsv(o.value.parseField.value.default).Ok?)
    ensures o.Some? && o.value.parseField.Some? && r.Ok? ==>
      r.value == Csv.ReadAsCsv(o.value.parseField.value.default).value
    ensures r.Err? ==> r.error.Panic?
  {
    if o.None? || o.value.parseField.None? then Ok([])
    else
      var d := o.value.parseField.value.default;
      match Csv.ReadAsCsv(d)
      case Ok(vals) => Ok(vals)
      case Err(e) => Err(Panic("getDefault: " + d))
  }

  // ---------------------------------------------------------------------------
  // Dotted paths

  /** strings.Join(parts, "."). */
  function FullId(parts: seq<string>): string {
    if |parts| == 0 then ""
    else if |parts| == 1 then parts[0]
    else parts[0] + "." + FullId(parts[1..])
  }

  /** Appending an identifier to a non-empty path appends "." and the identifier. */
  lemma {:induction false} FullIdSnoc(parts: seq<string>, x: string)
    requires |parts| >= 1
    ensures FullId(parts + [x]) == FullId(parts) + "." + x
    decreases |parts|
  {
    if |parts| == 1 {
      assert parts + [x] == [parts[0], x];
      assert (parts + [x])[1..] == [x];
    } else {
      assert (parts + [x])[1..] == parts[1..] + [x];
      FullIdSnoc(parts[1..], x);
    }
  }

  /** The length of a dotted path: the parts plus one dot between neighbours. */
  function TotalLength(parts: seq<string>): nat {
    if |parts| == 0 then 0 else |parts[0]| + TotalLength(parts[1..])
  }

  lemma {:induction false} FullIdLength(parts: seq<string>)
    requires |parts| >= 1
    ensures |FullId(parts)| == TotalLength(parts) + |parts| - 1
    decreases |parts|
  {
    if |parts| > 1 {
      FullIdLength(parts[1..]);
    }
  }
}

=== FILE: pkg_load.dfy ===
/** The second walker of pkg/parse/load.go: LoadStruct, parseValue and the
    per-kind walkers, with setZeroType.

    Every value is first given a zero shape by setZeroType (pointers
    allocated, nil slices sized by the default tokens, nil maps filled with
    one entry per token), then walked by kind; leaves take their default
    through parseSample.

    The option a walk runs with points to a field part that is shared, not
    copied: parseSlice overwrites its Default with token i before walking
    element i, and that write stays visible to every later walk through the
    same option. Nothing else in the option ever changes, so a walk is given
    the option together with the current text of that Default (`d`), and
    returns the text it leaves behind. A struct field is walked with a fresh
    option of its own (parseFromField), whose Default starts as the field's
    tag. */
module PkgLoad {
  import opened Wrappers
  import opened Types
  import opened Support
  import opened Options
  import opened Scalar
  import opened Walk

  /** The value after a walk, the Default text it leaves in the shared field
      part, and the first failure (the value keeps what was written before
      it). */
  datatype Walked = Walked(value: Val, dflt: string, err: Option<Error>)

  /** The entries setZeroType builds for a nil map, with the Default text. */
  datatype Built = Built(entries: seq<(Key, Val)>, dflt: string, err: Option<Error>)

  /** The option has a field part, so getDefault and parseSample read its
      Default. */
  predicate HasField(o: Option<TagOption>) {
    o.Some? && o.value.parseField.Some?
  }

  /** The option as a walk sees it when its shared Default holds `d`. */
  function Current(o: Option<TagOption>, d: string): (r: Option<TagOption>)
    ensures HasField(r) == HasField(o)
    ensures HasField(o) ==> r.value.parseField.value.default == d
  {
    if HasField(o) then Some(o.value.(parseField := Some(o.value.parseField.value.(default := d)))) else o
  }

  /** The Default text an option starts with. */
  function InitialDefault(o: Option<TagOption>): string {
    if HasField(o) then o.value.parseField.value.default else ""
  }

  // ---------------------------------------------------------------------------
  // parseValue

  /** parseValue: setZeroType, then the walker of the value's kind. Leaves
      reach parseSample unchanged, the unsupported kinds are left alone, a
      settable pointer always ends non-nil, and a nil pointer that cannot be
      set panics: in Elem when it can be printed, in the print otherwise. */
  function ParseValue(ext: Externals, v: Val, t: Ty, acc: Access, o: Option<TagOption>, d: string): (r: Walked)
    requires HasType(v, t)
    decreases t, 3, 0
    ensures HasType(r.value, t)
    ensures IsSampleKind(t) ==> r.dflt == d
    ensures IsSampleKind(t) ==> r == ParseSample(ext, v, t, acc, o, d)
    ensures IsInertKind(t) ==> r == Walked(v, d, None)
    ensures (t.Ptr? || t == TextU) && acc.CanSet() ==> !IsNil(r.value)
    ensures (t.Ptr? || t == TextU) && IsNil(v) && acc.Unaddressable? ==> r == Walked(v, d, Some(NilElemPanic))
    ensures IsPrinted(t) && !acc.CanInterface() ==> r == Walked(v, d, Some(InterfacePanic))
  {
    var z := SetZeroType(ext, v, t, acc, o, d);
    if z.err.Some? then z else ParseKind(ext, z.value, t, acc, o, z.dflt)
  }

  /** The switch of parseValue on the kind of the value. Before a struct, a
      pointer, a map or a slice is walked, it is printed through Interface,
      which panics when the value was reached through an unexported field. */
  function ParseKind(ext: Externals, v: Val, t: Ty, acc: Access, o: Option<TagOption>, d: string): (r: Walked)
    requires HasType(v, t)
    decreases t, 2, 0
    ensures HasType(r.value, t)
    ensures IsSampleKind(t) ==> r.dflt == d
    ensures IsPrinted(t) && !acc.CanInterface() ==> r == Walked(v, d, Some(InterfacePanic))
  {
    if IsPrinted(t) && !acc.CanInterface() then Walked(v, d, Some(InterfacePanic))
    else if t.Struct? then ParseStruct(ext, v, t, acc, o, d, 0)
    else if t.Ptr? || t == TextU then ParsePointer(ext, v, t, acc, o, d)
    else if t.Map? then ParseMap(ext, v, t, acc, o, d, 0)
    else if t.Slice? then ParseSlice(ext, v, t, acc, o, d)
    else if IsInertKind(t) then Walked(v, d, None)
    else ParseSample(ext, v, t, acc, o, d)
  }

  /** The kinds parseValue prints before walking them: struct, pointer, map
      and slice. */
  predicate IsPrinted(t: Ty) {
    t.Struct? || t.Ptr? || t == TextU || t.Map? || t.Slice?
  }

  /** setZeroType: a value that cannot be set, or that is not zero in Go's
      IsZero sense, is left alone. Otherwise a pointer gets a new zero
      pointee, a struct its zero value, a slice as many zero elements as
      there are default tokens, and a map one entry per token (ZeroMap). */
  function SetZeroType(ext: Externals, v: Val, t: Ty, acc: Access, o: Option<TagOption>, d: string): (r: Walked)
    requires HasType(v, t)
    decreases t, 1, 1
    ensures HasType(r.value, t)
    ensures !acc.CanSet() || !ShallowZero(v) ==> r == Walked(v, d, None)
    ensures r.err.Some? ==> r.value == v && r.err.value.Panic?
    ensures !t.Map? ==> r.dflt == d
    ensures acc.CanSet() && t.Ptr? && v.VNilPtr? ==> r == Walked(VPtr(ZeroOf(t.elem)), d, None)
    ensures acc.CanSet() && t == TextU && v == VText(None) ==> r == Walked(VText(Some("")), d, None)
    ensures acc.CanSet() && t.Slice? && v.VNilSlice? ==>
      (r.err.None? <==> GetDefault(Current(o, d)).Ok?)
    ensures acc.CanSet() && t.Slice? && v.VNilSlice? && r.err.None? ==>
      r.value.VSlice? && |r.value.elems| == |GetDefault(Current(o, d)).value|
      && forall j :: 0 <= j < |r.value.elems| ==> r.value.elems[j] == ZeroOf(t.elem)
  {
    if !acc.CanSet() || !ShallowZero(v) then Walked(v, d, None)
    else match t
      case Ptr(e) =>
        ZeroOfHasType(e);
        Walked(VPtr(ZeroOf(e)), d, None)
      case TextU => Walked(VText(Some("")), d, None)
      case Struct(_) =>
        ZeroOfHasType(t);
        Walked(ZeroOf(t), d, None)
      case Slice(e) =>
        (match GetDefault(Current(o, d))
         case Err(err) => Walked(v, d, Some(err))
         case Ok(vals) =>
           ZeroOfHasType(e);
           Walked(VSlice(seq(|vals|, _ => ZeroOf(e))), d, None))
      case Map(_, _) => ZeroMap(ext, v, t, o, d)
      case _ => Walked(v, d, None)
  }

  /** The map case of setZeroType: the default tokens are read (a CSV error
      panics) and BuildEntries makes one entry per token; a failure there
      panics and leaves the value unset. */
  function ZeroMap(ext: Externals, v: Val, t: Ty, o: Option<TagOption>, d: string): (r: Walked)
    requires t.Map? && HasType(v, t)
    decreases t, 1, 0
    ensures HasType(r.value, t)
    ensures r.err.Some? ==> r.value == v && r.err.value.Panic?
    ensures r.err.None? ==> r.value.VMap?
    ensures GetDefault(Current(o, d)).Err? ==> r == Walked(v, d, Some(GetDefault(Current(o, d)).error))
    ensures GetDefault(Current(o, d)) == Ok([]) ==> r == Walked(VMap([]), d, None)
  {
    match GetDefault(Current(o, d))
    case Err(err) => Walked(v, d, Some(err))
    case Ok(vals) =>
      var b := BuildEntries(ext, t, vals, 0, [], o, d);
      if b.err.Some? then Walked(v, b.dflt, b.err) else Walked(VMap(b.entries), b.dflt, None)
  }

  /** The map loop of setZeroType from token `i` on: a fresh zeroType element
      is walked with the map's own option (a failure panics), then stored
      under the token converted to the key type; an integer token Atoi
      rejects is dropped. */
  function BuildEntries(ext: Externals, t: Ty, vals: seq<string>, i: nat, acc: seq<(Key, Val)>, o: Option<TagOption>, d: string): (r: Built)
    requires t.Map? && i <= |vals| && DistinctKeys(acc)
    requires EntriesFit(acc, t.key, t.elem)
    decreases t, 0, |vals| - i
    ensures DistinctKeys(r.entries)
    ensures EntriesFit(r.entries, t.key, t.elem)
    ensures r.err.Some? ==> r.err.value.Panic?
  {
    if i == |vals| then Built(acc, d, None)
    else
      var w := MapElement(ext, t, o, d);
      if w.err.Some? then Built(acc, w.dflt, Some(Raise(w.err.value)))
      else match MapKey(t.key, vals[i])
        case Err(e) => Built(acc, w.dflt, Some(e))
        case Ok(None) => BuildEntries(ext, t, vals, i + 1, acc, o, w.dflt)
        case Ok(Some(k)) =>
          var acc1 := Insert(acc, k, w.value);
          InsertFits(acc, k, w.value, t.key, t.elem);
          BuildEntries(ext, t, vals, i + 1, acc1, o, w.dflt)
  }

  /** One element of the map setZeroType builds: a fresh zeroType value of
      the element type, walked with the map's option. */
  function MapElement(ext: Externals, t: Ty, o: Option<TagOption>, d: string): (r: Walked)
    requires t.Map?
    decreases t, 0, 0
    ensures HasType(r.value, t.elem)
    ensures IsSampleKind(t.elem) ==> r == Walked(ZeroOf(t.elem), d, None)
  {
    ParseValue(ext, ZeroTypeW(t.elem), t.elem, ZeroTypeAccess(t.elem), o, d)
  }

  // ---------------------------------------------------------------------------
  // The walkers by kind

  /** parseStruct from field `i` on: a field of an unsupported type is an
      error; every other field is walked with the option derived from it
      (parseFromField, which dereferences the option: a nil one panics). The
      first failure stops the loop. The struct's own Default is untouched. */
  function ParseStruct(ext: Externals, v: Val, t: Ty, acc: Access, o: Option<TagOption>, d: string, i: nat): (r: Walked)
    requires t.Struct? && HasType(v, t) && i <= |t.fields|
    decreases t, 1, |t.fields| - i
    ensures HasType(r.value, t) && r.dflt == d
    ensures forall j :: 0 <= j < i ==> r.value.fields[j] == v.fields[j]
    ensures (exists j :: i <= j < |t.fields| && !IsSupportedType(t.fields[j].ty)) ==> r.err.Some?
  {
    if i == |t.fields| then Walked(v, d, None)
    else
      var f := t.fields[i];
      if !IsSupportedType(f.ty) then Walked(v, d, Some(UnsupportedField(f.name, f.ty)))
      else if o.None? then Walked(v, d, Some(NilOptionPanic))
      else
        var fo := Some(FromField(o.value, f));
        var w := ParseValue(ext, v.fields[i], f.ty, acc.FieldAccess(f), fo, InitialDefault(fo));
        var v1 := v.(fields := v.fields[i := w.value]);
        if w.err.Some? then Walked(v1, d, w.err) else ParseStruct(ext, v1, t, acc, o, d, i + 1)
  }

  /** parsePointer: the pointee is overwritten with its zero value, then
      walked. A nil pointer (one setZeroType could not allocate) or one
      reached through an unexported field panics. The pointee of a
      TextUnmarshaler is opaque: only its reset is visible. */
  function ParsePointer(ext: Externals, v: Val, t: Ty, acc: Access, o: Option<TagOption>, d: string): (r: Walked)
    requires (t.Ptr? || t == TextU) && HasType(v, t)
    decreases t, 1, 0
    ensures HasType(r.value, t)
    ensures IsNil(v) ==> r == Walked(v, d, Some(NilElemPanic))
    ensures !IsNil(v) && !acc.CanInterface() ==> r == Walked(v, d, Some(UnexportedPanic))
    ensures !IsNil(v) && acc.CanInterface() ==> !IsNil(r.value)
  {
    if IsNil(v) then Walked(v, d, Some(NilElemPanic))
    else if !acc.CanInterface() then Walked(v, d, Some(UnexportedPanic))
    else if t == TextU then Walked(VText(Some("")), d, None)
    else
      ZeroOfHasType(t.elem);
      var w := ParseValue(ext, ZeroOf(t.elem), t.elem, Settable, o, d);
      Walked(VPtr(w.value), w.dflt, w.err)
  }

  /** parseMap from entry `i` on: each value is copied, walked with the map's
      option and stored back under its own key; a failure returns before the
      store. A non-empty map reached through an unexported field panics. */
  function ParseMap(ext: Externals, v: Val, t: Ty, acc: Access, o: Option<TagOption>, d: string, i: nat): (r: Walked)
    requires t.Map? && HasType(v, t) && (v.VMap? ==> i <= |v.entries|)
    decreases t, 1, if v.VMap? then |v.entries| - i else 0
    ensures HasType(r.value, t)
    ensures v.VMap? ==> r.value.VMap? && KeysOf(r.value.entries) == KeysOf(v.entries)
    ensures v.VNilMap? ==> r == Walked(v, d, None)
  {
    if v.VNilMap? || |v.entries| == 0 then Walked(v, d, None)
    else if !acc.CanInterface() then Walked(v, d, Some(UnexportedPanic))
    else if i == |v.entries| then Walked(v, d, None)
    else
      var k := v.entries[i].0;
      var w := ParseValue(ext, v.entries[i].1, t.elem, Settable, o, d);
      if w.err.Some? then Walked(v, w.dflt, w.err)
      else
        var es := v.entries[i := (k, w.value)];
        assert KeysOf(es) == KeysOf(v.entries);
        assert forall m :: 0 <= m < |es| ==> es[m].0 == KeysOf(v.entries)[m];
        ParseMap(ext, VMap(es), t, acc, o, w.dflt, i + 1)
  }

  /** parseSlice: the default tokens are read first (a CSV error panics);
      then each element is walked by SliceElems. */
  function ParseSlice(ext: Externals, v: Val, t: Ty, acc: Access, o: Option<TagOption>, d: string): (r: Walked)
    requires t.Slice? && HasType(v, t)
    decreases t, 1, 0
    ensures HasType(r.value, t)
    ensures r.err.None? ==> GetDefault(Current(o, d)).Ok?
    ensures r.err.None? && HasField(o) && v.VSlice? ==> |v.elems| <= |GetDefault(Current(o, d)).value|
  {
    match GetDefault(Current(o, d))
    case Err(e) => Walked(v, d, Some(e))
    case Ok(vals) =>
      if v.VNilSlice? then Walked(v, d, None)
      else SliceElems(ext, v, t, acc, o, d, vals, 0)
  }

  /** The element loop of parseSlice from element `i` on. With a field part,
      element i is walked after the shared Default is overwritten with token
      i, which must exist; without one the option is passed unchanged. */
  function SliceElems(ext: Externals, v: Val, t: Ty, acc: Access, o: Option<TagOption>, d: string, vals: seq<string>, i: nat): (r: Walked)
    requires t.Slice? && HasType(v, t) && v.VSlice? && i <= |v.elems|
    requires HasField(o) ==> i <= |vals|
    decreases t, 0, |v.elems| - i
    ensures HasType(r.value, t) && r.value.VSlice? && |r.value.elems| == |v.elems|
    ensures forall j :: 0 <= j < i ==> r.value.elems[j] == v.elems[j]
    ensures r.err.None? && HasField(o) ==> |v.elems| <= |vals|
    ensures r.err.None? && HasField(o) && IsSampleKind(t.elem) && i < |v.elems| ==> r.dflt == vals[|v.elems| - 1]
  {
    if i == |v.elems| then Walked(v, d, None)
    else if HasField(o) && i >= |vals| then Walked(v, d, Some(IndexPanic))
    else
      var d1 := if HasField(o) then vals[i] else d;
      var w := ParseValue(ext, v.elems[i], t.elem, acc.Element(), o, d1);
      var v1 := VSlice(v.elems[i := w.value]);
      if w.err.Some? then Walked(v1, w.dflt, w.err) else SliceElems(ext, v1, t, acc, o, w.dflt, vals, i + 1)
  }

  /** parseSample: a value is written only when it can be set, is zero and
      the option has a field part; the default "-" means "no default". The
      text is parsed by parseSimpleValue, which leaves the value alone on
      failure. */
  function ParseSample(ext: Externals, v: Val, t: Ty, acc: Access, o: Option<TagOption>, d: string): (r: Walked)
    requires IsSampleKind(t) && HasType(v, t)
    ensures HasType(r.value, t) && r.dflt == d
    ensures !(acc.CanSet() && ShallowZero(v) && HasField(o)) ==> r == Walked(v, d, None)
    ensures HasField(o) && d == "-" ==> r == Walked(v, d, None)
    ensures r.value != v ==> HasField(o) && ParseLeaf(t, d, ext) == Ok(r.value)
    ensures r.err.Some? ==> r.value == v && HasField(o) && ParseLeaf(t, d, ext) == Err(r.err.value)
  {
    if acc.CanSet() && ShallowZero(v) && HasField(o) then
      if d == "-" then Walked(v, d, None)
      else match ParseLeaf(t, d, ext)
        case Ok(x) => Walked(x, d, None)
        case Err(e) => Walked(v, d, Some(e))
    else Walked(v, d, None)
  }

  // ---------------------------------------------------------------------------
  // Entry point

  /** LoadStruct: the target must be a non-nil pointer to a struct; the
      struct it points to is walked with the given option. The three root
      checks fail without touching the target. */
  function LoadStruct(ext: Externals, rootTy: Ty, root: Val, o: Option<TagOption>): (r: Walked)
    requires HasType(root, rootTy)
    ensures HasType(r.value, rootTy)
    ensures !rootTy.Ptr? && rootTy != TextU ==> r.value == root && r.err == Some(NotPointer)
    ensures (rootTy.Ptr? || rootTy == TextU) && IsNil(root) ==> r.value == root && r.err == Some(NilPointer)
    ensures !IsNil(root) && (rootTy == TextU || (rootTy.Ptr? && !rootTy.elem.Struct?)) ==>
      r.value == root && r.err == Some(NotStruct)
    ensures rootTy.Ptr? && rootTy.elem.Struct? && !IsNil(root) ==>
      r.value.VPtr? && Walked(r.value.target, r.dflt, r.err) == ParseValue(ext, root.target, rootTy.elem, Settable, o, InitialDefault(o))
  {
    var d := InitialDefault(o);
    if !rootTy.Ptr? && rootTy != TextU then Walked(root, d, Some(NotPointer))
    else if IsNil(root) then Walked(root, d, Some(NilPointer))
    else if rootTy == TextU || !rootTy.elem.Struct? then Walked(root, d, Some(NotStruct))
    else
      var w := ParseValue(ext, root.target, rootTy.elem, Settable, o, d);
      Walked(VPtr(w.value), w.dflt, w.err)
  }
}

=== FILE: root_load.dfy ===
/** The older walker of the root package (load.go, with readAsCSV and
    parseSimpleValue of utils.go). It differs from the one in pkg/parse: its
    option is only a tag name and the field's tag value (absent when the tag
    is), fields that cannot be set are skipped, and parseSlice walks element
    i with a fresh option holding token i, or no value past the last token,
    and only when its own option has a value. */
module RootLoad {
  import opened Wrappers
  import opened Types
  import opened Support
  import opened Options
  import opened Scalar
  import opened Inspect
  import opened Walk
  import Csv

  /** The root package's TagOption: the tag key and the value of that key on
      the field the option was derived for. The full struct tag it also keeps
      is never read. */
  datatype RootOption = RootOption(tagName: string, tagValue: Option<string>)

  /** getDefault: no tokens without a tag value, otherwise the CSV tokens of
      the value; a CSV error panics. */
  function RootDefault(o: RootOption): (r: Outcome<seq<string>>)
    ensures o.tagValue.None? ==> r == Ok([])
    ensures o.tagValue.Some? ==> (r.Ok? <==> Csv.ReadAsCsv(o.tagValue.value).Ok?)
    ensures o.tagValue.Some? && r.Ok? ==> r.value == Csv.ReadAsCsv(o.tagValue.value).value
    ensures r.Err? ==> r.error.Panic?
  {
    match o.tagValue
    case None => Ok([])
    case Some(d) =>
      match Csv.ReadAsCsv(d)
      case Ok(vals) => Ok(vals)
      case Err(_) => Err(Panic("getDefault: " + d))
  }

  /** parseFromField: same tag key; the value is present exactly when the
      field has the key, even with an empty value. */
  function RootFromField(o: RootOption, f: Field): (r: RootOption)
    ensures r.tagName == o.tagName
    ensures r.tagValue.Some? <==> o.tagName in f.tags
    ensures r.tagValue.Some? ==> r.tagValue.value == f.tags[o.tagName]
  {
    RootOption(o.tagName, TagLookup(f.tags, o.tagName))
  }

  // ---------------------------------------------------------------------------
  // parseValue

  /** parseValue: setZeroType, then the walker of the value's kind. Leaves
      reach parseSample unchanged, the unsupported kinds are left alone, a
      settable pointer always ends non-nil, and a nil pointer that cannot be
      set panics in Elem. */
  function ParseValue(ext: Externals, v: Val, t: Ty, acc: Access, o: RootOption): (r: Applied)
    requires HasType(v, t)
    decreases t, 3, 0
    ensures HasType(r.value, t)
    ensures IsSampleKind(t) ==> r == ParseSample(ext, v, t, acc, o)
    ensures IsInertKind(t) ==> r == Applied(v, None)
    ensures (t.Ptr? || t == TextU) && acc.CanSet() ==> !IsNil(r.value)
    ensures (t.Ptr? || t == TextU) && IsNil(v) && !acc.CanSet() ==> r == Applied(v, Some(NilElemPanic))
  {
    var z := SetZeroType(ext, v, t, acc, o);
    if z.err.Some? then z else ParseKind(ext, z.value, t, acc, o)
  }

  /** The switch of parseValue on the kind of the value. Unlike the walker of
      pkg/parse it prints nothing. A non-nil pointer or a non-empty map
      reached through an unexported field still panics, in reflect's Set;
      below a struct with the sticky read-only flag nothing is written at
      all. LoadStruct never gets here with such a value, because parseStruct
      skips the fields it cannot set. */
  function ParseKind(ext: Externals, v: Val, t: Ty, acc: Access, o: RootOption): (r: Applied)
    requires HasType(v, t)
    decreases t, 2, 0
    ensures HasType(r.value, t)
    ensures IsInertKind(t) ==> r == Applied(v, None)
    ensures t.Struct? && acc.ReadOnly? ==> r.value == v
    ensures t.Map? && (v.VNilMap? || (v.VMap? && |v.entries| == 0)) ==> r == Applied(v, None)
    ensures t.Map? && v.VMap? && |v.entries| > 0 && !acc.CanInterface() ==> r == Applied(v, Some(UnexportedPanic))
    ensures (t.Ptr? || t == TextU) && !IsNil(v) && !acc.CanInterface() ==> r == Applied(v, Some(UnexportedPanic))
  {
    if t.Struct? then ParseStruct(ext, v, t, acc, o, 0)
    else if t.Ptr? || t == TextU then ParsePointer(ext, v, t, acc, o)
    else if t.Map? then ParseMap(ext, v, t, acc, o, 0)
    else if t.Slice? then ParseSlice(ext, v, t, acc, o)
    else if IsInertKind(t) then Applied(v, None)
    else ParseSample(ext, v, t, acc, o)
  }

  /** setZeroType: as in pkg/parse, a value that cannot be set or is not zero
      is left alone; otherwise pointers are allocated, structs zeroed, nil
      slices sized by the default tokens and nil maps filled per token. */
  function SetZeroType(ext: Externals, v: Val, t: Ty, acc: Access, o: RootOption): (r: Applied)
    requires HasType(v, t)
    decreases t, 1, 0
    ensures HasType(r.value, t)
    ensures !acc.CanSet() || !ShallowZero(v) ==> r == Applied(v, None)
    ensures r.err.Some? ==> r.value == v && r.err.value.Panic?
    ensures acc.CanSet() && t.Ptr? && v.VNilPtr? ==> r == Applied(VPtr(ZeroOf(t.elem)), None)
    ensures acc.CanSet() && t == TextU && v == VText(None) ==> r == Applied(VText(Some("")), None)
    ensures acc.CanSet() && t.Slice? && v.VNilSlice? ==> (r.err.None? <==> RootDefault(o).Ok?)
    ensures acc.CanSet() && t.Slice? && v.VNilSlice? && r.err.None? ==>
      r.value.VSlice? && |r.value.elems| == |RootDefault(o).value|
      && forall j :: 0 <= j < |r.value.elems| ==> r.value.elems[j] == ZeroOf(t.elem)
  {
    if !acc.CanSet() || !ShallowZero(v) then Applied(v, None)
    else match t
      case Ptr(e) =>
        ZeroOfHasType(e);
        Applied(VPtr(ZeroOf(e)), None)
      case TextU => Applied(VText(Some("")), None)
      case Struct(_) =>
        ZeroOfHasType(t);
        Applied(ZeroOf(t), None)
      case Slice(e) =>
        (match RootDefault(o)
         case Err(err) => Applied(v, Some(err))
         case Ok(vals) =>
           ZeroOfHasType(e);
           Applied(VSlice(seq(|vals|, _ => ZeroOf(e))), None))
      case Map(_, _) =>
        (match RootDefault(o)
         case Err(err) => Applied(v, Some(err))
         case Ok(vals) =>
           var b := BuildEntries(ext, t, vals, 0, [], o);
           if b.Err? then Applied(v, Some(b.error)) else Applied(VMap(b.value), None))
      case _ => Applied(v, None)
  }

  /** The map loop of setZeroType from token `i` on (see PkgLoad.BuildEntries;
      the option is never changed here). */
  function BuildEntries(ext: Externals, t: Ty, vals: seq<string>, i: nat, acc: seq<(Key, Val)>, o: RootOption): (r: Outcome<seq<(Key, Val)>>)
    requires t.Map? && i <= |vals| && DistinctKeys(acc)
    requires EntriesFit(acc, t.key, t.elem)
    decreases t, 0, |vals| - i
    ensures r.Ok? ==> DistinctKeys(r.value)
    ensures r.Ok? ==> EntriesFit(r.value, t.key, t.elem)
    ensures r.Err? ==> r.error.Panic?
  {
    if i == |vals| then Ok(acc)
    else
      var w := MapElement(ext, t, o);
      if w.err.Some? then Err(Raise(w.err.value))
      else match MapKey(t.key, vals[i])
        case Err(e) => Err(e)
        case Ok(None) => BuildEntries(ext, t, vals, i + 1, acc, o)
        case Ok(Some(k)) =>
          var acc1 := Insert(acc, k, w.value);
          InsertFits(acc, k, w.value, t.key, t.elem);
          BuildEntries(ext, t, vals, i + 1, acc1, o)
  }

  /** One element of the map setZeroType builds (see PkgLoad.MapElement). */
  function MapElement(ext: Externals, t: Ty, o: RootOption): (r: Applied)
    requires t.Map?
    decreases t, 0, 0
    ensures HasType(r.value, t.elem)
    ensures IsSampleKind(t.elem) ==> r == Applied(ZeroOf(t.elem), None)
  {
    ParseValue(ext, ZeroTypeW(t.elem), t.elem, ZeroTypeAccess(t.elem), o)
  }

  // ---------------------------------------------------------------------------
  // The walkers by kind

  /** parseStruct from field `i` on: every field's type is checked first; a
      field that cannot be set is then skipped; any other is walked with the
      option derived from it. The first failure stops the loop. */
  function ParseStruct(ext: Externals, v: Val, t: Ty, acc: Access, o: RootOption, i: nat): (r: Applied)
    requires t.Struct? && HasType(v, t) && i <= |t.fields|
    decreases t, 1, |t.fields| - i
    ensures HasType(r.value, t)
    ensures forall j :: 0 <= j < |t.fields| && (j < i || !acc.FieldAccess(t.fields[j]).CanSet()) ==>
      r.value.fields[j] == v.fields[j]
    ensures (exists j :: i <= j < |t.fields| && !IsSupportedType(t.fields[j].ty)) ==> r.err.Some?
  {
    if i == |t.fields| then Applied(v, None)
    else
      var f := t.fields[i];
      if !IsSupportedType(f.ty) then Applied(v, Some(UnsupportedField(f.name, f.ty)))
      else if !acc.FieldAccess(f).CanSet() then ParseStruct(ext, v, t, acc, o, i + 1)
      else
        var w := ParseValue(ext, v.fields[i], f.ty, acc.FieldAccess(f), RootFromField(o, f));
        var v1 := v.(fields := v.fields[i := w.value]);
        if w.err.Some? then Applied(v1, w.err) else ParseStruct(ext, v1, t, acc, o, i + 1)
  }

  /** parsePointer: the pointee is overwritten with its zero value, then
      walked; a nil pointer or one reached through an unexported field panics. */
  function ParsePointer(ext: Externals, v: Val, t: Ty, acc: Access, o: RootOption): (r: Applied)
    requires (t.Ptr? || t == TextU) && HasType(v, t)
    decreases t, 1, 0
    ensures HasType(r.value, t)
    ensures IsNil(v) ==> r == Applied(v, Some(NilElemPanic))
    ensures !IsNil(v) && !acc.CanInterface() ==> r == Applied(v, Some(UnexportedPanic))
    ensures !IsNil(v) && acc.CanInterface() ==> !IsNil(r.value)
  {
    if IsNil(v) then Applied(v, Some(NilElemPanic))
    else if !acc.CanInterface() then Applied(v, Some(UnexportedPanic))
    else if t == TextU then Applied(VText(Some("")), None)
    else
      ZeroOfHasType(t.elem);
      var w := ParseValue(ext, ZeroOf(t.elem), t.elem, Settable, o);
      Applied(VPtr(w.value), w.err)
  }

  /** parseMap from entry `i` on: each value is copied, walked and stored back
      under its own key; a failure returns before the store. */
  function ParseMap(ext: Externals, v: Val, t: Ty, acc: Access, o: RootOption, i: nat): (r: Applied)
    requires t.Map? && HasType(v, t) && (v.VMap? ==> i <= |v.entries|)
    decreases t, 1, if v.VMap? then |v.entries| - i else 0
    ensures HasType(r.value, t)
    ensures v.VMap? ==> r.value.VMap? && KeysOf(r.value.entries) == KeysOf(v.entries)
    ensures v.VNilMap? ==> r == Applied(v, None)
  {
    if v.VNilMap? || |v.entries| == 0 then Applied(v, None)
    else if !acc.CanInterface() then Applied(v, Some(UnexportedPanic))
    else if i == |v.entries| then Applied(v, None)
    else
      var k := v.entries[i].0;
      var w := ParseValue(ext, v.entries[i].1, t.elem, Settable, o);
      if w.err.Some? then Applied(v, w.err)
      else
        var es := v.entries[i := (k, w.value)];
        assert KeysOf(es) == KeysOf(v.entries);
        assert forall m :: 0 <= m < |es| ==> es[m].0 == KeysOf(v.entries)[m];
        ParseMap(ext, VMap(es), t, acc, o, i + 1)
  }

  /** parseSlice: the default tokens are read first (a CSV error panics);
      the elements are walked only when the option has a tag value. */
  function ParseSlice(ext: Externals, v: Val, t: Ty, acc: Access, o: RootOption): (r: Applied)
    requires t.Slice? && HasType(v, t)
    decreases t, 1, 0
    ensures HasType(r.value, t)
    ensures o.tagValue.None? ==> r == Applied(v, None)
    ensures v.VSlice? && r.err.None? ==> r.value.VSlice? && |r.value.elems| == |v.elems|
  {
    match RootDefault(o)
    case Err(e) => Applied(v, Some(e))
    case Ok(vals) =>
      if v.VNilSlice? || o.tagValue.None? then Applied(v, None)
      else SliceElems(ext, v, t, acc, o, vals, 0)
  }

  /** The option element `i` is walked with: the same tag key and token i,
      or no value once the tokens have run out. */
  function ElementOption(o: RootOption, vals: seq<string>, i: nat): (r: RootOption)
    ensures r.tagName == o.tagName
    ensures i < |vals| ==> r.tagValue == Some(vals[i])
    ensures i >= |vals| ==> r.tagValue.None?
  {
    RootOption(o.tagName, if i < |vals| then Some(vals[i]) else None)
  }

  /** The element loop of parseSlice from element `i` on. */
  function SliceElems(ext: Externals, v: Val, t: Ty, acc: Access, o: RootOption, vals: seq<string>, i: nat): (r: Applied)
    requires t.Slice? && HasType(v, t) && v.VSlice? && i <= |v.elems|
    decreases t, 0, |v.elems| - i
    ensures HasType(r.value, t) && r.value.VSlice? && |r.value.elems| == |v.elems|
    ensures forall j :: 0 <= j < i ==> r.value.elems[j] == v.elems[j]
  {
    if i == |v.elems| then Applied(v, None)
    else
      var w := ParseValue(ext, v.elems[i], t.elem, acc.Element(), ElementOption(o, vals, i));
      var v1 := VSlice(v.elems[i := w.value]);
      if w.err.Some? then Applied(v1, w.err) else SliceElems(ext, v1, t, acc, o, vals, i + 1)
  }

  /** parseSample: written only when the value can be set, is zero and the
      option has a tag value; "-" means "no default". */
  function ParseSample(ext: Externals, v: Val, t: Ty, acc: Access, o: RootOption): (r: Applied)
    requires IsSampleKind(t) && HasType(v, t)
    ensures HasType(r.value, t)
    ensures !(acc.CanSet() && ShallowZero(v) && o.tagValue.Some?) ==> r == Applied(v, None)
    ensures o.tagValue == Some("-") ==> r == Applied(v, None)
    ensures r.value != v ==> o.tagValue.Some? && ParseLeaf(t, o.tagValue.value, ext) == Ok(r.value)
    ensures r.err.Some? ==> r.value == v && o.tagValue.Some? && ParseLeaf(t, o.tagValue.value, ext) == Err(r.err.value)
  {
    if acc.CanSet() && ShallowZero(v) && o.tagValue.Some? then
      var s := o.tagValue.value;
      if s == "-" then Applied(v, None)
      else match ParseLeaf(t, s, ext)
        case Ok(x) => Applied(x, None)
        case Err(e) => Applied(v, Some(e))
    else Applied(v, None)
  }

  // ---------------------------------------------------------------------------
  // Entry point

  /** LoadStruct: the same three root checks as in pkg/parse; the struct is
      walked with an option holding the tag key and no value. */
  function LoadStruct(ext: Externals, rootTy: Ty, root: Val, tagName: string): (r: Applied)
    requires HasType(root, rootTy)
    ensures HasType(r.value, rootTy)
    ensures !rootTy.Ptr? && rootTy != TextU ==> r == Applied(root, Some(NotPointer))
    ensures (rootTy.Ptr? || rootTy == TextU) && IsNil(root) ==> r == Applied(root, Some(NilPointer))
    ensures !IsNil(root) && (rootTy == TextU || (rootTy.Ptr? && !rootTy.elem.Struct?)) ==>
      r == Applied(root, Some(NotStruct))
    ensures rootTy.Ptr? && rootTy.elem.Struct? && !IsNil(root) ==>
      r.value.VPtr? && Applied(r.value.target, r.err) ==
        ParseValue(ext, root.target, rootTy.elem, Settable, RootOption(tagName, None))
  {
    if !rootTy.Ptr? && rootTy != TextU then Applied(root, Some(NotPointer))
    else if IsNil(root) then Applied(root, Some(NilPointer))
    else if rootTy == TextU || !rootTy.elem.Struct? then Applied(root, Some(NotStruct))
    else
      var w := ParseValue(ext, root.target, rootTy.elem, Settable, RootOption(tagName, None));
      Applied(VPtr(w.value), w.err)
  }
}

=== FILE: scalar.dfy ===
/** The leaf cases of parseSimpleValue, shared by both engines: text decoders
    (TextUnmarshaler), base64 for []byte, strings, interface slots, booleans,
    floats and integers of every width. Composite destinations (struct,
    pointer) are handled by each engine itself. */
module Scalar {
  import opened Wrappers
  import opened Numeric
  import opened Types

  /** Code the model cannot see, taken as parameters: float parsing
      (strconv.ParseFloat), base64 decoding, the UnmarshalText method of the
      TextU type (its result is the new opaque pointee state), and Go's
      conversion rules used by setValue. Each either succeeds or fails. */
  datatype Externals = Externals(
    parseFloat: (string, FloatWidth) -> Option<real>,
    base64Decode: string -> Option<seq<bv8>>,
    unmarshalText: string -> Option<string>,
    convertible: (Ty, Ty) -> bool,
    convert: (Val, Ty) -> Val,
    convertSlice: (Val, Ty) -> Outcome<Val>)

  /** Destination types parseSimpleValue decodes by itself. */
  predicate IsLeaf(t: Ty) {
    t == TextU || t == ByteSlice || t.Str? || t.Iface? || t.Bool? || t.Float? || t.Int? || t.Uint?
  }

  function BytesToVals(bs: seq<bv8>): (r: seq<Val>)
    ensures |r| == |bs|
    ensures forall i :: 0 <= i < |bs| ==> r[i] == VUint(bs[i] as nat)
  {
    seq(|bs|, i requires 0 <= i < |bs| => VUint(bs[i] as nat))
  }

  /** parseSimpleValue on a leaf destination: the value stored, or the error. */
  function ParseLeaf(t: Ty, s: string, ext: Externals): (r: Outcome<Val>)
    requires IsLeaf(t)
    ensures r.Ok? ==> HasType(r.value, t)
    ensures t == TextU && r.Ok? ==> r.value.VText? && r.value.state.Some?
    ensures t.Str? ==> r == Ok(VStr(s))
    ensures t.Iface? ==> r == Ok(VIface(Some(s)))
    ensures t.Bool? ==> (r.Ok? <==> ParseBool(s).Some?)
    ensures t.Bool? && r.Ok? ==> r.value == VBool(ParseBool(s).value)
    ensures t.Int? ==> (r.Ok? <==> IsSignedDecimal(s) && InIntRange(SignedValue(s), t.w))
    ensures t.Int? && r.Ok? ==> r.value == VInt(SignedValue(s))
    ensures t.Uint? ==> (r.Ok? <==> IsDecimal(s) && DecimalValue(s) <= MaxUint(t.w))
    ensures t.Uint? && r.Ok? ==> r.value == VUint(DecimalValue(s))
    ensures r.Err? && t != TextU ==> r.error == ParseFailed(s, t)
    ensures r.Err? && t == TextU ==> r.error == UnmarshalFailed(s, t)
  {
    if t == TextU then
      // The pointer is allocated first, then the text is decoded into it.
      match ext.unmarshalText(s)
      case Some(state) => Ok(VText(Some(state)))
      case None => Err(UnmarshalFailed(s, t))
    else if t == ByteSlice then
      match ext.base64Decode(s)
      case Some(bs) => Ok(VSlice(BytesToVals(bs)))
      case None => Err(ParseFailed(s, t))
    else
      match t
      case Str => Ok(VStr(s))
      case Iface => Ok(VIface(Some(s)))
      case Bool =>
        (match ParseBool(s)
         case Some(b) => Ok(VBool(b))
         case None => Err(ParseFailed(s, t)))
      case Float(fw) =>
        (match ext.parseFloat(s, fw)
         case Some(x) => Ok(VFloat(x))
         case None => Err(ParseFailed(s, t)))
      case Int(w) =>
        (match ParseInt(s, w)
         case Some(x) => Ok(VInt(x))
         case None => Err(ParseFailed(s, t)))
      case Uint(w) =>
        (match ParseUint(s, w)
         case Some(x) => Ok(VUint(x))
         case None => Err(ParseFailed(s, t)))
  }

  /** An integer default written in decimal is stored exactly when the
      destination width can hold it. */
  lemma IntDefaultRoundTrip(x: int, w: IntWidth, ext: Externals)
    ensures ParseLeaf(Int(w), FormatInt(x), ext) ==
      (if InIntRange(x, w) then Ok(VInt(x)) else Err(ParseFailed(FormatInt(x), Int(w))))
  {
    ParseIntFormat(x, w);
  }

  lemma UintDefaultRoundTrip(n: nat, w: IntWidth, ext: Externals)
    ensures ParseLeaf(Uint(w), FormatNat(n), ext) ==
      (if n <= MaxUint(w) then Ok(VUint(n)) else Err(ParseFailed(FormatNat(n), Uint(w))))
  {
    ParseUintFormat(n, w);
  }

  lemma BoolDefaultRoundTrip(b: bool, ext: Externals)
    ensures ParseLeaf(Bool, FormatBool(b), ext) == Ok(VBool(b))
  {
    ParseBoolFormat(b);
  }

  // ---------------------------------------------------------------------------
  // parseError

  /** `part` occurs in `s` starting at index `i`. */
  predicate OccursAt(s: string, part: string, i: int) {
    0 <= i <= |s| - |part| && s[i..i + |part|] == part
  }

  ghost predicate Contains(s: string, part: string) {
    exists i :: OccursAt(s, part, i)
  }

  /** parseError: "failed to parse '<text>' into type <type>", followed by
      ": <cause>" when there is a cause. */
  function ParseErrorMessage(text: string, t: Ty, cause: Option<string>): (msg: string)
    ensures Contains(msg, text) && Contains(msg, TypeName(t))
    ensures cause.Some? ==> Contains(msg, cause.value)
    ensures cause.None? ==> msg == "failed to parse '" + text + "' into type " + TypeName(t)
  {
    var pre := "failed to parse '";
    var head := pre + text + "' into type " + TypeName(t);
    var tail := if cause.Some? then ": " + cause.value else "";
    var msg := head + tail;
    ContainsMiddle(pre, text, "' into type " + TypeName(t) + tail);
    assert pre + text + ("' into type " + TypeName(t) + tail) == msg;
    ContainsMiddle(pre + text + "' into type ", TypeName(t), tail);
    if cause.Some? then
      ContainsMiddle(head + ": ", cause.value, "");
      assert head + ": " + cause.value + "" == msg;
      msg
    else
      head + tail
  }

  lemma ContainsMiddle(a: string, b: string, c: string)
    ensures Contains(a + b + c, b)
  {
    var s := a + b + c;
    assert OccursAt(s, b, |a|);
  }
}

=== FILE: support.dfy ===
/** Type classification (isSupportedType) and the two notions of "zero" the
    engines use: the deep isZero of pkg/parse/utils.go, which looks through
    pointers, and Go's own reflect.Value.IsZero, for which a pointer is zero
    exactly when it is nil. */
module Support {
  import opened Wrappers
  import opened Numeric
  import opened Types

  /** Map key kinds isSupportedType accepts. The source lists String, Int,
      Int8, Int16, Int32, Uint64, Uint8, Uint16, Uint32 and Uint64 again:
      int64 and plain uint are missing. */
  predicate SupportedKeyKind(k: KeyKind) {
    match k
    case KString => true
    case KInt(w) => w != W64
    case KUint(w) => w != WNative
    case KOther(_) => false
  }

  /** isSupportedType: TextUnmarshaler and []byte first, then by kind. */
  predicate IsSupportedType(t: Ty)
    decreases t
  {
    if t == TextU || t == ByteSlice then true
    else match t
      case Bool => true
      case Str => true
      case Float(_) => true
      case Int(_) => true
      case Uint(_) => true
      case Struct(fs) => forall i :: 0 <= i < |fs| ==> IsSupportedType(fs[i].ty)
      case Slice(e) => IsSupportedType(e)
      case Ptr(e) => IsSupportedType(e)
      case Map(k, e) => SupportedKeyKind(k) && IsSupportedType(e)
      case _ => false
  }

  // ---------------------------------------------------------------------------
  // An independent reading of the classification: every type reachable from
  // `t` is of an accepted kind.

  /** `t` and every type reachable from it through fields, elements and pointees. */
  function Components(t: Ty): (cs: seq<Ty>)
    decreases t
    ensures |cs| >= 1 && cs[0] == t
  {
    match t
    case Struct(fs) => [t] + FieldComponents(t, 0)
    case Slice(e) => [t] + Components(e)
    case Ptr(e) => [t] + Components(e)
    case Map(_, e) => [t] + Components(e)
    case _ => [t]
  }

  function FieldComponents(t: Ty, i: nat): seq<Ty>
    requires t.Struct? && i <= |t.fields|
    decreases t, |t.fields| - i
  {
    if i == |t.fields| then [] else Components(t.fields[i].ty) + FieldComponents(t, i + 1)
  }

  /** The check isSupportedType makes on one type, ignoring its components. */
  predicate LocallySupported(t: Ty) {
    match t
    case Map(k, _) => SupportedKeyKind(k)
    case Iface => false
    case Other(_) => false
    case _ => true
  }

  predicate AllLocallySupported(cs: seq<Ty>) {
    forall i :: 0 <= i < |cs| ==> LocallySupported(cs[i])
  }

  /** A type is supported exactly when every type reachable from it is of an
      accepted kind and every map key kind on the way is in the accepted list. */
  lemma {:induction false} SupportedIffComponents(t: Ty)
    ensures IsSupportedType(t) <==> AllLocallySupported(Components(t))
    decreases t, 1
  {
    match t
    case Struct(fs) =>
      FieldComponentsSupported(t, 0);
      ConsAllSupported(t, FieldComponents(t, 0));
    case Slice(e) =>
      SupportedIffComponents(e);
      ConsAllSupported(t, Components(e));
    case Ptr(e) =>
      SupportedIffComponents(e);
      ConsAllSupported(t, Components(e));
    case Map(_, e) =>
      SupportedIffComponents(e);
      ConsAllSupported(t, Components(e));
    case _ =>
  }

  lemma ConsAllSupported(t: Ty, rest: seq<Ty>)
    ensures AllLocallySupported([t] + rest) <==> LocallySupported(t) && AllLocallySupported(rest)
  {
    if LocallySupported(t) && AllLocallySupported(rest) {
      forall k | 0 <= k < |[t] + rest| ensures LocallySupported(([t] + rest)[k]) {
        if k > 0 { assert ([t] + rest)[k] == rest[k - 1]; }
      }
    }
    if AllLocallySupported([t] + rest) {
      assert ([t] + rest)[0] == t;
      forall k | 0 <= k < |rest| ensures LocallySupported(rest[k]) {
        assert ([t] + rest)[k + 1] == rest[k];
      }
    }
  }

  lemma {:induction false} FieldComponentsSupported(t: Ty, i: nat)
    requires t.Struct? && i <= |t.fields|
    ensures (forall j :: i <= j < |t.fields| ==> IsSupportedType(t.fields[j].ty))
            <==> AllLocallySupported(FieldComponents(t, i))
    decreases t, 0, |t.fields| - i
  {
    if i < |t.fields| {
      SupportedIffComponents(t.fields[i].ty);
      FieldComponentsSupported(t, i + 1);
      var a := Components(t.fields[i].ty);
      var b := FieldComponents(t, i + 1);
      assert FieldComponents(t, i) == a + b;
      assert AllLocallySupported(a + b) <==> AllLocallySupported(a) && AllLocallySupported(b) by {
        if AllLocallySupported(a) && AllLocallySupported(b) {
          forall k | 0 <= k < |a + b| ensures LocallySupported((a + b)[k]) {
            if k < |a| { assert (a + b)[k] == a[k]; } else { assert (a + b)[k] == b[k - |a|]; }
          }
        }
        if AllLocallySupported(a + b) {
          forall k | 0 <= k < |a| ensures LocallySupported(a[k]) { assert (a + b)[k] == a[k]; }
          forall k | 0 <= k < |b| ensures LocallySupported(b[k]) { assert (a + b)[k + |a|] == b[k]; }
        }
      }
    }
  }

  /** The map key check: int64 and uint keys are refused although every other
      integer width is accepted. */
  lemma MapKeyKinds(e: Ty)
    requires IsSupportedType(e)
    ensures IsSupportedType(Map(KString, e))
    ensures IsSupportedType(Map(KInt(W32), e)) && IsSupportedType(Map(KUint(W64), e))
    ensures !IsSupportedType(Map(KInt(W64), e)) && !IsSupportedType(Map(KUint(WNative), e))
    ensures !IsSupportedType(Map(KOther("float64"), e))
  {
  }

  // ---------------------------------------------------------------------------
  // Deep zero: isZero of pkg/parse/utils.go

  /** The panic reflect raises when isZero follows a nil pointer. */
  const NilDeref := Panic("reflect: call of reflect.Value.Type on zero Value")

  /** isZero: a map is zero when empty, a slice when nil, a struct when all its
      fields are (checked left to right, stopping at the first non-zero one),
      a pointer when what it points to is; a nil pointer makes it panic.
      Everything else is compared with its type's zero value. */
  function DeepZero(v: Val): Outcome<bool>
    decreases v
  {
    match v
    case VNilMap => Ok(true)
    case VMap(es) => Ok(|es| == 0)
    case VNilSlice => Ok(true)
    case VSlice(_) => Ok(false)
    case VStruct(fs) => FieldsZero(v, 0)
    case VNilPtr => Err(NilDeref)
    case VPtr(x) => DeepZero(x)
    case VText(None) => Err(NilDeref)
    case VText(Some(s)) => Ok(s == "")
    case VBool(b) => Ok(!b)
    case VStr(s) => Ok(s == "")
    case VInt(i) => Ok(i == 0)
    case VUint(n) => Ok(n == 0)
    case VFloat(x) => Ok(x == 0.0)
    case VIface(h) => Ok(h.None?)
    case VOther(z) => Ok(z)
  }

  /** The struct loop of isZero from field `i` on: `z = z && isZero(field)`. */
  function FieldsZero(v: Val, i: nat): Outcome<bool>
    requires v.VStruct? && i <= |v.fields|
    decreases v, |v.fields| - i
  {
    if i == |v.fields| then Ok(true)
    else
      var z :- DeepZero(v.fields[i]);
      if z then FieldsZero(v, i + 1) else Ok(false)
  }

  /** isZero defined and true: the value is deep-zero. */
  predicate IsDeepZero(v: Val) {
    DeepZero(v) == Ok(true)
  }

  lemma DeepZeroMap(v: Val)
    requires v.VNilMap? || v.VMap?
    ensures DeepZero(v).Ok? && (DeepZero(v).value <==> v.VNilMap? || |v.entries| == 0)
  {
  }

  lemma DeepZeroSlice(v: Val)
    requires v.VNilSlice? || v.VSlice?
    ensures DeepZero(v) == Ok(v.VNilSlice?)
  {
  }

  lemma DeepZeroPointer(x: Val)
    ensures DeepZero(VPtr(x)) == DeepZero(x)
    ensures DeepZero(VNilPtr).Err?
  {
  }

  /** Struct case: when every field's isZero is defined, the struct is zero
      exactly when all fields are. */
  lemma {:induction false} DeepZeroStruct(v: Val, i: nat)
    requires v.VStruct? && i <= |v.fields|
    requires forall j :: i <= j < |v.fields| ==> DeepZero(v.fields[j]).Ok?
    ensures FieldsZero(v, i).Ok?
    ensures FieldsZero(v, i).value <==> forall j :: i <= j < |v.fields| ==> IsDeepZero(v.fields[j])
    decreases |v.fields| - i
  {
    if i < |v.fields| {
      DeepZeroStruct(v, i + 1);
    }
  }

  /** Struct case, short circuit: the first non-zero field decides, and later
      fields are never examined (so a nil pointer after it does not panic). */
  lemma {:induction false} DeepZeroStructStops(v: Val, i: nat, k: nat)
    requires v.VStruct? && i <= k < |v.fields|
    requires forall j :: i <= j < k ==> IsDeepZero(v.fields[j])
    requires DeepZero(v.fields[k]) == Ok(false)
    ensures FieldsZero(v, i) == Ok(false)
    decreases k - i
  {
    if i < k {
      DeepZeroStructStops(v, i + 1, k);
    }
  }

  // ---------------------------------------------------------------------------
  // Shallow zero: Go's reflect.Value.IsZero

  /** reflect.Value.IsZero: pointers, slices, maps and interfaces are zero when
      nil; a struct when all its fields are. It never panics. */
  predicate ShallowZero(v: Val)
    decreases v
  {
    match v
    case VStruct(fs) => forall i :: 0 <= i < |fs| ==> ShallowZero(fs[i])
    case VBool(b) => !b
    case VStr(s) => s == ""
    case VInt(i) => i == 0
    case VUint(n) => n == 0
    case VFloat(x) => x == 0.0
    case VOther(z) => z
    case _ => IsNil(v)
  }

  /** Every zero value is shallow-zero. */
  lemma {:induction false} ZeroOfShallowZero(t: Ty)
    ensures ShallowZero(ZeroOf(t))
    decreases t
  {
    match t
    case Struct(fs) =>
      forall i | 0 <= i < |fs| ensures ShallowZero(ZeroOf(t).fields[i]) {
        ZeroOfShallowZero(fs[i].ty);
      }
    case _ =>
  }

  /** Where both are defined, shallow zero implies deep zero. */
  lemma {:induction false} ShallowImpliesDeep(v: Val)
    requires ShallowZero(v) && DeepZero(v).Ok?
    ensures IsDeepZero(v)
    decreases v, 1
  {
    match v
    case VStruct(fs) =>
      ShallowFieldsDeep(v, 0);
    case _ =>
  }

  lemma {:induction false} ShallowFieldsDeep(v: Val, i: nat)
    requires v.VStruct? && i <= |v.fields|
    requires forall j :: 0 <= j < |v.fields| ==> ShallowZero(v.fields[j])
    requires FieldsZero(v, i).Ok?
    ensures FieldsZero(v, i) == Ok(true)
    decreases v, 0, |v.fields| - i
  {
    if i < |v.fields| {
      ShallowImpliesDeep(v.fields[i]);
      ShallowFieldsDeep(v, i + 1);
    }
  }

  /** The converse fails: a non-nil pointer to a zero value is deep-zero but
      not shallow-zero, and a nil pointer is shallow-zero with no deep answer. */
  lemma ZeroNotionsDiffer()
    ensures IsDeepZero(VPtr(VInt(0))) && !ShallowZero(VPtr(VInt(0)))
    ensures ShallowZero(VNilPtr) && DeepZero(VNilPtr).Err?
  {
  }
}

=== FILE: types.dfy ===
/** The closed description of Go types and values that replaces reflection.
    Every type and value is a finite tree, so the recursive walkers below
    always terminate: cyclic type graphs cannot be written down. */
module Types {
  import opened Wrappers
  import opened Numeric
  import Csv

  datatype FloatWidth = F32 | F64

  /** The kind of a map's key type. */
  datatype KeyKind = KString | KInt(w: IntWidth) | KUint(w: IntWidth) | KOther(kind: string)

  /** A struct field: its Go name, whether it is exported, whether it is
      embedded (anonymous), its tag as a map from tag key to tag value, and
      its type. */
  datatype Field = Field(name: string, exported: bool, embedded: bool, tags: map<string, string>, ty: Ty)

  /** A Go type. TextU is a pointer type implementing encoding.TextUnmarshaler
      whose pointee is opaque; Iface is an interface type; Other covers the
      kinds the engine never handles (chan, func, complex, unsafe pointer, ...).
      `[]byte` is Slice(Uint(W8)). */
  datatype Ty =
    | Bool
    | Str
    | Int(w: IntWidth)
    | Uint(w: IntWidth)
    | Float(fw: FloatWidth)
    | TextU
    | Iface
    | Struct(fields: seq<Field>)
    | Slice(elem: Ty)
    | Ptr(elem: Ty)
    | Map(key: KeyKind, elem: Ty)
    | Other(kind: string)

  /** The type Go's typeOfByteSlice compares against. */
  const ByteSlice: Ty := Slice(Uint(W8))

  /** A map key: strings, or integers of any width. */
  datatype Key = KStr(s: string) | KNum(n: int)

  /** A Go value. Nil pointers, slices and maps are explicit constructors.
      VText holds the opaque pointee state of a TextU pointer (None when the
      pointer is nil, "" for the pointee's zero state); VIface holds what an
      interface slot contains (None when nil; the engine only ever stores
      strings there); VOther only records whether the value is its type's zero.
      A map is the list of its entries with distinct keys, in the order a walk
      visits them. */
  datatype Val =
    | VBool(b: bool)
    | VStr(s: string)
    | VInt(i: int)
    | VUint(n: nat)
    | VFloat(x: real)
    | VText(state: Option<string>)
    | VIface(held: Option<string>)
    | VStruct(fields: seq<Val>)
    | VNilSlice
    | VSlice(elems: seq<Val>)
    | VNilPtr
    | VPtr(target: Val)
    | VNilMap
    | VMap(entries: seq<(Key, Val)>)
    | VOther(zero: bool)

  /** How a reflect.Value may be used, after reflect's flags: Settable is
      addressable with no read-only flag (CanSet); Unaddressable has no
      read-only flag but cannot be set, only what it points to can; ReadOnly
      carries the sticky read-only flag of a value reached through an
      unexported field that is not embedded (or through anything below one);
      EmbedReadOnly carries the flag of an unexported embedded field itself,
      which its exported fields do not inherit. Neither read-only kind can be
      set or passed to Interface. */
  datatype Access = Settable | Unaddressable | ReadOnly | EmbedReadOnly(addressable: bool) {
    predicate CanSet() { Settable? }
    predicate CanInterface() { Settable? || Unaddressable? }

    /** Access of field `f` of a struct with this access (Value.Field): the
        sticky flag is kept, the embedded one is dropped, and an unexported
        field adds the flag of its own sort. */
    function FieldAccess(f: Field): Access {
      if ReadOnly? then ReadOnly
      else
        var base := if EmbedReadOnly? then (if addressable then Settable else Unaddressable) else this;
        if f.exported then base
        else if f.embedded then EmbedReadOnly(base.Settable?)
        else ReadOnly
    }

    /** Access of what a pointer with this access points to (Value.Elem):
        addressable, with the read-only flags kept. */
    function Deref(): Access {
      if ReadOnly? then ReadOnly else if EmbedReadOnly? then EmbedReadOnly(true) else Settable
    }

    /** Access of an element of a slice with this access (Value.Index):
        addressable, and any read-only flag becomes the sticky one. */
    function Element(): Access {
      if CanInterface() then Settable else ReadOnly
    }
  }

  /** The failures the engine reports, and the panics it raises, as values. */
  datatype Error =
    | NotPointer
    | NilPointer
    | NotStruct
    | UnsupportedField(name: string, ty: Ty)
    | NestedDefault(path: string)
    | ParseFailed(text: string, ty: Ty)
    | UnmarshalFailed(text: string, ty: Ty)
    | CsvFailed(text: string, fault: Csv.CsvFault)
    | DefaultFailed(path: string, cause: Error)
    | NotConvertible(from: Ty, to: Ty)
    | Panic(reason: string)
    | ValidationFailed(reason: string)

  type Outcome<T> = Result<T, Error>

  function KeyKindOf(t: Ty): KeyKind {
    match t
    case Str => KString
    case Int(w) => KInt(w)
    case Uint(w) => KUint(w)
    case _ => KOther("non-key")
  }

  predicate IsNilable(v: Val) {
    v.VNilSlice? || v.VSlice? || v.VNilPtr? || v.VPtr? || v.VNilMap? || v.VMap? || v.VText? || v.VIface?
  }

  /** Is `v` nil (reflect.Value.IsNil on a nilable kind)? */
  predicate IsNil(v: Val) {
    v.VNilSlice? || v.VNilPtr? || v.VNilMap? || v == VText(None) || v == VIface(None)
  }

  /** reflect.Zero(t): the zero value of `t`, with every pointer, slice and map nil. */
  function ZeroOf(t: Ty): (z: Val)
    decreases t
  {
    match t
    case Bool => VBool(false)
    case Str => VStr("")
    case Int(_) => VInt(0)
    case Uint(_) => VUint(0)
    case Float(_) => VFloat(0.0)
    case TextU => VText(None)
    case Iface => VIface(None)
    case Struct(fs) => VStruct(seq(|fs|, i requires 0 <= i < |fs| => ZeroOf(fs[i].ty)))
    case Slice(_) => VNilSlice
    case Ptr(_) => VNilPtr
    case Map(_, _) => VNilMap
    case Other(_) => VOther(true)
  }

  predicate KeyFits(k: Key, kk: KeyKind) {
    match kk
    case KString => k.KStr?
    case KInt(w) => k.KNum? && InIntRange(k.n, w)
    case KUint(w) => k.KNum? && InUintRange(k.n, w)
    case KOther(_) => false
  }

  function KeysOf(entries: seq<(Key, Val)>): seq<Key> {
    seq(|entries|, i requires 0 <= i < |entries| => entries[i].0)
  }

  predicate DistinctKeys(entries: seq<(Key, Val)>) {
    forall i, j :: 0 <= i < j < |entries| ==> entries[i].0 != entries[j].0
  }

  /** `v` is a value of type `t`. */
  predicate HasType(v: Val, t: Ty)
    decreases t
  {
    match t
    case Bool => v.VBool?
    case Str => v.VStr?
    case Int(w) => v.VInt? && InIntRange(v.i, w)
    case Uint(w) => v.VUint? && InUintRange(v.n, w)
    case Float(_) => v.VFloat?
    case TextU => v.VText?
    case Iface => v.VIface?
    case Struct(fs) =>
      v.VStruct? && |v.fields| == |fs|
      && forall i :: 0 <= i < |fs| ==> HasType(v.fields[i], fs[i].ty)
    case Slice(e) =>
      v.VNilSlice? || (v.VSlice? && forall i :: 0 <= i < |v.elems| ==> HasType(v.elems[i], e))
    case Ptr(e) => v.VNilPtr? || (v.VPtr? && HasType(v.target, e))
    case Map(kk, e) =>
      v.VNilMap?
      || (v.VMap? && DistinctKeys(v.entries)
          && forall i :: 0 <= i < |v.entries| ==> KeyFits(v.entries[i].0, kk) && HasType(v.entries[i].1, e))
    case Other(_) => v.VOther?
  }

  /** A pointer type at every level of a value built by zeroType is non-nil. */
  predicate PointersSet(v: Val, t: Ty)
    decreases t
  {
    match t
    case Ptr(e) => v.VPtr? && PointersSet(v.target, e)
    case TextU => v.VText? && v.state.Some?
    case _ => true
  }

  /** The zero value of every type is a value of that type. */
  lemma {:induction false} ZeroOfHasType(t: Ty)
    ensures HasType(ZeroOf(t), t)
    decreases t
  {
    match t
    case Struct(fs) =>
      forall i | 0 <= i < |fs|
        ensures HasType(ZeroOf(t).fields[i], fs[i].ty)
      {
        ZeroOfHasType(fs[i].ty);
      }
    case _ =>
  }

  /** Go's spelling of a type, as %v prints a reflect.Type. */
  function TypeName(t: Ty): string
    decreases t
  {
    match t
    case Bool => "bool"
    case Str => "string"
    case Int(w) => "int" + WidthSuffix(w)
    case Uint(w) => "uint" + WidthSuffix(w)
    case Float(F32) => "float32"
    case Float(F64) => "float64"
    case TextU => "*encoding.TextUnmarshaler"
    case Iface => "interface {}"
    case Struct(_) => "struct"
    case Slice(e) => "[]" + TypeName(e)
    case Ptr(e) => "*" + TypeName(e)
    case Map(k, e) => "map[" + KeyName(k) + "]" + TypeName(e)
    case Other(k) => k
  }

  function WidthSuffix(w: IntWidth): string {
    match w
    case WNative => ""
    case W8 => "8"
    case W16 => "16"
    case W32 => "32"
    case W64 => "64"
  }

  function KeyName(k: KeyKind): string {
    match k
    case KString => "string"
    case KInt(w) => "int" + WidthSuffix(w)
    case KUint(w) => "uint" + WidthSuffix(w)
    case KOther(n) => n
  }

  /** The panic reflect's Convert raises for a string converted to a map key
      type that is not a string kind. */
  function ConvertPanic(k: KeyKind): Error {
    Panic("reflect.Value.Convert: value of type string cannot be converted to type " + KeyName(k))
  }

  /** SetMapIndex on an association list. */
  function Insert(acc: seq<(Key, Val)>, k: Key, x: Val): (r: seq<(Key, Val)>)
    requires DistinctKeys(acc)
    ensures DistinctKeys(r)
    ensures forall j :: 0 <= j < |r| ==> r[j] == (k, x) || r[j] in acc
    ensures forall k2 :: k2 in KeysOf(r) <==> k2 in KeysOf(acc) || k2 == k
    ensures |r| <= |acc| + 1
  {
    if exists j :: 0 <= j < |acc| && acc[j].0 == k then
      var j :| 0 <= j < |acc| && acc[j].0 == k;
      var r := acc[j := (k, x)];
      assert forall m :: 0 <= m < |r| ==> r[m].0 == acc[m].0;
      assert KeysOf(r) == KeysOf(acc);
      assert KeysOf(acc)[j] == k;
      assert forall m :: 0 <= m < |r| && m != j ==> r[m] == acc[m] && acc[m] in acc;
      r
    else
      var r := acc + [(k, x)];
      assert KeysOf(r) == KeysOf(acc) + [k];
      r
  }

  /** Every entry has a key of kind `kk` and a value of type `et`. */
  predicate EntriesFit(es: seq<(Key, Val)>, kk: KeyKind, et: Ty) {
    forall j :: 0 <= j < |es| ==> KeyFits(es[j].0, kk) && HasType(es[j].1, et)
  }

  lemma InsertFits(acc: seq<(Key, Val)>, k: Key, x: Val, kk: KeyKind, et: Ty)
    requires DistinctKeys(acc) && EntriesFit(acc, kk, et)
    requires KeyFits(k, kk) && HasType(x, et)
    ensures EntriesFit(Insert(acc, k, x), kk, et)
  {
    var r := Insert(acc, k, x);
    forall j | 0 <= j < |r| ensures KeyFits(r[j].0, kk) && HasType(r[j].1, et) {
      if r[j] != (k, x) {
        var m :| 0 <= m < |acc| && acc[m] == r[j];
      }
    }
  }
}

=== FILE: version_cache.dfy ===
/** The versioned configuration cache of pkg/ConfVersion/versionLoader.go:
    a version counter, a retention size `mod`, and a map from versions to the
    configurations loaded under them. A configuration is stored only when its
    own validation accepts it. With mod > 1 only the newest mod versions are
    kept. */
module ConfVersion {
  import opened Wrappers

  /** What a configuration's Valid method answers: a verdict and an error. */
  datatype Verdict = Verdict(valid: bool, err: Option<string>)

  /** Why Load refused a configuration: Valid returned an error, or it
      returned false without one. */
  datatype LoadError = ValidError(msg: string) | NotValid

  /** confLoader: the current version, how many versions to keep, and the
      cached configurations by version. */
  datatype Cache<T> = Cache(version: int, mod: int, entries: map<int, T>)

  /** Keys from `lo` to `hi` inclusive. */
  function Range(lo: int, hi: int): (r: set<int>)
    ensures forall k :: k in r <==> lo <= k <= hi
    ensures lo <= hi + 1 ==> |r| == hi - lo + 1
    decreases hi - lo
  {
    if hi < lo then {} else Range(lo, hi - 1) + {hi}
  }

  /** The state every reachable cache is in. The keys are the contiguous run
      of versions ending at the current one. With mod > 1 there are at most
      mod of them. With mod <= 1 the run starts at version 0 (nothing was ever
      evicted). An empty cache is still at version 0. */
  ghost predicate Window<T>(c: Cache<T>) {
    && c.version >= 0
    && c.entries.Keys == Range(c.version - |c.entries| + 1, c.version)
    && (|c.entries| == 0 ==> c.version == 0)
    && (c.mod > 1 ==> |c.entries| <= c.mod)
    && (c.mod <= 1 && |c.entries| > 0 ==> |c.entries| == c.version + 1)
  }

  /** NewConfLoader: version 0 and nothing cached. */
  function NewConfLoader<T>(mod: int): (c: Cache<T>)
    ensures c.version == 0 && c.mod == mod && |c.entries| == 0
    ensures Window(c)
  {
    var c := Cache(0, mod, map[]);
    assert c.entries.Keys == Range(1, 0);
    c
  }

  /** Load: a configuration Valid rejects (with an error, or with false) is
      refused and the cache is unchanged. Otherwise the version moves on by
      one unless the cache is empty, the configuration is stored under it,
      and with mod > 1 a cache grown past mod entries drops version - mod. */
  function Load<T>(c: Cache<T>, conf: T, verdict: Verdict): (r: Result<Cache<T>, LoadError>)
    ensures verdict.err.Some? ==> r == Err(ValidError(verdict.err.value))
    ensures verdict.err.None? && !verdict.valid ==> r == Err(NotValid)
    ensures r.Ok? <==> verdict.err.None? && verdict.valid
    ensures r.Ok? ==> r.value.mod == c.mod
    ensures r.Ok? && |c.entries| == 0 ==> r.value.version == c.version
    ensures r.Ok? && |c.entries| != 0 ==> r.value.version == c.version + 1
    ensures r.Ok? ==> r.value.version in r.value.entries && r.value.entries[r.value.version] == conf
    ensures r.Ok? ==> forall k :: k in r.value.entries && k != r.value.version ==> k in c.entries && r.value.entries[k] == c.entries[k]
  {
    if verdict.err.Some? then Err(ValidError(verdict.err.value))
    else if !verdict.valid then Err(NotValid)
    else
      var version := if |c.entries| != 0 then c.version + 1 else c.version;
      var entries := c.entries[version := conf];
      if c.mod > 1 && |entries| > c.mod then Ok(Cache(version, c.mod, entries - {version - c.mod}))
      else Ok(Cache(version, c.mod, entries))
  }

  /** Get: the configuration of the current version, or the zero value of
      the configuration type when there is none. */
  function Get<T>(c: Cache<T>, zero: T): (r: T)
    ensures c.version in c.entries ==> r == c.entries[c.version]
    ensures c.version !in c.entries ==> r == zero
  {
    if c.version in c.entries then c.entries[c.version] else zero
  }

  // ---------------------------------------------------------------------------
  // Properties

  /** After a successful Load, Get returns exactly what was loaded. */
  lemma LoadThenGet<T>(c: Cache<T>, conf: T, verdict: Verdict, zero: T)
    requires Load(c, conf, verdict).Ok?
    ensures Get(Load(c, conf, verdict).value, zero) == conf
  {
  }

  /** Load keeps the window: the keys stay the contiguous run of versions
      ending at the current one, at most mod of them when mod > 1, and all of
      them back to version 0 when mod <= 1. */
  lemma LoadKeepsWindow<T>(c: Cache<T>, conf: T, verdict: Verdict)
    requires Window(c) && Load(c, conf, verdict).Ok?
    ensures Window(Load(c, conf, verdict).value)
    ensures |Load(c, conf, verdict).value.entries| ==
      if c.mod > 1 then Min(|c.entries| + 1, c.mod) else |c.entries| + 1
  {
    if |c.entries| == 0 {
      FirstLoadWindow(c, conf);
    } else {
      NextLoadWindow(c, conf);
    }
  }

  function Min(a: int, b: int): int {
    if a <= b then a else b
  }

  /** The first load into an empty cache stores one entry at the current
      version. */
  lemma FirstLoadWindow<T>(c: Cache<T>, conf: T)
    requires Window(c) && |c.entries| == 0
    ensures Window(Load(c, conf, Verdict(true, None)).value)
    ensures |Load(c, conf, Verdict(true, None)).value.entries| == 1
  {
    var r := Load(c, conf, Verdict(true, None)).value;
    assert c.entries == map[];
    assert r.entries == map[c.version := conf];
    assert r.entries.Keys == {c.version} == Range(c.version, c.version);
  }

  /** A later load adds the next version and, past mod entries, drops the
      oldest. */
  lemma NextLoadWindow<T>(c: Cache<T>, conf: T)
    requires Window(c) && |c.entries| > 0
    ensures Window(Load(c, conf, Verdict(true, None)).value)
    ensures |Load(c, conf, Verdict(true, None)).value.entries| ==
      if c.mod > 1 then Min(|c.entries| + 1, c.mod) else |c.entries| + 1
  {
    GrowRun(c.entries, c.version + 1, |c.entries|, conf);
    if c.mod > 1 && |c.entries| + 1 > c.mod {
      NextLoadEvicts(c, conf);
    } else {
      NextLoadKeeps(c, conf);
    }
  }

  lemma NextLoadEvicts<T>(c: Cache<T>, conf: T)
    requires Window(c) && |c.entries| > 0 && c.mod > 1 && |c.entries| + 1 > c.mod
    requires c.entries[c.version + 1 := conf].Keys == Range(c.version + 1 - |c.entries|, c.version + 1)
    requires |c.entries[c.version + 1 := conf]| == |c.entries| + 1
    ensures Window(Load(c, conf, Verdict(true, None)).value)
    ensures |Load(c, conf, Verdict(true, None)).value.entries| == c.mod
  {
    var n := |c.entries|;
    var v := c.version + 1;
    var grown := c.entries[v := conf];
    assert n == c.mod;
    assert Load(c, conf, Verdict(true, None)).value == Cache(v, n, grown - {v - n}) by {
      LoadAccepted(c, conf);
    }
    assert (grown - {v - n}).Keys == Range(v - n + 1, v) && |grown - {v - n}| == n by {
      DropOldest(grown, v, n);
    }
  }

  /** An accepted load, spelled out. */
  lemma LoadAccepted<T>(c: Cache<T>, conf: T)
    ensures Load(c, conf, Verdict(true, None)).Ok?
    ensures var v := if |c.entries| != 0 then c.version + 1 else c.version;
      var grown := c.entries[v := conf];
      Load(c, conf, Verdict(true, None)).value ==
        if c.mod > 1 && |grown| > c.mod then Cache(v, c.mod, grown - {v - c.mod}) else Cache(v, c.mod, grown)
  {
  }

  lemma NextLoadKeeps<T>(c: Cache<T>, conf: T)
    requires Window(c) && |c.entries| > 0 && !(c.mod > 1 && |c.entries| + 1 > c.mod)
    requires c.entries[c.version + 1 := conf].Keys == Range(c.version + 1 - |c.entries|, c.version + 1)
    requires |c.entries[c.version + 1 := conf]| == |c.entries| + 1
    ensures Window(Load(c, conf, Verdict(true, None)).value)
    ensures |Load(c, conf, Verdict(true, None)).value.entries| == |c.entries| + 1
  {
    assert Load(c, conf, Verdict(true, None)).value == Cache(c.version + 1, c.mod, c.entries[c.version + 1 := conf]) by {
      LoadAccepted(c, conf);
    }
  }

  /** Adding the version after a contiguous run extends the run by one. */
  lemma GrowRun<T>(m: map<int, T>, v: int, n: nat, x: T)
    requires m.Keys == Range(v - n, v - 1) && |m| == n
    ensures m[v := x].Keys == Range(v - n, v)
    ensures |m[v := x]| == n + 1
  {
    assert v !in m;
    assert m[v := x].Keys == Range(v - n, v);
  }

  /** Removing the lowest key of a contiguous run leaves the run above it. */
  lemma DropOldest<T>(m: map<int, T>, v: int, n: nat)
    requires m.Keys == Range(v - n, v)
    ensures (m - {v - n}).Keys == Range(v - n + 1, v)
    ensures |m - {v - n}| == n
  {
    assert (m - {v - n}).Keys == Range(v - n + 1, v);
  }

  /** With mod <= 1 nothing is ever evicted: every cached version survives. */
  lemma NoEvictionSmallMod<T>(c: Cache<T>, conf: T, verdict: Verdict)
    requires c.mod <= 1 && Load(c, conf, verdict).Ok?
    ensures c.entries.Keys <= Load(c, conf, verdict).value.entries.Keys
  {
  }

  /** The version never goes down. */
  lemma VersionMonotone<T>(c: Cache<T>, conf: T, verdict: Verdict)
    requires Load(c, conf, verdict).Ok?
    ensures c.version <= Load(c, conf, verdict).value.version <= c.version + 1
  {
  }

  // ---------------------------------------------------------------------------
  // Runs of loads

  /** Loading every configuration of `confs` in order, each accepted. */
  function LoadAll<T>(c: Cache<T>, confs: seq<T>): (r: Cache<T>)
    ensures r.mod == c.mod
    decreases |confs|
  {
    if |confs| == 0 then c
    else LoadAll(Load(c, confs[0], Verdict(true, None)).value, confs[1..])
  }

  /** From a new loader, n accepted loads end at version n - 1 with the last
      min(n, mod) versions cached when mod > 1, and all n when mod <= 1. */
  lemma {:induction false} LoadAllWindow<T>(c: Cache<T>, confs: seq<T>, done: nat)
    requires Window(c) && (done == 0 <==> |c.entries| == 0) && (done > 0 ==> c.version == done - 1)
    requires |c.entries| == if c.mod > 1 then Min(done, c.mod) else done
    ensures |confs| + done > 0 ==> LoadAll(c, confs).version == |confs| + done - 1
    ensures Window(LoadAll(c, confs))
    ensures |LoadAll(c, confs).entries| == if c.mod > 1 then Min(|confs| + done, c.mod) else |confs| + done
    decreases |confs|
  {
    if |confs| > 0 {
      var c1 := Load(c, confs[0], Verdict(true, None)).value;
      LoadKeepsWindow(c, confs[0], Verdict(true, None));
      assert c1.version == done;
      LoadAllWindow(c1, confs[1..], done + 1);
    }
  }

  /** From a new loader, n accepted loads (n > 0) end at version n - 1
      holding the versions from n - min(n, mod) on when mod > 1, and every
      version from 0 on when mod <= 1. */
  lemma LoadAllFresh<T>(mod: int, confs: seq<T>)
    requires |confs| > 0
    ensures LoadAll(NewConfLoader<T>(mod), confs).version == |confs| - 1
    ensures LoadAll(NewConfLoader<T>(mod), confs).entries.Keys ==
      Range(|confs| - (if mod > 1 then Min(|confs|, mod) else |confs|), |confs| - 1)
  {
    LoadAllWindow(NewConfLoader<T>(mod), confs, 0);
  }

  /** Four loads with mod 2 leave versions 2 and 3. */
  lemma FourLoadsKeepTwo<T>(a: T, b: T, cc: T, d: T)
    ensures LoadAll(NewConfLoader<T>(2), [a, b, cc, d]).version == 3
    ensures LoadAll(NewConfLoader<T>(2), [a, b, cc, d]).entries.Keys == {2, 3}
  {
    var confs := [a, b, cc, d];
    assert LoadAll(NewConfLoader<T>(2), confs).version == 3
      && LoadAll(NewConfLoader<T>(2), confs).entries.Keys == Range(2, 3) by {
      LoadAllFresh(2, confs);
    }
    assert Range(2, 3) == {2, 3};
  }
}

=== FILE: walk.dfy ===
/** What the two reflective walkers of load.go and pkg/parse/load.go share:
    zeroType (which, unlike the one in pkg/parse/utils.go, fills in no
    defaults), the conversion of a default token to a map key, the kinds
    parseValue dispatches on, and the panics reflect raises on the way. */
module Walk {
  import opened Wrappers
  import opened Numeric
  import opened Types
  import opened Support

  /** reflect's panic when Set is called on the invalid Value that Elem
      returns for a nil pointer. */
  const NilElemPanic := Panic("reflect: call of reflect.Value.Set on zero Value")

  /** reflect's panic when a value reached through an unexported field is
      written, or is stored somewhere else. */
  const UnexportedPanic := Panic("reflect: reflect.Value.Set using value obtained using unexported field")

  /** reflect's panic when Interface is called on a value reached through an
      unexported field. */
  const InterfacePanic := Panic("reflect.Value.Interface: cannot return value obtained from unexported field or method")

  /** The runtime panic of indexing past the end of the default tokens. */
  const IndexPanic := Panic("runtime error: index out of range")

  /** The runtime panic of a method call on a nil option. */
  const NilOptionPanic := Panic("runtime error: invalid memory address or nil pointer dereference")

  /** panic(err) inside setZeroType: a panic passes through, an error becomes
      one. */
  function Raise(e: Error): (r: Error)
    ensures r.Panic?
    ensures e.Panic? ==> r == e
  {
    if e.Panic? then e else Panic("setZeroType: map element walk failed")
  }

  /** The kinds parseValue hands to parseSample (bool, strings, integers,
      floats). */
  predicate IsSampleKind(t: Ty) {
    t.Bool? || t.Str? || t.Int? || t.Uint? || t.Float?
  }

  /** The kinds parseValue leaves alone (interfaces, chans, funcs and the
      other unsupported kinds). */
  predicate IsInertKind(t: Ty) {
    t.Iface? || t.Other?
  }

  /** The value zeroType builds: every pointer level is allocated, the
      innermost TextUnmarshaler pointee is in its zero state, and the
      non-pointer base is its type's zero value. */
  predicate ZeroBelowPointers(v: Val, t: Ty)
    decreases t
  {
    match t
    case Ptr(e) => v.VPtr? && ZeroBelowPointers(v.target, e)
    case TextU => v == VText(Some(""))
    case _ => v == ZeroOf(t)
  }

  /** zeroType with zeroPointValue (load.go and pkg/parse/load.go). */
  function ZeroTypeW(t: Ty): (r: Val)
    decreases t
    ensures HasType(r, t) && PointersSet(r, t)
    ensures ZeroBelowPointers(r, t)
  {
    ZeroOfHasType(t);
    match t
    case Ptr(e) =>
      ZeroOfHasType(e);
      VPtr(if e.Ptr? || e == TextU then ZeroTypeW(e) else ZeroOf(e))
    case TextU => VText(Some(""))
    case _ => ZeroOf(t)
  }

  /** The access of zeroType's value: reflect.Zero gives a value that cannot
      be set, reflect.New a pointer that cannot be set but whose pointee can,
      and reflect.Indirect(reflect.New(t)) a struct that can be set. */
  function ZeroTypeAccess(t: Ty): (r: Access)
    ensures r.CanInterface()
    ensures r.CanSet() <==> t.Struct?
  {
    if t.Struct? then Settable else Unaddressable
  }

  /** One default token as a key of kind `kk` in setZeroType: integer kinds
      go through strconv.Atoi and a token it rejects is dropped (None); the
      parsed int is converted, with truncation, to the key type; a string kind
      takes the token verbatim; converting a string to any other kind panics. */
  function MapKey(kk: KeyKind, token: string): (r: Outcome<Option<Key>>)
    ensures r.Ok? && r.value.Some? ==> KeyFits(r.value.value, kk)
    ensures r.Err? <==> kk.KOther?
    ensures r.Err? ==> r.error.Panic?
    ensures kk == KString ==> r == Ok(Some(KStr(token)))
    ensures (kk.KInt? || kk.KUint?) ==> (r == Ok(None) <==> Atoi(token).None?)
  {
    match kk
    case KString => Ok(Some(KStr(token)))
    case KInt(w) =>
      (match Atoi(token)
       case None => Ok(None)
       case Some(n) => Ok(Some(KNum(WrapInt(n, w)))))
    case KUint(w) =>
      (match Atoi(token)
       case None => Ok(None)
       case Some(n) => Ok(Some(KNum(WrapUint(n, w)))))
    case KOther(_) => Err(ConvertPanic(kk))
  }

  /** A value of type `t` that is zero in Go's reflect.Value.IsZero sense is
      that type's zero value: setZeroType's reflect.Zero on a zero struct
      writes back what was there. */
  lemma {:induction false} ShallowZeroIsZeroOf(v: Val, t: Ty)
    requires HasType(v, t) && ShallowZero(v)
    ensures v == ZeroOf(t)
    decreases t
  {
    match t
    case Struct(fs) =>
      forall i | 0 <= i < |fs| ensures v.fields[i] == ZeroOf(t).fields[i] {
        ShallowZeroIsZeroOf(v.fields[i], fs[i].ty);
      }
    case _ =>
  }
}

=== FILE: walk_props.dfy ===
/** Properties of the two load.go walkers: what setZeroType does to maps and
    to values it has already shaped, the pointer reset of parsePointer, and
    the slice defaults of both flavours on small configurations. */
module WalkProps {
  import opened Wrappers
  import opened Numeric
  import opened Types
  import opened Support
  import opened Options
  import opened Scalar
  import opened Inspect
  import opened Walk
  import Csv
  import Pkg = PkgLoad
  import Root = RootLoad
  import Defaults

  /** Key `k` is what some default token converts to. */
  ghost predicate TokenKey(kk: KeyKind, vals: seq<string>, k: Key) {
    exists j :: 0 <= j < |vals| && MapKey(kk, vals[j]) == Ok(Some(k))
  }

  // ---------------------------------------------------------------------------
  // Map keys built by setZeroType

  lemma {:induction false} PkgBuildKeys(ext: Externals, t: Ty, vals: seq<string>, i: nat, acc: seq<(Key, Val)>, o: Option<TagOption>, d: string)
    requires t.Map? && i <= |vals| && DistinctKeys(acc)
    requires EntriesFit(acc, t.key, t.elem)
    requires Pkg.BuildEntries(ext, t, vals, i, acc, o, d).err.None?
    ensures forall k :: k in KeysOf(Pkg.BuildEntries(ext, t, vals, i, acc, o, d).entries) <==>
      k in KeysOf(acc) || exists j :: i <= j < |vals| && MapKey(t.key, vals[j]) == Ok(Some(k))
    ensures |Pkg.BuildEntries(ext, t, vals, i, acc, o, d).entries| <= |acc| + |vals| - i
    decreases |vals| - i
  {
    if i < |vals| {
      var w := Pkg.MapElement(ext, t, o, d);
      PkgBuildUnfold(ext, t, vals, i, acc, o, d);
      var mk := MapKey(t.key, vals[i]).value;
      var acc1 := if mk.None? then acc else Insert(acc, mk.value, w.value);
      var r := Pkg.BuildEntries(ext, t, vals, i + 1, acc1, o, w.dflt);
      PkgBuildKeys(ext, t, vals, i + 1, acc1, o, w.dflt);
      KeysStep(r.entries, acc, acc1, t.key, vals, i, mk);
    }
  }

  /** One turn of setZeroType's map loop that does not fail: the element
      walk succeeds, the token converts, and the loop goes on with the entry
      stored (or the token dropped). */
  lemma PkgBuildUnfold(ext: Externals, t: Ty, vals: seq<string>, i: nat, acc: seq<(Key, Val)>, o: Option<TagOption>, d: string)
    requires t.Map? && i < |vals| && DistinctKeys(acc)
    requires EntriesFit(acc, t.key, t.elem)
    requires Pkg.BuildEntries(ext, t, vals, i, acc, o, d).err.None?
    ensures Pkg.MapElement(ext, t, o, d).err.None? && MapKey(t.key, vals[i]).Ok?
    ensures MapKey(t.key, vals[i]).value.None? ==>
      Pkg.BuildEntries(ext, t, vals, i, acc, o, d) == Pkg.BuildEntries(ext, t, vals, i + 1, acc, o, Pkg.MapElement(ext, t, o, d).dflt)
    ensures MapKey(t.key, vals[i]).value.Some? ==>
      var acc1 := Insert(acc, MapKey(t.key, vals[i]).value.value, Pkg.MapElement(ext, t, o, d).value);
      EntriesFit(acc1, t.key, t.elem) &&
      Pkg.BuildEntries(ext, t, vals, i, acc, o, d) == Pkg.BuildEntries(ext, t, vals, i + 1, acc1, o, Pkg.MapElement(ext, t, o, d).dflt)
  {
    var w := Pkg.MapElement(ext, t, o, d);
    if MapKey(t.key, vals[i]).Ok? && MapKey(t.key, vals[i]).value.Some? {
      InsertFits(acc, MapKey(t.key, vals[i]).value.value, w.value, t.key, t.elem);
    }
  }

  /** The key set after token i is the key set after token i + 1 with what
      token i converts to added. */
  lemma KeysStep(r: seq<(Key, Val)>, acc: seq<(Key, Val)>, acc1: seq<(Key, Val)>, kk: KeyKind, vals: seq<string>, i: nat, mk: Option<Key>)
    requires i < |vals| && MapKey(kk, vals[i]) == Ok(mk)
    requires forall k :: k in KeysOf(acc1) <==> k in KeysOf(acc) || mk == Some(k)
    requires forall k :: k in KeysOf(r) <==> k in KeysOf(acc1) || exists j :: i + 1 <= j < |vals| && MapKey(kk, vals[j]) == Ok(Some(k))
    ensures forall k :: k in KeysOf(r) <==> k in KeysOf(acc) || exists j :: i <= j < |vals| && MapKey(kk, vals[j]) == Ok(Some(k))
  {
  }

  /** setZeroType on a nil map that can be set (pkg/parse): when it does not
      panic, the keys are exactly what the tokens convert to (string keys
      verbatim, integer keys through Atoi, rejected tokens dropped), so there
      are at most as many entries as tokens. */
  lemma PkgNilMapKeys(ext: Externals, t: Ty, o: Option<TagOption>, d: string)
    requires t.Map? && GetDefault(Pkg.Current(o, d)).Ok?
    requires Pkg.SetZeroType(ext, VNilMap, t, Settable, o, d).err.None?
    ensures Pkg.SetZeroType(ext, VNilMap, t, Settable, o, d).value.VMap?
    ensures forall k :: k in KeysOf(Pkg.SetZeroType(ext, VNilMap, t, Settable, o, d).value.entries) <==>
      TokenKey(t.key, GetDefault(Pkg.Current(o, d)).value, k)
    ensures |Pkg.SetZeroType(ext, VNilMap, t, Settable, o, d).value.entries| <= |GetDefault(Pkg.Current(o, d)).value|
  {
    PkgBuildKeys(ext, t, GetDefault(Pkg.Current(o, d)).value, 0, [], o, d);
  }

  lemma {:induction false} RootBuildKeys(ext: Externals, t: Ty, vals: seq<string>, i: nat, acc: seq<(Key, Val)>, o: Root.RootOption)
    requires t.Map? && i <= |vals| && DistinctKeys(acc)
    requires EntriesFit(acc, t.key, t.elem)
    requires Root.BuildEntries(ext, t, vals, i, acc, o).Ok?
    ensures forall k :: k in KeysOf(Root.BuildEntries(ext, t, vals, i, acc, o).value) <==>
      k in KeysOf(acc) || exists j :: i <= j < |vals| && MapKey(t.key, vals[j]) == Ok(Some(k))
    ensures |Root.BuildEntries(ext, t, vals, i, acc, o).value| <= |acc| + |vals| - i
    decreases |vals| - i
  {
    if i < |vals| {
      var w := Root.MapElement(ext, t, o);
      match MapKey(t.key, vals[i])
      case Ok(None) =>
        RootBuildKeys(ext, t, vals, i + 1, acc, o);
      case Ok(Some(k0)) =>
        var acc1 := Insert(acc, k0, w.value);
        InsertFits(acc, k0, w.value, t.key, t.elem);
        RootBuildKeys(ext, t, vals, i + 1, acc1, o);
    }
  }

  /** The same key set for the root package's setZeroType. */
  lemma RootNilMapKeys(ext: Externals, t: Ty, o: Root.RootOption)
    requires t.Map? && Root.RootDefault(o).Ok?
    requires Root.SetZeroType(ext, VNilMap, t, Settable, o).err.None?
    ensures Root.SetZeroType(ext, VNilMap, t, Settable, o).value.VMap?
    ensures forall k :: k in KeysOf(Root.SetZeroType(ext, VNilMap, t, Settable, o).value.entries) <==>
      TokenKey(t.key, Root.RootDefault(o).value, k)
    ensures |Root.SetZeroType(ext, VNilMap, t, Settable, o).value.entries| <= |Root.RootDefault(o).value|
  {
    RootBuildKeys(ext, t, Root.RootDefault(o).value, 0, [], o);
  }

  // ---------------------------------------------------------------------------
  // setZeroType shapes a value once

  /** A second setZeroType on the value the first one produced changes
      nothing: what it allocates is no longer zero, and a zero struct is
      rewritten with itself. */
  lemma PkgSetZeroTypeIdempotent(ext: Externals, v: Val, t: Ty, acc: Access, o: Option<TagOption>, d: string)
    requires HasType(v, t) && Pkg.SetZeroType(ext, v, t, acc, o, d).err.None?
    ensures Pkg.SetZeroType(ext, Pkg.SetZeroType(ext, v, t, acc, o, d).value, t, acc, o, Pkg.SetZeroType(ext, v, t, acc, o, d).dflt)
      == Pkg.SetZeroType(ext, v, t, acc, o, d)
  {
    PkgSetZeroTypeShapes(ext, v, t, acc, o, d);
  }

  /** What setZeroType returns is either what it was given or no longer zero. */
  lemma PkgSetZeroTypeShapes(ext: Externals, v: Val, t: Ty, acc: Access, o: Option<TagOption>, d: string)
    requires HasType(v, t) && Pkg.SetZeroType(ext, v, t, acc, o, d).err.None?
    ensures Pkg.SetZeroType(ext, v, t, acc, o, d) == Pkg.Walked(v, d, None)
      || !ShallowZero(Pkg.SetZeroType(ext, v, t, acc, o, d).value)
  {
    if t.Struct? {
      SetZeroTypeStructUnchanged(ext, v, t, acc, o, d);
    }
  }

  lemma RootSetZeroTypeIdempotent(ext: Externals, v: Val, t: Ty, acc: Access, o: Root.RootOption)
    requires HasType(v, t) && Root.SetZeroType(ext, v, t, acc, o).err.None?
    ensures Root.SetZeroType(ext, Root.SetZeroType(ext, v, t, acc, o).value, t, acc, o) == Root.SetZeroType(ext, v, t, acc, o)
  {
    if t.Struct? && acc.CanSet() && ShallowZero(v) {
      ZeroOfShallowZero(t);
    }
  }

  /** setZeroType's struct case writes back the value that was there. */
  lemma SetZeroTypeStructUnchanged(ext: Externals, v: Val, t: Ty, acc: Access, o: Option<TagOption>, d: string)
    requires t.Struct? && HasType(v, t)
    ensures Pkg.SetZeroType(ext, v, t, acc, o, d) == Pkg.Walked(v, d, None)
  {
    if acc.CanSet() && ShallowZero(v) {
      ShallowZeroIsZeroOf(v, t);
    }
  }

  // ---------------------------------------------------------------------------
  // parsePointer resets the pointee

  /** A non-nil pointer is not zero, so setZeroType leaves it and parseValue
      goes straight to parsePointer. */
  lemma PkgNonNilPointer(ext: Externals, x: Val, t: Ty, acc: Access, o: Option<TagOption>, d: string)
    requires t.Ptr? && HasType(x, t.elem)
    ensures acc.CanInterface() ==> Pkg.ParseValue(ext, VPtr(x), t, acc, o, d) == Pkg.ParsePointer(ext, VPtr(x), t, acc, o, d)
    ensures !acc.CanInterface() ==> Pkg.ParseValue(ext, VPtr(x), t, acc, o, d) == Pkg.Walked(VPtr(x), d, Some(InterfacePanic))
  {
    assert Pkg.SetZeroType(ext, VPtr(x), t, acc, o, d) == Pkg.Walked(VPtr(x), d, None);
  }

  /** parsePointer on a non-nil, writable pointer ignores the old pointee. */
  lemma PkgPointerIgnoresPointee(ext: Externals, t: Ty, acc: Access, o: Option<TagOption>, d: string, x1: Val, x2: Val)
    requires t.Ptr? && HasType(x1, t.elem) && HasType(x2, t.elem) && acc.CanInterface()
    ensures Pkg.ParsePointer(ext, VPtr(x1), t, acc, o, d) == Pkg.ParsePointer(ext, VPtr(x2), t, acc, o, d)
  {
  }

  /** Walking a non-nil pointer discards what it pointed to: two pointers of
      the same type give the same result whatever their pointees were. */
  lemma PkgPointerWipes(ext: Externals, t: Ty, acc: Access, o: Option<TagOption>, d: string, x1: Val, x2: Val)
    requires t.Ptr? && HasType(x1, t.elem) && HasType(x2, t.elem) && acc.CanInterface()
    ensures Pkg.ParseValue(ext, VPtr(x1), t, acc, o, d) == Pkg.ParseValue(ext, VPtr(x2), t, acc, o, d)
  {
    PkgNonNilPointer(ext, x1, t, acc, o, d);
    PkgNonNilPointer(ext, x2, t, acc, o, d);
    PkgPointerIgnoresPointee(ext, t, acc, o, d, x1, x2);
  }

  lemma RootNonNilPointer(ext: Externals, x: Val, t: Ty, acc: Access, o: Root.RootOption)
    requires t.Ptr? && HasType(x, t.elem)
    ensures Root.ParseValue(ext, VPtr(x), t, acc, o) == Root.ParsePointer(ext, VPtr(x), t, acc, o)
  {
    assert Root.SetZeroType(ext, VPtr(x), t, acc, o) == Applied(VPtr(x), None);
  }

  lemma RootPointerIgnoresPointee(ext: Externals, t: Ty, acc: Access, o: Root.RootOption, x1: Val, x2: Val)
    requires t.Ptr? && HasType(x1, t.elem) && HasType(x2, t.elem) && acc.CanInterface()
    ensures Root.ParsePointer(ext, VPtr(x1), t, acc, o) == Root.ParsePointer(ext, VPtr(x2), t, acc, o)
  {
  }

  /** The same reset in the root package's walker. */
  lemma RootPointerWipes(ext: Externals, t: Ty, acc: Access, o: Root.RootOption, x1: Val, x2: Val)
    requires t.Ptr? && HasType(x1, t.elem) && HasType(x2, t.elem) && acc.CanInterface()
    ensures Root.ParseValue(ext, VPtr(x1), t, acc, o) == Root.ParseValue(ext, VPtr(x2), t, acc, o)
  {
    RootNonNilPointer(ext, x1, t, acc, o);
    RootNonNilPointer(ext, x2, t, acc, o);
    RootPointerIgnoresPointee(ext, t, acc, o, x1, x2);
  }

  // ---------------------------------------------------------------------------
  // zeroType of the two engines

  /** The non-pointer type a chain of pointers ends in. */
  function BaseOf(t: Ty): Ty
    decreases t
  {
    if t.Ptr? then BaseOf(t.elem) else t
  }

  /** Where no struct is involved, the zeroType of pkg/parse/utils.go and the
      one of load.go build the same value. */
  lemma {:induction false} ZeroTypesAgree(p: Defaults.Parser, t: Ty, parts: seq<string>)
    requires !BaseOf(t).Struct?
    ensures Defaults.ZeroTypeD(p, t, parts) == Ok(ZeroTypeW(t))
    decreases t
  {
    if t.Ptr? && (t.elem.Ptr? || t.elem == TextU) {
      ZeroTypesAgree(p, t.elem, parts);
    }
  }
}

=== FILE: walk_slices.dfy ===
/** How the two load.go walkers hand the default tokens of a slice to its
    elements. Both give element i token i. When the slice has more elements
    than there are tokens, they part ways. The pkg/parse walker indexes past
    the tokens and panics. The root walker walks the remaining elements
    without a default and leaves them as they were. */
module WalkSlices {
  import opened Wrappers
  import opened Types
  import opened Support
  import opened Options
  import opened Scalar
  import opened Walk
  import opened Inspect
  import Pkg = PkgLoad
  import Root = RootLoad

  /** Tokens `vals[i..n]` are all defaults that parse as `et` (none is the
      "no default" marker). */
  predicate GoodTokens(et: Ty, vals: seq<string>, i: nat, n: nat, ext: Externals)
    requires IsSampleKind(et) && n <= |vals|
  {
    forall j :: i <= j < n ==> vals[j] != "-" && ParseLeaf(et, vals[j], ext).Ok?
  }

  /** Elements `es[i..]` are all zero, so parseSample may write them. */
  predicate ZeroFrom(es: seq<Val>, i: nat) {
    forall j :: i <= j < |es| ==> ShallowZero(es[j])
  }

  /** `xs[j]` is token j parsed as `et`, for every element from `i` on (no
      token is the "no default" marker). */
  predicate ParsesTo(et: Ty, vals: seq<string>, xs: seq<Val>, i: nat, ext: Externals)
    requires IsSampleKind(et) && |xs| <= |vals|
  {
    forall j :: i <= j < |xs| ==> vals[j] != "-" && ParseLeaf(et, vals[j], ext) == Ok(xs[j])
  }

  // ---------------------------------------------------------------------------
  // pkg/parse

  /** One zero leaf walked with a field option whose Default `d` parses: it
      receives the parsed default and the Default is left as it was. */
  lemma PkgLeafTakesDefault(ext: Externals, x: Val, et: Ty, acc: Access, o: Option<TagOption>, d: string)
    requires IsSampleKind(et) && HasType(x, et) && acc.CanSet() && ShallowZero(x)
    requires Pkg.HasField(o) && d != "-" && ParseLeaf(et, d, ext).Ok?
    ensures Pkg.ParseValue(ext, x, et, acc, o, d) == Pkg.Walked(ParseLeaf(et, d, ext).value, d, None)
  {
    assert Pkg.SetZeroType(ext, x, et, acc, o, d) == Pkg.Walked(x, d, None);
  }

  /** One turn of the element loop when element i, walked after the shared
      Default was overwritten with token i, becomes `x` without error. */
  lemma PkgSliceStep(ext: Externals, v: Val, t: Ty, acc: Access, o: Option<TagOption>, d: string, vals: seq<string>, i: nat, x: Val)
    requires t.Slice? && HasType(v, t) && v.VSlice? && i < |v.elems| && i < |vals| && Pkg.HasField(o)
    requires Pkg.ParseValue(ext, v.elems[i], t.elem, acc.Element(), o, vals[i]) == Pkg.Walked(x, vals[i], None)
    ensures HasType(VSlice(v.elems[i := x]), t)
    ensures Pkg.SliceElems(ext, v, t, acc, o, d, vals, i)
      == Pkg.SliceElems(ext, VSlice(v.elems[i := x]), t, acc, o, vals[i], vals, i + 1)
  {
  }

  /** The turn for a zero leaf and a token that parses. */
  lemma PkgSliceLeafStep(ext: Externals, v: Val, t: Ty, acc: Access, o: Option<TagOption>, d: string, vals: seq<string>, i: nat)
    requires t.Slice? && IsSampleKind(t.elem) && acc.CanInterface() && Pkg.HasField(o)
    requires HasType(v, t) && v.VSlice? && i < |v.elems| && i < |vals| && ShallowZero(v.elems[i])
    requires vals[i] != "-" && ParseLeaf(t.elem, vals[i], ext).Ok?
    ensures HasType(VSlice(v.elems[i := ParseLeaf(t.elem, vals[i], ext).value]), t)
    ensures Pkg.SliceElems(ext, v, t, acc, o, d, vals, i)
      == Pkg.SliceElems(ext, VSlice(v.elems[i := ParseLeaf(t.elem, vals[i], ext).value]), t, acc, o, vals[i], vals, i + 1)
  {
    PkgLeafTakesDefault(ext, v.elems[i], t.elem, acc.Element(), o, vals[i]);
    PkgSliceStep(ext, v, t, acc, o, d, vals, i, ParseLeaf(t.elem, vals[i], ext).value);
  }

  /** With at least as many tokens as elements, a zero slice of leaves ends
      up holding the parsed tokens (`xs[j]` is token j parsed), and the walk
      succeeds. */
  lemma {:induction false} PkgSliceTakesTokens(ext: Externals, v: Val, t: Ty, acc: Access, o: Option<TagOption>, d: string, vals: seq<string>, xs: seq<Val>, i: nat)
    requires t.Slice? && IsSampleKind(t.elem) && acc.CanInterface() && Pkg.HasField(o)
    requires HasType(v, t) && v.VSlice? && i <= |v.elems| <= |vals| && |xs| == |v.elems|
    requires ZeroFrom(v.elems, i) && ParsesTo(t.elem, vals, xs, i, ext)
    ensures Pkg.SliceElems(ext, v, t, acc, o, d, vals, i).err.None?
    ensures Pkg.SliceElems(ext, v, t, acc, o, d, vals, i).value.elems[i..] == xs[i..]
    decreases |v.elems| - i
  {
    if i < |v.elems| {
      var x := xs[i];
      var v1 := VSlice(v.elems[i := x]);
      assert HasType(v1, t) && Pkg.SliceElems(ext, v, t, acc, o, d, vals, i) == Pkg.SliceElems(ext, v1, t, acc, o, vals[i], vals, i + 1) by {
        PkgSliceLeafStep(ext, v, t, acc, o, d, vals, i);
      }
      var r1 := Pkg.SliceElems(ext, v1, t, acc, o, vals[i], vals, i + 1);
      assert r1.err.None? && r1.value.elems[i + 1..] == xs[i + 1..] by {
        ZeroFromUpdate(v.elems, i, x);
        PkgSliceTakesTokens(ext, v1, t, acc, o, vals[i], vals, xs, i + 1);
      }
      assert r1.value.elems[i] == x;
      SameFrom(r1.value.elems, xs, i);
    }
  }

  /** Two sequences that agree at `i` and after it agree from `i` on. */
  lemma SameFrom(a: seq<Val>, b: seq<Val>, i: nat)
    requires i < |a| == |b| && a[i] == b[i] && a[i + 1..] == b[i + 1..]
    ensures a[i..] == b[i..]
  {
    assert a[i..] == [a[i]] + a[i + 1..];
    assert b[i..] == [b[i]] + b[i + 1..];
  }

  /** Overwriting element i keeps the elements after it zero. */
  lemma ZeroFromUpdate(es: seq<Val>, i: nat, x: Val)
    requires i < |es| && ZeroFrom(es, i)
    ensures ZeroFrom(es[i := x], i + 1)
  {
    assert forall j :: i + 1 <= j < |es| ==> es[i := x][j] == es[j];
  }

  /** With fewer tokens than elements, the walk reaches an element without a
      token and panics with an index out of range. */
  lemma {:induction false} PkgSliceRunsOut(ext: Externals, v: Val, t: Ty, acc: Access, o: Option<TagOption>, d: string, vals: seq<string>, i: nat)
    requires t.Slice? && IsSampleKind(t.elem) && acc.CanInterface() && Pkg.HasField(o)
    requires HasType(v, t) && v.VSlice? && i <= |vals| < |v.elems|
    requires ZeroFrom(v.elems, i) && GoodTokens(t.elem, vals, i, |vals|, ext)
    ensures Pkg.SliceElems(ext, v, t, acc, o, d, vals, i).err == Some(IndexPanic)
    decreases |vals| - i
  {
    if i < |vals| {
      var x := ParseLeaf(t.elem, vals[i], ext).value;
      var v1 := VSlice(v.elems[i := x]);
      assert HasType(v1, t) && Pkg.SliceElems(ext, v, t, acc, o, d, vals, i) == Pkg.SliceElems(ext, v1, t, acc, o, vals[i], vals, i + 1) by {
        PkgSliceLeafStep(ext, v, t, acc, o, d, vals, i);
      }
      ZeroFromUpdate(v.elems, i, x);
      PkgSliceRunsOut(ext, v1, t, acc, o, vals[i], vals, i + 1);
    }
  }

  // ---------------------------------------------------------------------------
  // The root package

  /** One zero leaf walked with a tag value that parses receives it. */
  lemma RootLeafTakesDefault(ext: Externals, x: Val, et: Ty, acc: Access, o: Root.RootOption)
    requires IsSampleKind(et) && HasType(x, et) && acc.CanSet() && ShallowZero(x)
    requires o.tagValue.Some? && o.tagValue.value != "-" && ParseLeaf(et, o.tagValue.value, ext).Ok?
    ensures Root.ParseValue(ext, x, et, acc, o) == Applied(ParseLeaf(et, o.tagValue.value, ext).value, None)
  {
    assert Root.SetZeroType(ext, x, et, acc, o) == Applied(x, None);
  }

  /** One leaf walked without a tag value is left as it is. */
  lemma RootLeafWithoutDefault(ext: Externals, x: Val, et: Ty, acc: Access, o: Root.RootOption)
    requires IsSampleKind(et) && HasType(x, et) && o.tagValue.None?
    ensures Root.ParseValue(ext, x, et, acc, o) == Applied(x, None)
  {
    assert Root.SetZeroType(ext, x, et, acc, o) == Applied(x, None);
  }

  /** `xs` is what the root walker should leave from element `i` on: token j
      parsed where token j exists (element j being zero), element j itself
      past the last token. */
  predicate RootExpected(et: Ty, vals: seq<string>, es: seq<Val>, xs: seq<Val>, i: nat, ext: Externals)
    requires IsSampleKind(et) && |xs| == |es|
  {
    forall j :: i <= j < |xs| ==>
      if j < |vals| then ShallowZero(es[j]) && vals[j] != "-" && ParseLeaf(et, vals[j], ext) == Ok(xs[j])
      else xs[j] == es[j]
  }

  /** One turn of the root element loop when element i walks to `x`. */
  lemma RootSliceStep(ext: Externals, v: Val, t: Ty, acc: Access, o: Root.RootOption, vals: seq<string>, i: nat, x: Val)
    requires t.Slice? && HasType(v, t) && v.VSlice? && i < |v.elems|
    requires Root.ParseValue(ext, v.elems[i], t.elem, acc.Element(), Root.ElementOption(o, vals, i)) == Applied(x, None)
    ensures HasType(VSlice(v.elems[i := x]), t)
    ensures Root.SliceElems(ext, v, t, acc, o, vals, i) == Root.SliceElems(ext, VSlice(v.elems[i := x]), t, acc, o, vals, i + 1)
  {
  }

  /** The turn for a leaf: it takes token i when there is one, else stays. */
  lemma RootSliceLeafStep(ext: Externals, v: Val, t: Ty, acc: Access, o: Root.RootOption, vals: seq<string>, xs: seq<Val>, i: nat)
    requires t.Slice? && IsSampleKind(t.elem) && acc.CanInterface()
    requires HasType(v, t) && v.VSlice? && i < |v.elems| && |xs| == |v.elems|
    requires RootExpected(t.elem, vals, v.elems, xs, i, ext)
    ensures HasType(VSlice(v.elems[i := xs[i]]), t)
    ensures Root.SliceElems(ext, v, t, acc, o, vals, i) == Root.SliceElems(ext, VSlice(v.elems[i := xs[i]]), t, acc, o, vals, i + 1)
  {
    var o1 := Root.ElementOption(o, vals, i);
    if i < |vals| {
      RootLeafTakesDefault(ext, v.elems[i], t.elem, acc.Element(), o1);
    } else {
      RootLeafWithoutDefault(ext, v.elems[i], t.elem, acc.Element(), o1);
    }
    RootSliceStep(ext, v, t, acc, o, vals, i, xs[i]);
  }

  lemma RootExpectedUpdate(et: Ty, vals: seq<string>, es: seq<Val>, xs: seq<Val>, i: nat, ext: Externals)
    requires IsSampleKind(et) && |xs| == |es| && i < |es|
    requires RootExpected(et, vals, es, xs, i, ext)
    ensures RootExpected(et, vals, es[i := xs[i]], xs, i + 1, ext)
  {
    assert forall j :: i + 1 <= j < |es| ==> es[i := xs[i]][j] == es[j];
  }

  /** Element j of a zero slice of leaves becomes token j parsed while tokens
      last, the elements past the last token keep their value, and the walk
      succeeds however few tokens there are. */
  lemma {:induction false} RootSliceTakesTokens(ext: Externals, v: Val, t: Ty, acc: Access, o: Root.RootOption, vals: seq<string>, xs: seq<Val>, i: nat)
    requires t.Slice? && IsSampleKind(t.elem) && acc.CanInterface()
    requires HasType(v, t) && v.VSlice? && i <= |v.elems| && |xs| == |v.elems|
    requires RootExpected(t.elem, vals, v.elems, xs, i, ext)
    ensures Root.SliceElems(ext, v, t, acc, o, vals, i).err.None?
    ensures Root.SliceElems(ext, v, t, acc, o, vals, i).value.elems[i..] == xs[i..]
    decreases |v.elems| - i
  {
    if i < |v.elems| {
      var v1 := VSlice(v.elems[i := xs[i]]);
      assert HasType(v1, t) && Root.SliceElems(ext, v, t, acc, o, vals, i) == Root.SliceElems(ext, v1, t, acc, o, vals, i + 1) by {
        RootSliceLeafStep(ext, v, t, acc, o, vals, xs, i);
      }
      var r1 := Root.SliceElems(ext, v1, t, acc, o, vals, i + 1);
      assert r1.err.None? && r1.value.elems[i + 1..] == xs[i + 1..] by {
        RootExpectedUpdate(t.elem, vals, v.elems, xs, i, ext);
        RootSliceTakesTokens(ext, v1, t, acc, o, vals, xs, i + 1);
      }
      assert r1.value.elems[i] == xs[i];
      SameFrom(r1.value.elems, xs, i);
    }
  }
}

=== FILE: wrappers.dfy ===
/** Failure-compatible wrappers used throughout the model: an optional value and
    a success-or-error result, both usable with `:-`. */
module Wrappers {

  /** A value that may be absent; also stands for a Go pointer that may be nil. */
  datatype Option<+T> = None | Some(value: T) {

    predicate IsFailure() {
      None?
    }

    function PropagateFailure<U>(): Option<U>
      requires None?
    {
      None
    }

    function Extract(): T
      requires Some?
    {
      value
    }

    function GetOr(default: T): T {
      match this
      case Some(v) => v
      case None => default
    }
  }

  /** The outcome of an operation that returns a Go `error`. */
  datatype Result<+R, +E> = Ok(value: R) | Err(error: E) {

    predicate IsFailure() {
      Err?
    }

    function PropagateFailure<U>(): Result<U, E>
      requires Err?
    {
      Err(error)
    }

    function Extract(): R
      requires Ok?
    {
      value
    }
  }
}
